=== FILE: README.md ===
# School management REST API: a Dafny model of its request handlers

This project models the core of a multi-tenant school management backend:
an Express/Mongoose REST API where each user (Admin, Teacher, Student or
SuperAdmin) belongs to a school, and every controller scopes its queries to
the caller's school. The model covers:

- the controllers for quizzes, fees and UPI payments, users, clubs, the
  canteen, assignments, attendance, classes, notices, the library,
  submissions, messaging, courses, lesson plans and PTM slots, reports,
  enrollments, study materials, marks, certificates, remarks and the gallery;
- the socket.io handshake and `sendMessage` handler in `server.js`, and the
  error middleware there;
- the message service, the admin-or-teacher middleware, and the schema
  rules these handlers rely on: defaults, required fields, enums, and the
  reset-token lifetime.

Each collection is a `seq` of immutable records in natural (insertion)
order. `findOne` is the first match (`Common.FindFirst`), `find` is
`Common.Filter`, and a sorted listing is `Sorting.Select`: the matching
records, sorted under a total preorder. A handler is a pure function from
the stores and the request to a `Step`: the stores after the request and a
`Response`, which is either `Ok(status, body)` or `Err(status, message)`.
Fields a request may omit are `Option`s, with JavaScript truthiness made
explicit (`Truthy`: absent and `""` are falsy). Ids, clocks and other
database-assigned values are parameters. An error thrown without a
preceding `res.status(...)` is reported with the status `Common.Uncaught`
(500). That is what the error middleware evidently intends; see Findings.

Two Mongoose behaviours are modelled as the driver performs them:

- a filter key whose value is `undefined` is dropped from the query;
- a field the schema does not declare is dropped on save (strict mode).

## Model

| member | source | states |
|---|---|---|
| Common.ErrorStatusAsWritten | server.js:88-95 | a status of 0 becomes 500, and any other status already set on the response is kept as the reply's status |
| Common.ErrorStatus | server.js:88-95 | the corrected middleware never answers an error with 200; any other explicit status is kept |
| Common.UncaughtErrorReportedAsSuccess | server.js:89 | with the response's default status 200, the middleware as written reports the error as 200, while the corrected one reports 500 |
| Access.AdminOrTeacher | src/middleware/adminOrTeacherMiddleware.js:1-8 | the gate passes exactly an authenticated Admin or Teacher; everyone else, including a request with no user, gets 401 with the gate's message |
| Access.GateRejectsNonStaff | src/middleware/adminOrTeacherMiddleware.js:2-6 | Students and SuperAdmins are always refused with 401 |
| Access.SubjectStudent | src/controllers/markController.js:50-52 | a Student caller is always asked about itself, whatever id it passes; other callers get the id they asked for |
| Access.OwnerOnlyStricter | src/controllers/plannerController.js:49-66 | the owner-only rule of lesson plans implies the owner-or-Admin rule of assignments, and the two differ exactly for an Admin acting on another user's record |
| Keyed.Upsert | src/controllers/markController.js:12-35 | the first record with the key is rewritten in place when one exists, otherwise the new record is appended; it reports which happened and where |
| Keyed.UpsertKeepsUnique | src/controllers/markController.js:12-35 | when the update keeps the key and the new record carries it, a store without duplicate keys stays without them |
| Keyed.UpsertLeavesExactlyOne | src/controllers/markController.js:12-35 | after the upsert, exactly one record carries the key |
| Keyed.FilterUniqueKey | src/controllers/submissionController.js:47-59 | in a store without duplicate keys, a query by one record's key returns that record alone |
| Keyed.UpdateKeepsUnique | src/controllers/markController.js:19-24 | rewriting a record without changing its key keeps a store free of duplicate keys |
| Keyed.AppendKeepsUnique | src/controllers/markController.js:25-35 | appending a record whose key no record carries keeps a store free of duplicate keys |
| Keyed.UniquePresentOnce | src/controllers/markController.js:12-35 | in a store without duplicate keys, the key of a present record occurs exactly once |
| Socket.Authenticate | server.js:110-135 | the handshake is accepted exactly when a token and the secret are present, the token verifies, and the user it names exists; it then attaches that user; without a token it refuses with TokenNotProvided, then without the secret with SecretMissing, a token that fails to verify with InvalidToken, and a verified id naming no user with UserNotFound |
| Socket.Connect | server.js:138-144 | a connected socket joins exactly two rooms: its user's id, then its school's id |
| Socket.RejectedJoinsNothing | server.js:112-115 | a handshake without a token is refused before any lookup |
| Socket.AcceptedConnects | server.js:121-144 | an accepted handshake yields a session connected to a user of the store |
| Socket.OnSendMessage | server.js:149-171 | missing fields give the error event; a recipient outside the sender's school gives the service's refusal; otherwise the message is stored and fanned out to the recipient's and the sender's rooms |
| Socket.Broadcasts | server.js:159-165 | one outgoing event per emission, addressed to the emission's room and carrying its message |
| Socket.FanOutStaysInSchool | server.js:142-165 | when user rooms are distinct, any connected socket that receives a fan-out belongs to the sender's school |
| Messaging.CreateAndEmitMessage | src/services/messageService.js:4-28 | refused with 403 exactly when the recipient is not a user of the sender's school; otherwise the message, stamped with the school and time, is appended; with a socket server it is emitted to the recipient's room, then the sender's; without one, it is not emitted |
| Messaging.SendKeepsTenancy | src/services/messageService.js:6-18 | if every stored message joins users of its own school, so does the store after a send |
| Messaging.UnknownRecipientLooksForeign | src/services/messageService.js:6-11 | a recipient id that names no user is refused like one from another school |
| Messaging.GetConversation | src/controllers/messageController.js:33-45 | once the model is imported: exactly the caller's school's messages between the two users, oldest first, with each one as often as it is stored |
| Messaging.GetConversationAsWritten | src/controllers/messageController.js:1-2 | as written, the listing always fails, with the untouched status 200 |
| Messaging.ConversationNeverDelivered | src/controllers/messageController.js:36 | the written handler never answers, and the corrected one always does |
| Messaging.SentMessageInThread | src/controllers/messageController.js:36-42 | a message the service delivers appears in the sender's conversation with the recipient |
| Messaging.ThreadOrdered | src/controllers/messageController.js:42 | in a conversation, a strictly older message comes before a newer one |
| Messaging.QueryAgreesWithTable | src/controllers/messageController.js:54-80 | the per-role query built by the handler selects exactly the users the role table allows |
| Messaging.Visible | src/controllers/messageController.js:61-82 | exactly the users the caller's role may chat with |
| Messaging.GetChatTargets | src/controllers/messageController.js:50-84 | once the model is imported: every target is the projection of a user the caller may see, so someone else of the caller's school and of a role the caller may see, and every user the caller may see is listed |
| Messaging.GetChatTargetsAsWritten | src/controllers/messageController.js:1-2 | as written, the listing always fails, with the untouched status 200 |
| Messaging.ChatTargetsNeverDelivered | src/controllers/messageController.js:82 | the written handler never answers, and the corrected one always does |
| Messaging.TargetsRespectRoles | src/controllers/messageController.js:54-80 | Teachers never see Teachers; Students never see Students; everyone but a SuperAdmin sees only their own school; nobody sees themselves |
| Messaging.SendMessage | src/controllers/messageController.js:7-28 | 400 when the recipient or content is missing; 403 from the service for a foreign recipient; otherwise 201 with the stored message from the caller to the recipient, carrying the content, the school and the time, appended to the log and, with a socket server, emitted to the recipient's room and then the sender's; an error leaves the log unchanged |
| Messaging.MessageRouteAsWritten | src/routes/messageRoutes.js:7-8 | only two GET routes exist, and nothing reaches the send handler |
| Messaging.MessageRoute | src/routes/messageRoutes.js:7-8 | with the missing POST route, exactly `POST /` reaches the send handler, and every other request is routed as before |
| Messaging.SendHandlerUnreachable | src/routes/messageRoutes.js:7-8 | no request reaches the send handler as written, and the corrected table routes `POST /` to it |
| Quizzes.CreateQuiz | src/controllers/quizController.js:10-46 | created exactly when the title is present and every question has a non-empty text, a correct answer and only non-empty options; the stored quiz carries the id, title, questions and classes sent; a competition is published at once, any other quiz starts as a draft; absent fields take the schema defaults |
| Quizzes.Strip | src/controllers/quizController.js:96-100 | every question loses its correct answer, and nothing else about the quiz changes |
| Quizzes.ClassIdsOf | src/controllers/quizController.js:57-60 | exactly the ids of the caller's school's classes whose roster holds the student |
| Quizzes.QuizzesAvailable | src/controllers/quizController.js:54-77 | the quizzes the availability rule allows, newest first, with no correct answers; every allowed quiz is listed (stripped), every listed quiz is an allowed one, stripped, and there are exactly as many as the query matches |
| Quizzes.StudentSeesOnlyOpenQuizzes | src/controllers/quizController.js:57-67 | a Student lists only published or live quizzes of its own school |
| Quizzes.GetQuizById | src/controllers/quizController.js:82-103 | 404 exactly when the school has no quiz with that id; otherwise the reply is the first such quiz, stripped of its correct answers exactly when the caller is a Student who did not write it, and unchanged for anyone else |
| Quizzes.CreatedQuizLookup | src/controllers/quizController.js:10-103 | a quiz just created under a fresh id is found by that id: whole for its author, stripped of every correct answer for a Student of the school who did not write it |
| Quizzes.ChoosePrecedence | src/controllers/quizController.js:128-137 | a present detailed answer wins over the plain answers; without either, the choice is -1 with no time spent |
| Quizzes.CountCorrect | src/controllers/quizController.js:139-144 | the number of correct answers never exceeds the number of questions |
| Quizzes.GradePrefix | src/controllers/quizController.js:127-152 | after the first n questions: one judged result per question, the correct count equals the count of correct results, the total is the sum of points, and with non-negative points what was obtained lies between 0 and the total |
| Quizzes.Grade | src/controllers/quizController.js:127-152 | over the whole quiz: each result records its index and the option chosen under the precedence rule; the counters are as in GradePrefix |
| Quizzes.Score | src/controllers/quizController.js:155 | the percentage lies in [0, 100], is 100 exactly when every answer is correct, and is 0 exactly when none is |
| Quizzes.ScoreMonotone | src/controllers/quizController.js:155 | more correct answers never lower the score |
| Quizzes.FirstCommon | src/controllers/quizController.js:210-216 | the id found is in both lists, and none is found exactly when the lists share no id |
| Quizzes.MarkClass | src/controllers/quizController.js:207-224 | the Mark's class is the first of the quiz's classes the student is in, else the student's first class; empty ids are skipped; it is always one of the student's classes |
| Quizzes.SubmitQuiz | src/controllers/quizController.js:111-251 | 404 when the school has no such quiz, 500 when it has no questions, 201 otherwise; the reply carries the grading of the stored questions (correct count, per-question answers, question count), a score in [0, 100] derived from the correct count, and passed exactly when the score reaches the quiz's passing score; the result is appended; without a linked assignment of the school submissions and marks stay as they were, with one the submission upsert is applied, and the Mark upsert too unless no class of the student qualifies; an error leaves the gradebook unchanged |
| Quizzes.PassedIffScoreReachesPassingScore | src/controllers/quizController.js:155-248 | passed holds exactly when the score reaches the quiz's passing score; a quiz without questions is never graded |
| Quizzes.AutoMarkLeavesOne | src/controllers/quizController.js:226-240 | the gradebook Mark upsert keeps keys unique and leaves exactly one Mark per (student, exam, class) |
| Quizzes.AutoSubmitGrades | src/controllers/quizController.js:183-201 | the submission upsert keeps (assignment, student) unique and leaves exactly one submission for the pair, Graded with the score and marked as an automatic submission |
| Quizzes.LinkedSubmitGrades | src/controllers/quizController.js:177-201 | after a successful attempt at a quiz linked to an assignment of the school, the student has exactly one submission for that assignment, Graded with the attempt's score |
| Fees.Classify | src/controllers/feeController.js:28-38 | the entry is a Credit exactly when an unpaid fee is being paid; a Debit exactly when a paid fee reverts to pending or the amount changes to a different defined value; otherwise there is no movement and the amount is 0 |
| Fees.MergeFees | src/controllers/feeController.js:52-54 | the status and due date keep their old values when absent; the amount is replaced whenever it is given, 0 included; no other field of the student changes |
| Fees.UpdateFeeDetailsAsWritten | src/controllers/feeController.js:41-50 | as written, a remarks-only update of an existing student fails, because the entry's type falls back to Info, which the ledger's enum refuses; any error leaves the users and the ledger unchanged |
| Fees.UpdateFeeDetails | src/controllers/feeController.js:19-68 | 404 exactly when the school has no such student; otherwise the student, and no one else, gets the merged fee fields, and exactly one entry is appended when there is a movement or a remark: its type comes from the classification (Info when there is none), and it carries the given remarks |
| Fees.InfoEntryRefused | src/controllers/feeController.js:45 | the written and the corrected update differ exactly on a remarks-only update of an existing student |
| Fees.Levy | src/controllers/feeController.js:278-287 | one student's levy adds the amount, replaces the due date when one is given, reopens a paid fee as pending, and changes nothing else |
| Fees.CountRoster | src/controllers/feeController.js:271-274 | the number of students levied is at most the number of users |
| Fees.Roster | src/controllers/feeController.js:271-274 | the students levied, in user order: as many as the count, and exactly the users of the school on the class roster |
| Fees.LevyUsers | src/controllers/feeController.js:278-300 | each roster member of the school is levied; every other user is left unchanged |
| Fees.LevyEntries | src/controllers/feeController.js:289-298 | one Debit of the amount per student levied: entry k names the k-th roster member of the school in user order |
| Fees.BulkAssignFees | src/controllers/feeController.js:256-303 | 400 without a class id or a non-zero amount; 404 for an unknown class; on success every user goes through the per-student levy (roster members of the school get the amount added, the given due date and Paid reopened as Pending; every other user is untouched), one Debit is appended per student levied, the k-th naming the k-th roster member, and the reply is that count |
| Fees.LevyRaisesTotal | src/controllers/feeController.js:278-300 | the levy raises the school's total amount due by the amount times the number of students levied |
| Fees.CreateUpiPayment | src/controllers/feeController.js:143-185 | 400 unless the amount is positive; 404 when the caller is not a user of the school; otherwise one pending UPI Credit is appended, and its id is returned |
| Fees.ParseUpiStatus | src/models/FeeTransaction.js:29-33 | exactly the four enum names parse, and each of PENDING, SUCCESS, FAILED and REFUNDED to the status of that name; any other spelling gives none |
| Fees.HandleUpiWebhook | src/controllers/feeController.js:190-249 | 400 without a transaction id or status; 404 for an unknown entry; an entry already SUCCESS is acknowledged unchanged; an upper-cased status outside the enum fails with 500 and changes nothing; otherwise the entry takes the status and the reference; any status but SUCCESS leaves the users alone, and SUCCESS makes the entry's student, found by id alone, Paid with nothing due while every other user and every other field stays |
| Fees.SuccessIsTerminal | src/controllers/feeController.js:218-221 | once a webhook has recorded SUCCESS for an entry, any later webhook for it leaves both stores unchanged |
| Fees.UpiPaymentSettlesFee | src/controllers/feeController.js:143-233 | starting a UPI payment and then receiving a success webhook for its entry leaves the student Paid with nothing due |
| Fees.SuccessWebhookPays | src/controllers/feeController.js:226-233 | a success webhook for an entry not yet successful leaves the entry's student Paid with nothing due |
| Grades.PercentageOf | src/controllers/reportController.js:60 | a non-zero total gives the finite percentage, obtained * 100 / total; a zero total gives +Infinity for a positive mark and NaN for a zero mark |
| Grades.CalculateGrade | src/controllers/reportController.js:59-67 | with a zero total, a positive mark is an A+ and any other mark an F |
| Grades.GradeBands | src/controllers/reportController.js:59-67 | for a positive total, the grade is A+ from 90 percent, then A, B, C and D in bands of ten down to 50, and F below; each mark falls in exactly one band |
| Grades.GradeMonotone | src/controllers/reportController.js:59-67 | for a fixed positive total, more marks never give a lower grade |
| Users.CreateUser | src/controllers/userController.js:16-34 | 400 when the email lookup finds anyone (with no email given, that is any user at all); otherwise the user is stored exactly when name, email and password are present, with the endpoint's role, the caller's school, a forced password reset, the hashed password and the schema's fee defaults |
| Users.CreateTeacher | src/controllers/userController.js:12-87 | a teacher is created with the random password, which the reply never carries as a field; the message shows it only when the mail fails |
| Users.CreateStudent | src/controllers/userController.js:92-139 | a student is created with the supplied password when it is truthy, else the random one, and the reply always returns that password in clear |
| Users.CreateKeepsEmailsUnique | src/models/User.js:10-14 | creation keeps emails unique across all schools |
| Users.MissingEmailCollides | src/controllers/userController.js:95-99 | once any user exists, a request without an email is refused as a duplicate |
| Users.PublicAll | src/controllers/userController.js:162 | each listed user is the stored user without the password, one for one |
| Users.GetUsers | src/controllers/userController.js:144-164 | the users of the caller's school, of the role asked for when one is given; a class narrows the list to its roster only when the role is Student, and an unknown class then gives an empty list |
| Users.GetUsersStaysInSchool | src/controllers/userController.js:146-160 | the listing never leaves the caller's school, even for another school's class |
| Users.ClassIgnoredUnlessStudent | src/controllers/userController.js:152 | a class given with any role but Student has no effect |
| Users.CreatedStudentListed | src/controllers/userController.js:92-164 | a student just created is listed among the school's students |
| Users.UpdateUser | src/controllers/userController.js:262-283 | 404 outside the caller's school; name, email and mobile number are each replaced only by a truthy value, and nothing else changes; the update fails exactly when the new email is held by another user |
| Users.UpdateKeepsInvariants | src/controllers/userController.js:262-283 | updates keep emails unique and never change anyone's role or school |
| Users.DeleteUser | src/controllers/userController.js:247-257 | 404 exactly when the school has no such user; succeeds exactly when it has one, and then exactly that user is removed, as a multiset |
| Users.OtherSchoolUntouchable | src/controllers/userController.js:248-263 | another school's user can be neither updated nor deleted |
| Users.GetResetPasswordToken | src/models/User.js:64-77 | the caller receives the token, the user stores only its digest with an expiry ten minutes ahead, and nothing else about the user changes |
| Users.TokenLifetime | src/models/User.js:74 | a token just issued is honoured exactly until ten minutes have passed |
| Clubs.JoinClub | src/controllers/clubController.js:124-150 | 404 when the school has no such club; 400, with nothing changed, exactly when the caller is already a member; succeeds exactly when the club exists and the caller is not a member, and then the caller is appended once, so a duplicate-free member list stays duplicate-free |
| Clubs.LeaveClub | src/controllers/clubController.js:155-166 | 404 exactly when the school has no such club and succeeds otherwise, with the reply "Left club successfully"; every occurrence of the caller leaves that club's member list, the other members stay, and no other club changes |
| Clubs.LeaveIdempotent | src/controllers/clubController.js:159-161 | a second leave changes nothing |
| Clubs.JoinThenLeaveRestores | src/controllers/clubController.js:133-159 | for a non-member, joining and then leaving restores the clubs exactly |
| Clubs.UpdateClub | src/controllers/clubController.js:64-93 | 404 exactly when the school has no such club and succeeds otherwise; each field takes the new value only when it is truthy; id, school and members never change |
| Clubs.EmptyUpdateChangesNothing | src/controllers/clubController.js:70-75 | an update with every field falsy leaves the clubs as they were |
| Clubs.SeedClubList | src/controllers/clubController.js:172-178 | the five seed clubs, all bound to the given school and with no members |
| Clubs.SeedClubsAsWritten | src/controllers/clubController.js:171-188 | as written, seeding fails on every call and stores nothing |
| Clubs.SeedClubsNeverSeeds | src/controllers/clubController.js:175 | as written, no school ever gains a club from seeding, and the seeded reply is never sent |
| Clubs.SeedClubs | src/controllers/clubController.js:180-187 | with every club bound to the caller's school: the five clubs are added exactly when the school has none; otherwise nothing changes and the reply says the clubs exist |
| Clubs.SeedClubsIdempotent | src/controllers/clubController.js:180-187 | seeding twice is seeding once, and a school without clubs ends with exactly the five seed clubs |
| Classes.CreateClass | src/controllers/classController.js:8-26 | 400 unless the teacher lookup finds a Teacher of the caller's school, where a missing id tests the school's first user; otherwise the class is created, exactly when the teacher id is present, name and subject are present and every schedule entry has its day and times, in the caller's school, with that teacher and an empty roster |
| Classes.AbsentTeacherFailsValidation | src/controllers/classController.js:11-23 | with no teacher id, a school whose first user is a Teacher passes the check and the create then fails with 500, changing nothing |
| Classes.CreateKeepsInvariants | src/controllers/classController.js:11-23 | creation keeps every class taught by a Teacher of its own school, and every roster made of distinct Students of the school |
| Classes.EnrollStudent | src/controllers/classController.js:47-74 | 404 for a class outside the school; 400 for anyone but a Student of the school; 400 for a student already on the roster; otherwise exactly that roster gains the student |
| Classes.EnrollKeepsInvariants | src/controllers/classController.js:58-71 | enrollment keeps every roster duplicate-free and made of the school's Students, and keeps every class taught by a Teacher |
| Classes.UpdateClass | src/controllers/classController.js:102-117 | 404 exactly when the school has no such class; succeeds exactly when the class exists and any schedule sent has the day and times on every entry, and fails with nothing changed otherwise; name, subject and teacher change only to truthy values; a schedule replaces the old one whenever it is sent; roster, id and school never change |
| Classes.UpdateBreaksTeacherInvariant | src/controllers/classController.js:108 | the update installs a teacher id that is not a Teacher of the school, so the classes stop being taught by Teachers only |
| Classes.TeacherClasses | src/controllers/classController.js:31-34 | exactly the classes of the caller's school that it teaches |
| Classes.StudentClasses | src/controllers/classController.js:79-82 | exactly the classes of the caller's school whose roster holds it |
| Classes.AllClasses | src/controllers/classController.js:39-42 | exactly the classes of the caller's school |
| Classes.EnrolledStudentSeesClass | src/controllers/classController.js:70-80 | a student enrolled through the endpoint then finds the class in its own listing |
| Classes.DeleteClass | src/controllers/classController.js:87-97 | 404 exactly when the school has no such class and succeeds otherwise; then exactly the first class of the school with that id is removed, as a multiset, and nothing else changes |
| Classes.CreateThenDeleteRestores | src/controllers/classController.js:8-97 | creating a class under a fresh id and deleting that id again leaves the classes as they were |
| Canteen.Decrement | src/controllers/canteenController.js:43-44 | an accepted line lowers the item's stock by exactly the quantity, leaving it non-negative; the item stays available exactly when it was available and its stock is not exactly 0; nothing else about the item changes |
| Canteen.Place | src/controllers/canteenController.js:28-47 | the line loop changes no catalogue entry apart from stock and availability; when every line passes, the total is the sum of price times quantity over the accepted lines, each accepted line is priced as an item of the school was, and unknown ids are skipped; a refusal names an item of the school |
| Canteen.PlaceStockEffects | src/controllers/canteenController.js:29-45 | whatever the outcome: another school's items are untouched; a non-negative stock stays non-negative for any quantities; availability is only ever switched off |
| Canteen.PlaceLowersStock | src/controllers/canteenController.js:31-44 | with non-negative quantities, stock never rises, and an item switched off sits at exactly 0 |
| Canteen.PlaceOrder | src/controllers/canteenController.js:17-73 | 400 for a missing or empty item list; the items are always left as the line loop saved them; on success, 201 with one order appended for the caller and school, carrying the pickup time and the lines' total; on refusal, 400 and no order |
| Canteen.PlaceConservesStock | src/controllers/canteenController.js:35-45 | with unique item ids, each item's stock before an accepted order equals its stock after plus the quantity of it that the order records |
| Canteen.UnknownItemsMakeEmptyOrder | src/controllers/canteenController.js:29-30 | an order whose ids match nothing in the school still succeeds, with no lines, a zero total and the stock untouched |
| Canteen.RejectedOrderKeepsEarlierDecrement | src/controllers/canteenController.js:28-46 | an order whose first line is covered and whose second is not is refused with 400 and creates no order, yet the first item's stock stays decremented |
| Canteen.ZeroStockRefusesOrders | src/models/CanteenItem.js:13-14 | an item at the default stock of 0 refuses any positive quantity |
| Canteen.AbsentIdTakesFirstItem | src/controllers/canteenController.js:29-44 | a line with no item id draws on the school's first item: when its stock covers the quantity, that item is decremented and the line recorded at its price |
| Canteen.GetMenu | src/controllers/canteenController.js:9-12 | exactly the available items of the caller's school |
| Canteen.SeedItems | src/controllers/canteenController.js:89-95 | the five seed items of the school, completed by the schema defaults: stock 0 and available |
| Canteen.SeedMenu | src/controllers/canteenController.js:88-99 | other schools' items are kept; the caller's school's items afterwards are exactly the seed items |
| Canteen.SeededMenuIsTheSeedItems | src/controllers/canteenController.js:96-97 | after seeding, the school's menu is exactly the five seed items, in order |
| Library.AddBook | src/controllers/libraryController.js:33-47 | stored exactly when title, author and subject are present (the schema requires them); the book carries the id, title, author, subject and class sent; both counters start at the total given when it is truthy, else 1; the book belongs to the caller's school |
| Library.DeleteBook | src/controllers/libraryController.js:52-62 | 404 exactly when the school has no such book and succeeds otherwise, with the reply "Book removed"; then exactly the first book of the school with that id is removed, as a multiset, and the loans stay |
| Library.AddThenDeleteRestores | src/controllers/libraryController.js:33-62 | adding a book under a fresh id and deleting that id again leaves the library as it was |
| Library.IssueBook | src/controllers/libraryController.js:67-87 | 400, with nothing changed, for a book missing from the school or with no copy left, where a missing id finds the school's first book; succeeds exactly when the book has a copy and the book id, the student and the due date are given; then exactly that book loses one available copy and one Issued loan is appended |
| Library.LoanBook | src/controllers/libraryController.js:70 | with an id, the book lookup of the school; without one, the school's first book, or none when the school has no book |
| Library.ReturnBook | src/controllers/libraryController.js:92-111 | 400 exactly for a loan missing from the school or already Returned, and success otherwise; the loan is closed with the return date, and the book it names, found by id in any school, gains one copy with no cap |
| Library.AddKeepsBalance | src/controllers/libraryController.js:41-42 | a new book that no loan names keeps every book's available copies plus loans out equal to its total |
| Library.IssueKeepsBalance | src/controllers/libraryController.js:76-84 | with unique book ids, issuing keeps that balance |
| Library.ReturnKeepsBalance | src/controllers/libraryController.js:100-108 | with unique book ids, returning keeps that balance, although the increment itself is uncapped |
| Library.BalancedCountsInRange | src/controllers/libraryController.js:104-107 | under the balance, no book has more copies available than its total |
| Library.IssueThenReturnRestores | src/controllers/libraryController.js:67-111 | issuing a book and then returning the new loan succeeds and restores the books exactly |
| Library.GetBooks | src/controllers/libraryController.js:8-28 | exactly the books the built query matches, sorted by title; without a keyword, only books of the caller's school |
| Library.KeywordSearchCrossesSchools | src/controllers/libraryController.js:13-20 | a keyword search returns another school's book whose title matches |
| Courses.GetCourses | src/controllers/courseController.js:8-16 | exactly the school's courses, narrowed by category and by level only when those are given |
| Courses.GetCourseById | src/controllers/courseController.js:21-36 | 404 exactly when the school has no such course and 200 exactly when it has one; the course returned has the requested id, flagged as enrolled exactly when the caller has an enrollment for it in the school, with that enrollment, the caller's for this course, attached exactly then |
| Courses.EnrollThenView | src/controllers/courseController.js:21-36 | after a successful enrollment, the course view shows the caller as enrolled, with the enrollment just created |
| Courses.UpdateCourse | src/controllers/courseController.js:61-84 | 404 when the school has no such course; 401 exactly when the caller neither owns it nor is an Admin; modules sent with an untitled module or lesson fail with nothing changed; otherwise text fields, modules and level change only to truthy values, isPublished changes whenever it is sent, and id, school and teacher never change |
| Courses.ExplicitFalseUnpublishes | src/controllers/courseController.js:76 | an explicit false unpublishes the course |
| Courses.EnrollCourse | src/controllers/enrollmentController.js:8-29 | 404 for a course outside the school; 400 when the caller is already enrolled; otherwise, and only then, one enrollment with the schema defaults is appended |
| Courses.EnrollKeepsOnePerKey | src/models/Enrollment.js:34-35 | enrolling keeps at most one enrollment per student, course and school, and afterwards the caller is enrolled in any course of its school |
| Courses.ProgressOf | src/controllers/enrollmentController.js:48-51 | with lessons in the course, progress is completed * 100 / total; with none, any completion gives Infinity |
| Courses.CompleteLesson | src/controllers/enrollmentController.js:34-56 | 404 exactly without an enrollment; a lesson already completed changes nothing; otherwise exactly that enrollment gains the lesson, with progress recomputed over the course's lesson count, and a missing course fails with 500 and changes nothing; with no course id the caller's first enrollment and the school's first course are used, each found on its own; with an id the lookups are the plain ones |
| Courses.CompleteLessonIdempotent | src/controllers/enrollmentController.js:43 | completing the same lesson twice is completing it once |
| Courses.CompleteLessonKeepsNoDup | src/controllers/enrollmentController.js:43-44 | completed-lesson lists stay free of duplicates |
| Courses.ProgressCanExceedHundred | src/controllers/enrollmentController.js:43-51 | the lesson id is not checked against the course, so a one-lesson course can report 200 percent |
| Courses.Last4 | src/controllers/certificateController.js:50 | the last four characters of an id of length at least four, or the whole of a shorter one |
| Courses.UpperAppend | src/controllers/certificateController.js:50 | upper-casing distributes over concatenation |
| Courses.CertificateId | src/controllers/certificateController.js:50 | the id is "CERT-", then the last four characters of the course id, "-", and the last four of the student id, all upper-cased; it has 14 characters when both ids have at least four |
| Courses.GetCertificate | src/controllers/certificateController.js:9-52 | 404 for a course outside the school; 400 without an enrollment; a certificate exactly when the course is complete (or has no lessons) and the caller is a user of the school; it carries the caller's name, the course title, the time, the generic instructor and the certificate id |
| Courses.EmptyCourseCertifiesEnrolled | src/controllers/certificateController.js:39 | a course without lessons certifies every enrolled student of the school, whatever they completed |
| Courses.GateMatchesProgress | src/controllers/certificateController.js:39 | with lessons in the course, the completion gate opens exactly when progress reaches 100 |
| Submissions.Resubmit | src/controllers/submissionController.js:24-30 | a resubmission keeps the key, id, grade, feedback and status and takes the new file and time |
| Submissions.SubmitAssignment | src/controllers/submissionController.js:8-42 | 404 when no assignment of the school matches, where a missing id matches the school's first; success exactly when one matches, the file URL and name are truthy, and either an id was sent or the caller has some submission in the school; 200 exactly when the caller already had a matching submission, and then exactly the first one is refreshed with the new file and time; 201 with a new pending, ungraded submission otherwise; an error changes nothing |
| Submissions.SubmitUnnamed | src/controllers/submissionController.js:18-34 | with no assignment id, the caller's first submission in the school, whatever its assignment, is refreshed with 200; with none, the create fails with 500 and nothing changes |
| Submissions.SubmitKeepsOnePerKey | src/controllers/submissionController.js:18-40 | submitting keeps at most one submission per assignment, student and school, and after a success the key of the submission answered is held by exactly one |
| Submissions.UnnamedKeepsOnePerKey | src/controllers/submissionController.js:18-30 | a submit with no assignment id keeps at most one submission per key, and the refreshed one's key is held by exactly one |
| Submissions.ResubmissionKeepsGrade | src/controllers/submissionController.js:24-30 | resubmitting answers 200 and leaves grade, feedback and status as they were |
| Submissions.GetMySubmission | src/controllers/submissionController.js:47-59 | 404 exactly when the caller has no submission for the assignment in its school; otherwise one with that key |
| Submissions.SubmitThenLookUp | src/controllers/submissionController.js:8-59 | after a successful submit, the caller's lookup for the assignment of the answered submission, which is the one sent when an id was sent, returns exactly that submission |
| Submissions.GradeSubmission | src/controllers/submissionController.js:74-89 | 404 exactly when the school has no such submission and success exactly when it has one; then it becomes Graded with grade and feedback exactly as sent, absent ones included, and its key, file and time are kept |
| Submissions.GradeThenLookUp | src/controllers/submissionController.js:47-89 | after a grade, the student's own lookup of that assignment returns the submission, Graded with the grade and feedback sent |
| Submissions.SubmissionsFor | src/controllers/submissionController.js:64-69 | exactly that assignment's submissions in the caller's school, latest first |
| Marks.UploadMark | src/controllers/markController.js:8-37 | the first mark of the school matching the class, student and exam type that are given gets the new score and total, with 200 "Mark updated"; without a match a mark is appended with 201 "Mark uploaded"; fails with 500, changing nothing, exactly when score or total is missing, or nothing matches and the class or student is missing |
| Marks.UploadKeepsOnePerKey | src/controllers/markController.js:12-35 | uploading never creates a second mark for a class, student, exam type and school; a successful upload leaves the written mark's key with exactly one mark, which is the key asked for when class, student and exam type are all given |
| Marks.UploadIdempotent | src/controllers/markController.js:12-35 | sending the same upload a second time leaves the store as the first left it, and a successful first upload is answered the second time with 200 and the same mark |
| Marks.FirstMatchRewritten | src/controllers/markController.js:12-24 | an upload with score and total rewrites exactly the first mark its filter matches, with 200, and changes nothing else |
| Marks.RewriteRepeats | src/controllers/markController.js:12-24 | repeating an upload that rewrote a mark writes the same mark again, leaving the store unchanged |
| Marks.CreateRepeats | src/controllers/markController.js:12-35 | an upload that matched nothing creates its mark with 201, and repeating it finds that mark and answers 200 with it, unchanged |
| Marks.AbsentExamTypeOverwrites | src/controllers/markController.js:12-24 | without an exam type the upload rewrites the first mark of that class and student in the school, whatever exam it is for, and answers 200 |
| Marks.GetMarks | src/controllers/markController.js:42-59 | exactly the school's marks, narrowed by class when one is given, and by the requested student for staff or by the caller for a Student |
| Marks.StudentSeesOnlyOwnMarks | src/controllers/markController.js:50-52 | whatever student a Student asks for, it gets exactly its own marks |
| Marks.UploadedMarkListed | src/controllers/markController.js:8-59 | a successfully uploaded mark is listed to any staff member of the school asking for its class and student, and to that student |
| AttendanceSheets.TakeAttendance | src/controllers/attendanceController.js:8-37 | 404, with nothing changed, exactly when the class check finds no class (the school's first class when no class id is sent); otherwise the first sheet of the school matching the class and date that are given gets the records sent, with 200 "Attendance updated"; without a match a sheet is appended with 201 "Attendance recorded", and without a class or date that create fails with 500, changing nothing |
| AttendanceSheets.TakeKeepsOnePerKey | src/controllers/attendanceController.js:20-34 | taking attendance never creates a second sheet for a class, date and school; a successful take leaves the written sheet's key with exactly one sheet, which is the key asked for when class and date are given |
| AttendanceSheets.AbsentDateOverwrites | src/controllers/attendanceController.js:20-27 | without a date the take rewrites the first sheet of the class in the school, whatever day it is for, and answers 200 |
| AttendanceSheets.GetAttendance | src/controllers/attendanceController.js:42-53 | exactly the class's sheets in the caller's school, on the given date when one is given |
| AttendanceSheets.TakeThenGet | src/controllers/attendanceController.js:8-53 | after taking attendance, asking for that class and date returns just the sheet written, holding the records sent |
| AttendanceSheets.StatusOf | src/controllers/attendanceController.js:73-78 | "Unknown" when no record names the student; otherwise the status of the first record that does |
| AttendanceSheets.GetStudentAttendance | src/controllers/attendanceController.js:58-83 | newest first, one line for each sheet of the school that lists the student, holding that student's status, as many lines as such sheets; a Student always gets its own history whatever id it asks for |
| AttendanceSheets.ProjectFacts | src/controllers/attendanceController.js:72-80 | cutting sheets down to one student's lines keeps their order and yields exactly one line per sheet |
| AttendanceSheets.HistoryNeverFallsBack | src/controllers/attendanceController.js:66-78 | every line of a history carries a status actually recorded for the student on that sheet, so the "Unknown" fallback is never used |
| AttendanceSheets.GetAttendanceById | src/controllers/attendanceController.js:88-99 | 404 exactly when the school has no sheet with that id; otherwise such a sheet |
| AttendanceSheets.DeleteAttendance | src/controllers/attendanceController.js:104-114 | 404, with nothing changed, exactly when the lookup by id fails, and success exactly when it finds a sheet; then exactly that sheet is removed |
| AttendanceSheets.AttendanceRouteAsWritten | src/routes/attendanceRoutes.js:13-18 | every GET of one segment reaches the class listing, so no request reaches the single-record handler; the other routes go to their handlers |
| AttendanceSheets.AttendanceRoute | src/routes/attendanceRoutes.js:13-18 | with the class listing under /class/:classId, a GET of one segment reaches the single-record handler, and every other request is routed as before |
| AttendanceSheets.GetByIdUnreachable | src/routes/attendanceRoutes.js:15-17 | no request reaches the single-record handler as written, since GET /:id reads the id as a class id; the corrected table routes it to the record |
| AttendanceSheets.TakeThenDeleteRestores | src/controllers/attendanceController.js:8-114 | a sheet created under a fresh id is found by that id, and deleting it again restores the sheets as they were |
| Content.ClassNames | src/controllers/assignmentController.js:32-34 | exactly the names of the classes of the caller's school whose roster holds the caller |
| Content.DeleteOwned | src/controllers/assignmentController.js:99-113 | 404 when the school has no such record; 401 exactly when the caller neither uploaded it nor is an Admin; otherwise 200 with exactly that record removed; an error changes nothing |
| Content.CreateAssignment | src/controllers/assignmentController.js:8-22 | stored with 201 exactly when title, description, subject, grade and due date are all present; the assignment carries the id and every field sent, the creation time, and is stamped with the caller as teacher and the caller's school |
| Content.GetAssignments | src/controllers/assignmentController.js:27-51 | earliest due first; exactly the school's assignments, and for a Student only those whose grade names one of its classes, none at all when it is in no class |
| Content.GetAssignmentById | src/controllers/assignmentController.js:56-66 | 404 exactly when the school has no assignment with that id; otherwise such an assignment |
| Content.UpdateAssignment | src/controllers/assignmentController.js:71-94 | 404 outside the school; 401 exactly when the caller neither set it nor is an Admin; otherwise each field changes only to a truthy value sent, and id, school, teacher and linked quiz are kept; an error changes nothing |
| Content.DeleteAssignment | src/controllers/assignmentController.js:99-113 | succeeds exactly for an assignment of the school that the caller set or when the caller is an Admin, and then removes exactly that assignment |
| Content.OthersAssignmentNeedsAdmin | src/controllers/assignmentController.js:77-80 | another teacher's assignment can be updated or deleted exactly by an Admin; anyone else gets 401 and nothing changes |
| Content.CreatedAssignmentListed | src/controllers/assignmentController.js:8-51 | a new assignment is listed to the staff of its school and to every Student of the school in a class named by its grade |
| Content.UploadMaterial | src/controllers/studyMaterialController.js:8-22 | stored with 201 exactly when every field is present; the stored material carries the id and every field sent, stamped with the caller and its school |
| Content.CreatedMaterialListed | src/controllers/studyMaterialController.js:8-46 | a new material is listed to the school's staff and to every Student of the school in a class named as its grade |
| Content.GetMaterials | src/controllers/studyMaterialController.js:27-46 | newest first; the school's materials, limited for a Student exactly as assignments are |
| Content.DeleteMaterial | src/controllers/studyMaterialController.js:51-65 | 404 outside the school; 401, with nothing changed, unless the caller uploaded it or is an Admin; otherwise exactly that material is removed |
| Content.UploadThenDeleteMaterial | src/controllers/studyMaterialController.js:8-65 | uploading a material under a fresh id and deleting it as the uploader succeeds and leaves the materials as they were |
| Content.UploadPhoto | src/controllers/galleryController.js:7-20 | stored with 201 exactly when title and image URL are present; the photo carries the id, title and image URL, and description and class are kept as sent, absent included |
| Content.GetPhotos | src/controllers/galleryController.js:25-30 | newest first; exactly the school's photos, whatever the role |
| Content.DeletePhoto | src/controllers/galleryController.js:35-49 | 404 outside the school; 401, with nothing changed, unless the caller uploaded it or is an Admin; otherwise exactly that photo is removed |
| Content.UploadThenDeletePhoto | src/controllers/galleryController.js:7-49 | uploading a photo under a fresh id and deleting it as its uploader restores the gallery exactly |
| Planner.ParsePlanStatus | src/models/LessonPlan.js:21 | accepts exactly the three status names of the schema's enum |
| Planner.PlanStatusRoundTrip | src/models/LessonPlan.js:21 | parsing a status's name gives that status back |
| Planner.AddLessonPlan | src/controllers/plannerController.js:16-44 | stored with 201 exactly when date, subject, class name and topic are present (the schema requires them); the plan carries the id and the fields sent, starts Planned with no reflection, and is stamped with the caller and its school |
| Planner.GetLessonPlans | src/controllers/plannerController.js:8-11 | exactly the caller's own plans in its school, earliest first |
| Planner.UpdateLessonPlan | src/controllers/plannerController.js:49-66 | 404, with nothing changed, exactly when the caller does not own a plan of that id in its school; otherwise it fails validation exactly for a truthy status outside the enum, and status, reflection, topic and objectives change only to truthy values sent, every other field kept |
| Planner.DeleteLessonPlan | src/controllers/plannerController.js:71-81 | 404, with nothing changed, exactly when the caller does not own the plan, and success exactly when it does; then exactly that plan is removed |
| Planner.OthersPlanLooksMissing | src/controllers/plannerController.js:52 | another teacher's plan, even for an Admin, gets exactly the answer a missing id gets, for update and delete |
| Planner.AddUpdateDeleteRestores | src/controllers/plannerController.js:16-81 | a plan just added can be updated with a valid status and then deleted by its teacher, which restores the plans exactly |
| Planner.ParseSlotStatus | src/models/PTMSlot.js:22 | accepts exactly the four status names of the schema's enum |
| Planner.CreateSlot | src/controllers/ptmController.js:18-44 | stored with 201 exactly when date, start and end time are present; the slot carries the id, date, start and end time sent, starts Open with no student and no notes, with the link as sent |
| Planner.SlotOrderPreorder | src/controllers/ptmController.js:11 | ordering by date and then start time is total and transitive |
| Planner.GetTeacherSlots | src/controllers/ptmController.js:8-13 | exactly the caller's own slots in its school, ordered by date and then start time |
| Planner.CreatedSlotListed | src/controllers/ptmController.js:8-44 | a new slot is listed to its teacher, and every slot listed before still is |
| Planner.SameDaySlotsByStartTime | src/controllers/ptmController.js:11 | of two listed slots on the same date, the earlier listed does not start later |
| Planner.UpdateSlot | src/controllers/ptmController.js:49-63 | 404, with nothing changed, exactly when the caller does not own the slot; otherwise it fails validation exactly for a truthy status outside the enum, and status, link and notes change only to truthy values sent, every other field kept |
| Planner.AdminCannotUpdateOthersSlot | src/controllers/ptmController.js:52 | an Admin updating another teacher's slot gets 404 and changes nothing |
| Remarks.AddRemark | src/controllers/remarkController.js:7-19 | stored with 201 exactly when student, title and description are present (the schema requires them); the remark carries the id and the fields sent; the teacher and school are the caller's |
| Remarks.RemarksAbout | src/controllers/remarkController.js:31-33 | exactly the remarks about that student in that school, newest first, each stored remark listed once |
| Remarks.GetRemarks | src/controllers/remarkController.js:24-36 | 401 exactly when a Student asks about someone else; otherwise exactly the remarks about the student asked for in the caller's school, each listed once |
| Remarks.GetMyRemarks | src/controllers/remarkController.js:41-46 | exactly the caller's own remarks in its school, newest first |
| Remarks.OwnRemarksAgree | src/controllers/remarkController.js:24-46 | asking by one's own id answers exactly the "my remarks" listing, whatever the role |
| Remarks.StudentNeverSeesOthers | src/controllers/remarkController.js:26-29 | whatever it asks for, a Student is never shown a remark about another student |
| Remarks.AddedRemarkListed | src/controllers/remarkController.js:7-36 | a remark just added is listed to any staff member of the school reading that student's remarks, and to the student |
| Notices.CreateNoticeAsWritten | src/controllers/noticeController.js:15-25 | stored with 201 exactly when title and message are present, but the stored notice never has a target class, since the schema declares none |
| Notices.CreateNotice | src/controllers/noticeController.js:15-76 | stored with 201 exactly when title and message are present; the stored notice carries the id, title and message sent, stamped with the poster, the school and the time; the audience defaults to "All"; the target class is the one sent when truthy and none otherwise |
| Notices.PushFailureIgnored | src/controllers/noticeController.js:62-72 | the reply and the store are the same whether or not the push fails |
| Notices.PushTokens | src/controllers/noticeController.js:29-45 | exactly the well-formed push tokens of the school's users, of the audience's role unless it is "All" or absent, and on the class's roster when the class named is found |
| Notices.UnknownClassWidensPush | src/controllers/noticeController.js:37-42 | a class id that names no class restricts nothing: the same tokens as with no class |
| Notices.PushStaysInSchool | src/controllers/noticeController.js:29 | every token pushed to belongs to a user of the poster's school, even for another school's class |
| Notices.GetNotices | src/controllers/noticeController.js:81-98 | newest first; exactly the school's notices, and with a class given only those for that class or for no class |
| Notices.ClassNoticeLeaksAsWritten | src/controllers/noticeController.js:22 | as written, a notice created for one class is listed for any other class |
| Notices.ClassNoticeStaysInClass | src/controllers/noticeController.js:81-91 | with the class stored, a class notice is listed for its class and unfiltered, and for no other class |
| Notices.DeleteNotice | src/controllers/noticeController.js:103-113 | 404, with nothing changed, exactly when the school has no such notice, and success exactly when it has one; then exactly that notice is removed |
| Notices.CreateThenDeleteRestores | src/controllers/noticeController.js:15-113 | posting a notice under a fresh id and deleting it again leaves the notices as they were |

## Left out

- Authentication: password hashing, JWT signing and the login flow are outside the model; `jwt.verify` is a parameter of `Socket.Authenticate`, a hash function is a parameter of user creation, and the pre-save hook of src/models/User.js (lines 85-92) is not modelled. That hook calls `next()` without returning when the password is unchanged, so the source re-hashes the stored hash on every save of a user, including the saves in `updateUser` and `updateFeeDetails`.
- AI features, statistics and dashboards, and the company pages: external HTTP calls, aggregation pipelines and random or mock data.
- `getStudentReportCard`: it reads mark fields the Mark schema does not have and returns hard-coded student data; only its `calculateGrade` is modelled.
- `getFeeInvoice`, `getTransactionHistory`, `getMyFeeStatus` and `getStudentsFeeStatus`: read-only views with rounding of fractional money; `getAllTransactions` never sends a response and so has no reply to model.
- Push delivery, e-mail sending and audit logging: effects that swallow their own errors; the push audience is modelled (`Notices.PushTokens`), the delivery is not. The push service's token format check is a parameter.
- Regular-expression matching in the library search is a parameter predicate.
- Schema enum validation on save is modelled for the fee entry type, the lesson plan status and the meeting slot status. Elsewhere enum fields are Dafny datatypes, so no other value can arise in the model, although some handlers write the request's value unchecked (see `Fees.UpdateFeeDetails` below). The course level enum is not checked.
- Casting of ids to ObjectIds: a malformed id is treated as an id that matches nothing, not as a cast error.
- `populate`: references are kept as ids and never expanded.
- Concurrency between awaits: every handler is one sequential step. The only non-atomic effect modelled is the canteen's line-by-line stock update.
- Dates: a date in a request is an `Option<int>`; an empty date string is treated as absent.
- Attendance records are modelled only through the handlers that use them. src/models/Attendance.js is not part of this model.
- Marks.UploadMark: a JSON `null` class, student or exam type is treated like an absent one (dropped from the filter), although Mongoose would match it against a missing field.
- AttendanceSheets.TakeAttendance: the class and date of a new sheet are taken to be required fields, failing the create with 500 when absent, because src/models/Attendance.js is not part of this model.
- The `if (plan)` and `if (slot)` branches after a create cannot be reached, since a create either returns the record or throws; they are not modelled.
- Read-only listings with no decision logic: `getMyOrders`, `getAllOrders`, `getLoans`, `getClubs`, `getClubById`, `getMyCourses`, `getAllQuizzes`, and `getLeaderboard`, whose aggregation pipeline is left out.
- Plain creates and deletes: `createClub`, `deleteClub`, `createCourse` and `updatePushToken` write the fields given and decide nothing else.
- Route files: the message router (`Messaging.MessageRoute`) and the attendance router (`AttendanceSheets.AttendanceRoute`) are modelled, because each leaves a handler unreachable (see Findings). The other routers of the modelled controllers mount each modelled handler on a path or verb of its own, with literal segments before `/:id`, so they are not modelled. Role gates are modelled by `Access.AdminOrTeacher` and by the in-handler checks.
- Classes.EnrollStudent: a request with no student id is not modelled; the lookup would test the school's first user, and a Student there would have an undefined entry pushed onto the roster, whose cast and save the model does not pin down.
- Courses.CompleteLesson: a request with no lesson id is not modelled; the course id may be absent.
- Response bodies are simplified where they only wrap the record: the join reply is the club itself, and the seed replies are their messages.
- Floating point: quiz scores, fee totals and grade percentages are exact reals or integers, so rounding and `toFixed` are not modelled.
- `Document.remove()` in `deleteClub` and `deleteAttendance` is taken to delete the document. Newer Mongoose releases dropped that method; the package version is not part of this model.
- Canteen.PlaceLowersStock: the decrease is stated only for non-negative quantities, because the source does not reject a negative quantity and such a line raises the stock. `Canteen.PlaceStockEffects` states the non-negativity of stock for every quantity.
- Users.UpdateUser: the stored password is stated to stay as it was only because the pre-save hook is left out; the source replaces it with a hash of the old hash.
- Notices.GetNotices: the listing follows Mongoose 5, where populating `targetClass`, a path the Notice schema does not declare, is ignored; from Mongoose 6 on `strictPopulate` makes that populate throw, so every listing would fail with 500.
- Fees.UpdateFeeDetails: the status is an enum value or absent, so a status outside the enum, which the source may log in a transaction and then fails to save with 500, is not modelled.
- Courses.UpdateCourse: the `trim` option of the course title (src/models/Course.js:20) is not modelled, so a title is stored with its surrounding spaces and a title of only spaces is accepted with 200, where the source trims it and fails the required check with 500.
- Fees.HandleUpiWebhook: `Common.Upper` upper-cases ASCII letters only, while JavaScript's `toUpperCase` is Unicode-aware; a gateway status such as "ſuccess", which the source reads as SUCCESS, is refused with 500 here.
- Grades.PercentageOf: a zero total is kept as a JavaScript infinity or NaN rather than excluded, and finite percentages are exact reals rather than doubles.
- Quizzes.Score: the percentage is an exact real, so a result that double rounding would carry across the passing score is not modelled.

## Findings

| source | as written | input that shows it | evidently intended | confidence | as-written member | corrected member |
|---|---|---|---|---|---|---|
| server.js:88-95 | the error handler keeps `res.statusCode` when it is non-zero, and Express starts every response at 200 | any handler that throws without setting a status first, such as a failed validation on create | an uncaught error is answered with 500 | not executed | Common.ErrorStatusAsWritten, Common.UncaughtErrorReportedAsSuccess | Common.ErrorStatus |
| src/controllers/messageController.js:1-2 | `Message` and `User` are never imported, so both reads throw a reference error | any GET of a conversation or of the chat targets | the conversation and the role-filtered targets are returned | not executed | Messaging.GetConversationAsWritten, Messaging.ConversationNeverDelivered, Messaging.GetChatTargetsAsWritten, Messaging.ChatTargetsNeverDelivered | Messaging.GetConversation, Messaging.GetChatTargets |
| src/routes/messageRoutes.js:7-8 | no POST route is mounted, so the send handler cannot be reached over HTTP | POST /api/messages | the send handler is mounted and answers 201 | not executed | Messaging.MessageRouteAsWritten, Messaging.SendHandlerUnreachable | Messaging.MessageRoute |
| src/routes/attendanceRoutes.js:15-17 | GET /:classId is mounted before GET /:id, and both match any one segment, so the single-record handler cannot be reached over HTTP | GET /api/attendance/<a record id>, answered by the class listing with the sheets of a class with that id | each handler is reachable on a path of its own | not executed | AttendanceSheets.AttendanceRouteAsWritten, AttendanceSheets.GetByIdUnreachable | AttendanceSheets.AttendanceRoute |
| src/controllers/feeController.js:45 | a remarks-only fee update writes a ledger entry of type 'Info', which the schema's enum (src/models/FeeTransaction.js:13-17) rejects, so the update fails | an update carrying only remarks | the remarks are recorded and the update succeeds | not executed | Fees.UpdateFeeDetailsAsWritten, Fees.InfoEntryRefused | Fees.UpdateFeeDetails |
| src/controllers/clubController.js:175 | `seedClubs` uses a `schoolId` that is never declared, so it always throws | any call to the seed endpoint | the default clubs are seeded once for the caller's school | not executed | Clubs.SeedClubsAsWritten, Clubs.SeedClubsNeverSeeds | Clubs.SeedClubs, Clubs.SeedClubsIdempotent |
| src/controllers/noticeController.js:22 | the notice is created with `targetClass`, but the schema (src/models/Notice.js:3-28) declares no such path, so it is dropped and every notice looks addressed to the whole school | a notice for class A, then a listing for class B | a class notice is listed only for its class | not executed | Notices.CreateNoticeAsWritten, Notices.ClassNoticeLeaksAsWritten | Notices.CreateNotice, Notices.ClassNoticeStaysInClass |

=== FILE: access.dfy ===
/**
 The access predicates that recur across the controllers: the
 admin-or-teacher route gate, the owner-or-Admin rule of the content
 controllers, the owner-only rule of the planner and PTM controllers, and
 the self-only rule for Student callers.
 */
module Access {
  import opened Common

  const NotAdminOrTeacher: string := "Not authorized as an admin or teacher"

  /** Outcome of a route gate: continue to the handler, or reply with an error. */
  datatype Gate = Pass | Reject(code: int, message: string)

  /** The roles the admin-or-teacher middleware lets through. */
  const StaffRoles: set<Role> := {Admin, Teacher}

  /** adminOrTeacher middleware: an authenticated Admin or Teacher passes;
      anyone else, including a request without a user, gets 401. */
  function AdminOrTeacher(user: Option<Caller>): (r: Gate)
    ensures r.Pass? <==> user.Some? && user.value.role in StaffRoles
    ensures r.Reject? ==> r == Reject(401, NotAdminOrTeacher)
  {
    match user
    case None => Reject(401, NotAdminOrTeacher)
    case Some(c) =>
      if c.role == Admin || c.role == Teacher then Pass
      else Reject(401, NotAdminOrTeacher)
  }

  /** Students and super-admins never pass the gate. */
  lemma GateRejectsNonStaff(c: Caller)
    requires c.role == Student || c.role == SuperAdmin
    ensures AdminOrTeacher(Some(c)).Reject?
    ensures AdminOrTeacher(Some(c)).code == 401
  {
  }

  /** The owner-or-Admin rule used by assignments, study materials, the
      gallery and courses. */
  predicate OwnerOrAdmin(caller: Caller, owner: Id) {
    owner == caller.id || caller.role == Admin
  }

  /** The owner-only rule used by lesson plans and PTM slots: no Admin bypass. */
  predicate OwnerOnly(caller: Caller, owner: Id) {
    owner == caller.id
  }

  /** The student a request is about: a Student caller always gets itself,
      whatever id it asked for; any other caller gets the requested id. */
  function SubjectStudent(caller: Caller, requested: Option<Id>): (r: Option<Id>)
    ensures caller.role == Student ==> r == Some(caller.id)
    ensures caller.role != Student ==> r == requested
  {
    if caller.role == Student then Some(caller.id) else requested
  }

  /** Owner-only is the stricter rule: it implies owner-or-Admin, and the two
      differ exactly for an Admin acting on someone else's record. */
  lemma OwnerOnlyStricter(caller: Caller, owner: Id)
    ensures OwnerOnly(caller, owner) ==> OwnerOrAdmin(caller, owner)
    ensures OwnerOrAdmin(caller, owner) && !OwnerOnly(caller, owner) <==> caller.role == Admin && owner != caller.id
  {
  }
}

=== FILE: attendance.dfy ===
/**
 Attendance: one sheet per (class, date, school), whose records are
 replaced wholesale when taken again; the class listing with its optional
 date filter; and a student's own history, projected to that student's
 status on each sheet.
 */
module AttendanceSheets {
  import opened Common
  import opened Models
  import opened Sorting
  import Access
  import Keyed

  const ClassNotFound: string := "Class not found"
  const RecordNotFound: string := "Attendance record not found"
  const AttendanceUpdated: string := "Attendance updated"
  const AttendanceRecorded: string := "Attendance recorded"
  const UnknownStatus: string := "Unknown"

  /** The identity of a sheet: class, date and school. */
  function SheetKey(a: Attendance): (Id, int, Id) {
    (a.classId, a.date, a.school)
  }

  /** The class check's `Class.findOne` filter: without a class id only the
      school is left, so the school's first class passes the check. */
  function FindTakenClass(classes: seq<Class>, classId: Option<Id>, school: Id): Option<nat> {
    FindFirst(classes, (c: Class) => c.school == school && (classId.Some? ==> c.id == classId.value))
  }

  /** The sheet lookup's filter: the school always, class and date only when
      the request carries them. */
  predicate SheetMatch(a: Attendance, school: Id, classId: Option<Id>, date: Option<int>) {
    && a.school == school
    && (classId.Some? ==> a.classId == classId.value)
    && (date.Some? ==> a.date == date.value)
  }

  datatype Taken = Taken(message: string, attendance: Attendance)

  /** POST /attendance: 404 when the class check finds nothing. Otherwise
      the first sheet the filter matches gets the records sent (200); without
      one a sheet is created (201), which needs a class and a date, so a
      request missing either fails validation with 500 and changes nothing. */
  function TakeAttendance(classes: seq<Class>, sheets: seq<Attendance>, caller: Caller, classId: Option<Id>,
                          date: Option<int>, records: seq<AttendanceEntry>, newId: Id)
    : (r: Step<seq<Attendance>, Taken>)
    ensures FindTakenClass(classes, classId, caller.school).None? <==>
              r == Step(sheets, Err(404, ClassNotFound))
    ensures var existed := exists i :: 0 <= i < |sheets| && SheetMatch(sheets[i], caller.school, classId, date);
            r.response.Ok? <==>
              FindTakenClass(classes, classId, caller.school).Some? && (existed || (classId.Some? && date.Some?))
    ensures r.response.Err? ==> r.state == sheets
    ensures r.response.Ok? ==>
              var a := r.response.body.attendance;
              var existed := exists i :: 0 <= i < |sheets| && SheetMatch(sheets[i], caller.school, classId, date);
              && SheetMatch(a, caller.school, classId, date) && a.records == records && a in r.state
              && (existed <==> r.response == Ok(200, Taken(AttendanceUpdated, a)))
              && (!existed <==> r.response == Ok(201, Taken(AttendanceRecorded, a)))
              && |r.state| == (if existed then |sheets| else |sheets| + 1)
    ensures r.response.Ok? && r.response.code == 201 ==>
              var a := r.response.body.attendance;
              r.state == sheets + [a] && a == Attendance(newId, classId.value, date.value, caller.school, records)
    ensures r.response.Ok? && r.response.code == 200 ==>
              exists i :: 0 <= i < |sheets|
                && SheetMatch(sheets[i], caller.school, classId, date)
                && (forall j :: 0 <= j < i ==> !SheetMatch(sheets[j], caller.school, classId, date))
                && r.response.body.attendance == sheets[i].(records := records)
                && r.state == sheets[i := r.response.body.attendance]
  {
    if FindTakenClass(classes, classId, caller.school).None? then
      Step(sheets, Err(404, ClassNotFound))
    else
      match FindFirst(sheets, (a: Attendance) => SheetMatch(a, caller.school, classId, date))
      case Some(i) =>
        var a := sheets[i].(records := records);
        assert sheets[i := a][i] == a;
        Step(sheets[i := a], Ok(200, Taken(AttendanceUpdated, a)))
      case None =>
        if classId.None? || date.None? then Step(sheets, Err(Uncaught, "Attendance validation failed"))
        else
          var a := Attendance(newId, classId.value, date.value, caller.school, records);
          Step(sheets + [a], Ok(201, Taken(AttendanceRecorded, a)))
  }

  /** Taking attendance never creates a second sheet for a key, and a
      successful take leaves the written sheet's key with exactly one sheet.
      When class and date are both given, that key is the one asked for. */
  lemma TakeKeepsOnePerKey(classes: seq<Class>, sheets: seq<Attendance>, caller: Caller, classId: Option<Id>,
                           date: Option<int>, records: seq<AttendanceEntry>, newId: Id)
    requires Keyed.UniqueBy(sheets, SheetKey)
    ensures var r := TakeAttendance(classes, sheets, caller, classId, date, records, newId);
            && Keyed.UniqueBy(r.state, SheetKey)
            && (r.response.Ok? ==> Keyed.CountKey(r.state, SheetKey, SheetKey(r.response.body.attendance)) == 1)
            && (r.response.Ok? && classId.Some? && date.Some? ==>
                  SheetKey(r.response.body.attendance) == (classId.value, date.value, caller.school))
  {
    var r := TakeAttendance(classes, sheets, caller, classId, date, records, newId);
    if r.response.Ok? {
      var a := r.response.body.attendance;
      if r.response.code == 200 {
        var i :| 0 <= i < |sheets|
                 && SheetMatch(sheets[i], caller.school, classId, date)
                 && a == sheets[i].(records := records)
                 && r.state == sheets[i := a];
        Keyed.UpdateKeepsUnique(sheets, SheetKey, i, a);
        Keyed.UniquePresentOnce(r.state, SheetKey, i);
      } else {
        forall k | 0 <= k < |sheets| ensures SheetKey(sheets[k]) != SheetKey(a) {
          assert !SheetMatch(sheets[k], caller.school, classId, date);
        }
        Keyed.AppendKeepsUnique(sheets, SheetKey, a);
        Keyed.UniquePresentOnce(r.state, SheetKey, |sheets|);
      }
    }
  }

  /** Without a date the take overwrites the first sheet of the class in the
      school, whatever day that sheet is for. */
  lemma AbsentDateOverwrites(classes: seq<Class>, sheets: seq<Attendance>, caller: Caller, classId: Id,
                             records: seq<AttendanceEntry>, newId: Id, i: nat)
    requires FindClassInSchool(classes, classId, caller.school).Some?
    requires i < |sheets| && sheets[i].school == caller.school && sheets[i].classId == classId
    requires forall j :: 0 <= j < i ==> !(sheets[j].school == caller.school && sheets[j].classId == classId)
    ensures var r := TakeAttendance(classes, sheets, caller, Some(classId), None, records, newId);
            && r.response == Ok(200, Taken(AttendanceUpdated, sheets[i].(records := records)))
            && r.state == sheets[i := sheets[i].(records := records)]
  {
    var k := FindClassInSchool(classes, classId, caller.school).value;
    assert classes[k].school == caller.school && classes[k].id == classId;
    var p := (a: Attendance) => SheetMatch(a, caller.school, Some(classId), None);
    assert p(sheets[i]);
    FindFirstAt(sheets, p, i);
  }

  /** GET /attendance/:classId: the class's sheets in the school, for one
      date when a date is given. */
  function GetAttendance(sheets: seq<Attendance>, caller: Caller, classId: Id, date: Option<int>): (r: seq<Attendance>)
    ensures forall a :: a in r <==>
              a in sheets && a.classId == classId && a.school == caller.school
              && (date.Some? ==> a.date == date.value)
  {
    Filter(sheets, (a: Attendance) =>
      a.classId == classId && a.school == caller.school && (date.Some? ==> a.date == date.value))
  }

  /** Taking attendance and then asking for that class and date returns the
      one sheet just written, with the records sent. */
  lemma TakeThenGet(classes: seq<Class>, sheets: seq<Attendance>, caller: Caller, classId: Id, date: int,
                    records: seq<AttendanceEntry>, newId: Id)
    requires Keyed.UniqueBy(sheets, SheetKey)
    ensures var r := TakeAttendance(classes, sheets, caller, Some(classId), Some(date), records, newId);
            r.response.Ok? ==>
              GetAttendance(r.state, caller, classId, Some(date)) == [r.response.body.attendance]
              && r.response.body.attendance.records == records
  {
    var r := TakeAttendance(classes, sheets, caller, Some(classId), Some(date), records, newId);
    if r.response.Ok? {
      TakeKeepsOnePerKey(classes, sheets, caller, Some(classId), Some(date), records, newId);
      var a := r.response.body.attendance;
      var i :| 0 <= i < |r.state| && r.state[i] == a;
      Keyed.FilterUniqueKey(r.state, SheetKey,
        (x: Attendance) => x.classId == classId && x.school == caller.school && (Some(date).Some? ==> x.date == Some(date).value),
        i);
    }
  }

  // ------------------------------------------------------ a student's view

  /** One line of a student's history: the sheet's date and class and that
      student's status on it. */
  datatype StudentLine = StudentLine(id: Id, date: int, classId: Id, status: string)

  /** The status of the first record for `student`, or "Unknown". */
  function StatusOf(records: seq<AttendanceEntry>, student: Id): (r: string)
    ensures (forall k :: 0 <= k < |records| ==> records[k].student != student) ==> r == UnknownStatus
    ensures (exists k :: 0 <= k < |records| && records[k].student == student) ==>
              exists k :: && 0 <= k < |records| && records[k].student == student && r == records[k].status
                          && forall j :: 0 <= j < k ==> records[j].student != student
  {
    match FindFirst(records, (e: AttendanceEntry) => e.student == student)
    case None => UnknownStatus
    case Some(k) => records[k].status
  }

  predicate Lists(a: Attendance, student: Id) {
    exists k :: 0 <= k < |a.records| && a.records[k].student == student
  }

  predicate NewestFirst(a: Attendance, b: Attendance) {
    a.date >= b.date
  }

  predicate NewestLineFirst(a: StudentLine, b: StudentLine) {
    a.date >= b.date
  }

  function LineOf(a: Attendance, student: Id): StudentLine {
    StudentLine(a.id, a.date, a.classId, StatusOf(a.records, student))
  }

  /** GET /attendance/student/:studentId: the school's sheets that list the
      student, newest first, each cut down to the student's own status. A
      Student is always shown its own history. */
  function GetStudentAttendance(sheets: seq<Attendance>, caller: Caller, requested: Id): (r: seq<StudentLine>)
    ensures var student := if caller.role == Student then caller.id else requested;
            && SortedBy(r, NewestLineFirst)
            && (forall l :: l in r <==>
                  exists a :: a in sheets && a.school == caller.school && Lists(a, student) && l == LineOf(a, student))
            && |r| == |Filter(sheets, (a: Attendance) => a.school == caller.school && Lists(a, student))|
  {
    var student := Access.SubjectStudent(caller, Some(requested)).value;
    var docs := Select(sheets, (a: Attendance) => a.school == caller.school && Lists(a, student), NewestFirst);
    ProjectFacts(docs, student);
    assert |docs| == |multiset(docs)|;
    Project(docs, student)
  }

  /** Each sheet cut down to one student's line, in the same order. */
  function Project(docs: seq<Attendance>, student: Id): (r: seq<StudentLine>)
    ensures |r| == |docs| && forall i :: 0 <= i < |r| ==> r[i] == LineOf(docs[i], student)
  {
    seq(|docs|, i requires 0 <= i < |docs| => LineOf(docs[i], student))
  }

  lemma ProjectFacts(docs: seq<Attendance>, student: Id)
    ensures SortedBy(docs, NewestFirst) ==> SortedBy(Project(docs, student), NewestLineFirst)
    ensures forall l :: l in Project(docs, student) <==> exists a :: a in docs && l == LineOf(a, student)
  {
    var r := Project(docs, student);
    forall l | l in r ensures exists a :: a in docs && l == LineOf(a, student) {
      var i :| 0 <= i < |r| && r[i] == l;
      assert docs[i] in docs;
    }
    forall l | exists a :: a in docs && l == LineOf(a, student) ensures l in r {
      var a :| a in docs && l == LineOf(a, student);
      var i :| 0 <= i < |docs| && docs[i] == a;
      assert r[i] == l;
    }
  }

  /** Every line of the history is the student's recorded status: the
      "Unknown" fallback is never taken, since only sheets listing the
      student are read. */
  lemma HistoryNeverFallsBack(sheets: seq<Attendance>, caller: Caller, requested: Id, l: StudentLine)
    requires l in GetStudentAttendance(sheets, caller, requested)
    ensures var student := if caller.role == Student then caller.id else requested;
            exists a, k :: a in sheets && 0 <= k < |a.records| && a.records[k].student == student
                           && l.status == a.records[k].status && l.id == a.id && l.date == a.date
  {
    var student := if caller.role == Student then caller.id else requested;
    var a :| a in sheets && a.school == caller.school && Lists(a, student) && l == LineOf(a, student);
    var k := ListedStatus(a, student);
    assert a in sheets && 0 <= k < |a.records| && a.records[k].student == student;
  }

  /** A sheet that lists the student yields a recorded status for it. */
  lemma ListedStatus(a: Attendance, student: Id) returns (k: nat)
    requires Lists(a, student)
    ensures k < |a.records| && a.records[k].student == student && LineOf(a, student).status == a.records[k].status
  {
    k :| 0 <= k < |a.records| && a.records[k].student == student && StatusOf(a.records, student) == a.records[k].status;
  }

  /** GET /attendance/:id (scoped to the school). */
  function GetAttendanceById(sheets: seq<Attendance>, caller: Caller, id: Id): (r: Response<Attendance>)
    ensures r.Err? <==> forall a :: a in sheets ==> !(a.id == id && a.school == caller.school)
    ensures r.Err? ==> r == Err(404, RecordNotFound)
    ensures r.Ok? ==> r.body in sheets && r.body.id == id && r.body.school == caller.school
  {
    match FindFirst(sheets, (a: Attendance) => a.id == id && a.school == caller.school)
    case None => Err(404, RecordNotFound)
    case Some(i) => Ok(200, sheets[i])
  }

  /** DELETE /attendance/:id: removes the first sheet with that id in the
      school; 404 otherwise. */
  function DeleteAttendance(sheets: seq<Attendance>, caller: Caller, id: Id): (r: Step<seq<Attendance>, string>)
    ensures GetAttendanceById(sheets, caller, id).Err? <==> r == Step(sheets, Err(404, RecordNotFound))
    ensures r.response.Ok? <==> GetAttendanceById(sheets, caller, id).Ok?
    ensures r.response.Ok? ==>
              && |r.state| + 1 == |sheets|
              && multiset(r.state) + multiset{GetAttendanceById(sheets, caller, id).body} == multiset(sheets)
  {
    match FindFirst(sheets, (a: Attendance) => a.id == id && a.school == caller.school)
    case None => Step(sheets, Err(404, RecordNotFound))
    case Some(i) =>
      assert sheets == sheets[..i] + [sheets[i]] + sheets[i + 1..];
      Step(sheets[..i] + sheets[i + 1..], Ok(200, "Attendance record removed"))
  }

  /** A sheet newly created under a fresh id is found by that id, and
      deleting it again restores the sheets as they were. */
  lemma TakeThenDeleteRestores(classes: seq<Class>, sheets: seq<Attendance>, caller: Caller, classId: Option<Id>,
                               date: Option<int>, records: seq<AttendanceEntry>, newId: Id)
    requires forall a :: a in sheets ==> !(a.id == newId && a.school == caller.school)
    ensures var r := TakeAttendance(classes, sheets, caller, classId, date, records, newId);
            r.response.Ok? && r.response.code == 201 ==>
              && GetAttendanceById(r.state, caller, newId) == Ok(200, r.response.body.attendance)
              && DeleteAttendance(r.state, caller, newId).state == sheets
  {
    var r := TakeAttendance(classes, sheets, caller, classId, date, records, newId);
    if r.response.Ok? && r.response.code == 201 {
      var p := (a: Attendance) => a.id == newId && a.school == caller.school;
      forall j | 0 <= j < |sheets| ensures !p(r.state[j]) {
        assert r.state[j] == sheets[j] && sheets[j] in sheets;
      }
      FindFirstAt(r.state, p, |sheets|);
      assert r.state[..|sheets|] == sheets;
    }
  }

  // ----------------------------------------------------------------- routes

  datatype AttendanceEndpoint =
    | TakeEndpoint
    | StudentEndpoint(studentId: Id)
    | ClassSheetsEndpoint(classId: Id)
    | SheetByIdEndpoint(id: Id)
    | DeleteSheetEndpoint(id: Id)
    | NoRoute

  /** The attendance router as written. `path` is the list of segments after
      the mount point. GET /:classId is mounted before the GET of /:id, and
      both match any one segment, so the first wins. */
  function AttendanceRouteAsWritten(verb: Verb, path: seq<string>): (r: AttendanceEndpoint)
    ensures !r.SheetByIdEndpoint?
    ensures verb == Get && |path| == 1 ==> r == ClassSheetsEndpoint(path[0])
    ensures verb == Delete && |path| == 1 ==> r == DeleteSheetEndpoint(path[0])
    ensures r == TakeEndpoint <==> verb == Post && path == []
    ensures r.StudentEndpoint? <==> verb == Get && |path| == 2 && path[0] == "student"
  {
    if verb == Post && path == [] then TakeEndpoint
    else if verb == Get && |path| == 2 && path[0] == "student" then StudentEndpoint(path[1])
    else if verb == Get && |path| == 1 then ClassSheetsEndpoint(path[0])
    else if verb == Delete && |path| == 1 then DeleteSheetEndpoint(path[0])
    else NoRoute
  }

  /** The router with a route of its own for each handler: the class
      listing under /class/:classId, as the exam routes do, which frees
      GET /:id for the single record. Every other route is unchanged. */
  function AttendanceRoute(verb: Verb, path: seq<string>): (r: AttendanceEndpoint)
    ensures verb == Get && |path| == 1 ==> r == SheetByIdEndpoint(path[0])
    ensures r.ClassSheetsEndpoint? <==> verb == Get && |path| == 2 && path[0] == "class"
    ensures r.ClassSheetsEndpoint? ==> r.classId == path[1]
    ensures !(verb == Get && (|path| == 1 || (|path| == 2 && path[0] == "class"))) ==>
              r == AttendanceRouteAsWritten(verb, path)
  {
    if verb == Get && |path| == 1 then SheetByIdEndpoint(path[0])
    else if verb == Get && |path| == 2 && path[0] == "class" then ClassSheetsEndpoint(path[1])
    else AttendanceRouteAsWritten(verb, path)
  }

  /** No request reaches the single-record handler through the router as
      written: its path is answered by the class listing, which reads the id
      as a class id. The corrected router reaches it. */
  lemma GetByIdUnreachable(verb: Verb, path: seq<string>, id: Id)
    ensures !AttendanceRouteAsWritten(verb, path).SheetByIdEndpoint?
    ensures AttendanceRouteAsWritten(Get, [id]) == ClassSheetsEndpoint(id)
    ensures AttendanceRoute(Get, [id]) == SheetByIdEndpoint(id)
  {
  }
}

=== FILE: canteen.dfy ===
/**
 The canteen: the menu query, order placement with its per-line stock
 decrement, and the menu seeding helper. Order placement is not atomic:
 every accepted line is saved before the next is looked at, so an order
 rejected for insufficient stock leaves the earlier lines' decrements in
 place and creates no order.
 */
module Canteen {
  import opened Common
  import opened Models

  datatype Canteen = Canteen(items: seq<CanteenItem>, orders: seq<CanteenOrder>)

  /** One `{ itemId, quantity }` element of the request body; the id may be
      absent. */
  datatype LineRequest = LineRequest(itemId: Option<Id>, quantity: int)

  const NoItems: string := "No items in order"

  /** Item ids are unique across the collection. */
  predicate ItemIdsUnique(items: seq<CanteenItem>) {
    forall i, j :: 0 <= i < j < |items| ==> items[i].id != items[j].id
  }

  /** `CanteenItem.findOne({ _id, school })`. Mongoose drops a key whose
      value is undefined, so a line with no id finds the school's first
      item. */
  function FindItem(items: seq<CanteenItem>, id: Option<Id>, school: Id): Option<nat> {
    FindFirst(items, (it: CanteenItem) => (id.Some? ==> it.id == id.value) && it.school == school)
  }

  /** Two item collections agree on everything but stock and availability. */
  predicate SameCatalogue(a: seq<CanteenItem>, b: seq<CanteenItem>) {
    |a| == |b| &&
    forall k :: 0 <= k < |a| ==> b[k].(stock := a[k].stock, isAvailable := a[k].isAvailable) == a[k]
  }

  /** Sum of price × quantity over order lines. */
  function LinesTotal(lines: seq<OrderLine>): int {
    if |lines| == 0 then 0 else lines[0].price * lines[0].quantity + LinesTotal(lines[1..])
  }

  /** Total quantity of one item over order lines. */
  function Ordered(lines: seq<OrderLine>, id: Id): int {
    if |lines| == 0 then 0
    else (if lines[0].item == id then lines[0].quantity else 0) + Ordered(lines[1..], id)
  }

  predicate NonNegativeQuantities(reqs: seq<LineRequest>) {
    forall i :: 0 <= i < |reqs| ==> reqs[i].quantity >= 0
  }

  /** The outcome of the line loop: the items as saved so far, and either the
      accepted lines with their total, or the name of the item that ran short. */
  datatype Placing =
    | Placed(items: seq<CanteenItem>, lines: seq<OrderLine>, total: int)
    | Short(items: seq<CanteenItem>, name: string)

  /** One accepted line applied to an item: stock goes down by the quantity,
      and a stock of exactly 0 makes the item unavailable. */
  function Decrement(it: CanteenItem, quantity: int): (r: CanteenItem)
    requires quantity <= it.stock
    ensures r.(stock := it.stock, isAvailable := it.isAvailable) == it
    ensures r.stock + quantity == it.stock && r.stock >= 0
    ensures r.isAvailable <==> it.isAvailable && r.stock != 0
  {
    var left := it.stock - quantity;
    it.(stock := left, isAvailable := if left == 0 then false else it.isAvailable)
  }

  /** Some item of the school with this id sells at this price. */
  predicate Offered(items: seq<CanteenItem>, school: Id, id: Id, price: int) {
    exists k :: 0 <= k < |items| && items[k].id == id && items[k].school == school && items[k].price == price
  }

  /** Some item of the school bears this name. */
  predicate Named(items: seq<CanteenItem>, school: Id, name: string) {
    exists k :: 0 <= k < |items| && items[k].school == school && items[k].name == name
  }

  /** Saving a decremented item changes no catalogue entry. */
  lemma SaveKeepsCatalogue(items: seq<CanteenItem>, j: nat, quantity: int)
    requires j < |items| && quantity <= items[j].stock
    ensures SameCatalogue(items, items[j := Decrement(items[j], quantity)])
  {
  }

  /** What holds of one catalogue holds of another that agrees with it. */
  lemma CatalogueAgrees(a: seq<CanteenItem>, b: seq<CanteenItem>, c: seq<CanteenItem>, school: Id)
    requires SameCatalogue(a, b) && SameCatalogue(b, c)
    ensures SameCatalogue(a, c)
    ensures forall id, price :: Offered(b, school, id, price) ==> Offered(a, school, id, price)
    ensures forall name :: Named(b, school, name) ==> Named(a, school, name)
  {
    forall id, price | Offered(b, school, id, price) ensures Offered(a, school, id, price) {
      var k :| 0 <= k < |b| && b[k].id == id && b[k].school == school && b[k].price == price;
      assert a[k].id == b[k].id && a[k].school == b[k].school && a[k].price == b[k].price;
    }
    forall name | Named(b, school, name) ensures Named(a, school, name) {
      var k :| 0 <= k < |b| && b[k].school == school && b[k].name == name;
      assert a[k].name == b[k].name && a[k].school == b[k].school;
    }
  }

  /** A line priced from item `j` of the school joins lines already offered. */
  lemma LinesOffered(items: seq<CanteenItem>, school: Id, j: nat, line: OrderLine, ls: seq<OrderLine>)
    requires j < |items| && items[j].school == school
    requires line.item == items[j].id && line.price == items[j].price
    requires forall l :: l in ls ==> Offered(items, school, l.item, l.price)
    ensures forall l :: l in [line] + ls ==> Offered(items, school, l.item, l.price)
  {
    assert Offered(items, school, line.item, line.price);
  }

  /** The line loop: unknown ids (or ids of another school) are skipped; a
      quantity above stock stops the loop; otherwise the line is recorded
      at the current price and the item decremented and saved. */
  function Place(items: seq<CanteenItem>, reqs: seq<LineRequest>, school: Id): (r: Placing)
    ensures SameCatalogue(items, r.items)
    ensures r.Placed? ==> r.total == LinesTotal(r.lines) && |r.lines| <= |reqs|
    ensures r.Placed? ==> forall l :: l in r.lines ==> Offered(items, school, l.item, l.price)
    ensures r.Short? ==> Named(items, school, r.name)
    decreases |reqs|
  {
    if |reqs| == 0 then Placed(items, [], 0)
    else
      var q := reqs[0];
      match FindItem(items, q.itemId, school)
      case None => Place(items, reqs[1..], school)
      case Some(j) =>
        var it := items[j];
        if it.stock < q.quantity then Short(items, it.name)
        else
          var saved := items[j := Decrement(it, q.quantity)];
          SaveKeepsCatalogue(items, j, q.quantity);
          var rest := Place(saved, reqs[1..], school);
          CatalogueAgrees(items, saved, rest.items, school);
          match rest
          case Short(s, n) => Short(s, n)
          case Placed(s, ls, t) =>
            var line := OrderLine(it.id, q.quantity, it.price);
            LinesOffered(items, school, j, line, ls);
            Placed(s, [line] + ls, it.price * q.quantity + t)
  }

  /** Stock effects of the line loop on every item, whatever the outcome:
      another school's items are untouched; a non-negative stock stays
      non-negative whatever the quantities (the guard admits a line only when
      the stock covers it); and availability is only ever switched off. */
  lemma {:induction false} PlaceStockEffects(items: seq<CanteenItem>, reqs: seq<LineRequest>, school: Id)
    ensures var r := Place(items, reqs, school);
            forall k :: 0 <= k < |items| ==>
              && (items[k].school != school ==> r.items[k] == items[k])
              && (items[k].stock >= 0 ==> r.items[k].stock >= 0)
              && (r.items[k].isAvailable ==> items[k].isAvailable)
    decreases |reqs|
  {
    if |reqs| > 0 {
      var q := reqs[0];
      match FindItem(items, q.itemId, school)
      case None =>
        PlaceStockEffects(items, reqs[1..], school);
      case Some(j) =>
        var it := items[j];
        if it.stock >= q.quantity {
          var saved := items[j := Decrement(it, q.quantity)];
          PlaceStockEffects(saved, reqs[1..], school);
        }
    }
  }

  /** With non-negative quantities, stock only goes down and an item switched
      off sits at exactly 0. */
  lemma {:induction false} PlaceLowersStock(items: seq<CanteenItem>, reqs: seq<LineRequest>, school: Id)
    requires NonNegativeQuantities(reqs)
    ensures var r := Place(items, reqs, school);
            forall k :: 0 <= k < |items| ==>
              && r.items[k].stock <= items[k].stock
              && (items[k].isAvailable && !r.items[k].isAvailable ==> r.items[k].stock == 0)
    decreases |reqs|
  {
    if |reqs| > 0 {
      var q := reqs[0];
      assert NonNegativeQuantities(reqs[1..]);
      match FindItem(items, q.itemId, school)
      case None =>
        PlaceLowersStock(items, reqs[1..], school);
      case Some(j) =>
        var it := items[j];
        if it.stock >= q.quantity {
          var saved := items[j := Decrement(it, q.quantity)];
          PlaceLowersStock(saved, reqs[1..], school);
          PlaceStockEffects(saved, reqs[1..], school);
        }
    }
  }

  /** POST /canteen/order. */
  function PlaceOrder(c: Canteen, caller: Caller, items: Option<seq<LineRequest>>,
                      pickupTime: Option<string>, orderId: Id): (r: Step<Canteen, CanteenOrder>)
    ensures items.None? || |items.value| == 0 ==> r == Step(c, Err(400, NoItems))
    ensures r.state.orders == c.orders || (r.response.Ok? && r.state.orders == c.orders + [r.response.body])
    ensures r.response.Err? ==> r.state.orders == c.orders && r.response.code == 400
    ensures r.response.Ok? ==>
              && r.response.code == 201
              && items.Some? && r.state.items == Place(c.items, items.value, caller.school).items
              && var o := r.response.body;
                 o.id == orderId && o.student == caller.id && o.school == caller.school
                 && o.pickupTime == pickupTime && o.totalAmount == LinesTotal(o.items)
    ensures items.Some? && |items.value| > 0 ==>
              r.state.items == Place(c.items, items.value, caller.school).items
              && (r.response.Ok? <==> Place(c.items, items.value, caller.school).Placed?)
  {
    if items.None? || |items.value| == 0 then Step(c, Err(400, NoItems))
    else match Place(c.items, items.value, caller.school)
      case Short(saved, name) =>
        Step(c.(items := saved), Err(400, "Insufficient stock for " + name))
      case Placed(saved, lines, total) =>
        var o := CanteenOrder(orderId, caller.id, caller.school, lines, total, pickupTime);
        Step(Canteen(saved, c.orders + [o]), Ok(201, o))
  }

  /** Stock is conserved: every item's stock before an accepted order equals
      its stock after plus the quantity of it the order records. */
  lemma {:induction false} PlaceConservesStock(items: seq<CanteenItem>, reqs: seq<LineRequest>, school: Id)
    requires ItemIdsUnique(items)
    ensures var r := Place(items, reqs, school);
            r.Placed? ==> forall k :: 0 <= k < |items| ==>
              items[k].stock == r.items[k].stock + Ordered(r.lines, items[k].id)
    decreases |reqs|
  {
    var r := Place(items, reqs, school);
    if |reqs| > 0 && r.Placed? {
      var q := reqs[0];
      match FindItem(items, q.itemId, school)
      case None =>
        PlaceConservesStock(items, reqs[1..], school);
      case Some(j) =>
        var it := items[j];
        var saved := items[j := Decrement(it, q.quantity)];
        assert ItemIdsUnique(saved);
        PlaceConservesStock(saved, reqs[1..], school);
        var rest := Place(saved, reqs[1..], school);
        var line := OrderLine(it.id, q.quantity, it.price);
        assert r.lines == [line] + rest.lines && r.items == rest.items;
        forall k | 0 <= k < |items|
          ensures items[k].stock == r.items[k].stock + Ordered(r.lines, items[k].id)
        {
          assert ([line] + rest.lines)[1..] == rest.lines;
          assert Ordered(r.lines, items[k].id)
              == (if it.id == items[k].id then q.quantity else 0) + Ordered(rest.lines, items[k].id);
          assert saved[k].id == items[k].id;
          if k != j {
            assert it.id != items[k].id;
          }
        }
    }
  }

  /** An order whose ids match nothing in the caller's school still succeeds,
      with no lines, a zero total and the stock untouched. */
  lemma UnknownItemsMakeEmptyOrder(c: Canteen, caller: Caller, reqs: seq<LineRequest>,
                                   pickupTime: Option<string>, orderId: Id)
    requires |reqs| > 0
    requires forall i :: 0 <= i < |reqs| ==> FindItem(c.items, reqs[i].itemId, caller.school).None?
    ensures PlaceOrder(c, caller, Some(reqs), pickupTime, orderId)
            == Step(c.(orders := c.orders + [CanteenOrder(orderId, caller.id, caller.school, [], 0, pickupTime)]),
                    Ok(201, CanteenOrder(orderId, caller.id, caller.school, [], 0, pickupTime)))
  {
    SkipAll(c.items, reqs, caller.school);
  }

  lemma {:induction false} SkipAll(items: seq<CanteenItem>, reqs: seq<LineRequest>, school: Id)
    requires forall i :: 0 <= i < |reqs| ==> FindItem(items, reqs[i].itemId, school).None?
    ensures Place(items, reqs, school) == Placed(items, [], 0)
    decreases |reqs|
  {
    if |reqs| > 0 {
      assert FindItem(items, reqs[0].itemId, school).None?;
      SkipAll(items, reqs[1..], school);
    }
  }

  /** The non-atomic rejection: an order whose first line is covered by
      stock and whose second asks more of another item than it holds is
      refused and creates no order, yet the first item's stock has already
      gone down. */
  lemma RejectedOrderKeepsEarlierDecrement(a: CanteenItem, b: CanteenItem, orders: seq<CanteenOrder>, caller: Caller,
                                           q1: int, q2: int, pickupTime: Option<string>, orderId: Id)
    requires a.school == caller.school && b.school == caller.school && a.id != b.id
    requires q1 <= a.stock && b.stock < q2
    ensures var r := PlaceOrder(Canteen([a, b], orders), caller,
                                Some([LineRequest(Some(a.id), q1), LineRequest(Some(b.id), q2)]), pickupTime, orderId);
            && r.response == Err(400, "Insufficient stock for " + b.name)
            && r.state.orders == orders
            && r.state.items == [Decrement(a, q1), b]
  {
    var reqs := [LineRequest(Some(a.id), q1), LineRequest(Some(b.id), q2)];
    assert FindItem([a, b], Some(a.id), caller.school) == Some(0);
    var saved := [a, b][0 := Decrement(a, q1)];
    FindFirstAt(saved, (it: CanteenItem) => (Some(b.id).Some? ==> it.id == Some(b.id).value) && it.school == caller.school, 1);
    assert reqs[1..] == [LineRequest(Some(b.id), q2)];
    assert Place(saved, reqs[1..], caller.school) == Short(saved, b.name);
  }

  /** An item at stock 0, as the schema default leaves it, shows on the menu
      yet refuses any positive quantity. */
  lemma ZeroStockRefusesOrders(items: seq<CanteenItem>, j: nat, school: Id, quantity: int)
    requires j < |items| && items[j].school == school && items[j].stock == 0
    requires FindItem(items, Some(items[j].id), school) == Some(j)
    requires quantity > 0
    ensures Place(items, [LineRequest(Some(items[j].id), quantity)], school) == Short(items, items[j].name)
  {
  }

  /** A line with no item id draws on the school's first item: when its
      stock covers the quantity, that item is decremented and recorded. */
  lemma AbsentIdTakesFirstItem(items: seq<CanteenItem>, j: nat, school: Id, quantity: int)
    requires j < |items| && items[j].school == school && quantity <= items[j].stock
    requires forall k :: 0 <= k < j ==> items[k].school != school
    ensures var it := items[j];
            Place(items, [LineRequest(None, quantity)], school)
            == Placed(items[j := Decrement(it, quantity)], [OrderLine(it.id, quantity, it.price)], it.price * quantity)
  {
    var id: Option<Id> := None;
    FindFirstAt(items, (it: CanteenItem) => (id.Some? ==> it.id == id.value) && it.school == school, j);
  }

  /** GET /canteen/menu: the available items of the caller's school. */
  function GetMenu(items: seq<CanteenItem>, caller: Caller): (r: seq<CanteenItem>)
    ensures forall it :: it in r <==> it in items && it.isAvailable && it.school == caller.school
  {
    Filter(items, (it: CanteenItem) => it.isAvailable && it.school == caller.school)
  }

  /** The five items the seeding helper writes, as the schema completes them. */
  function SeedItems(school: Id, mint: nat -> Id): (r: seq<CanteenItem>)
    ensures |r| == 5
    ensures forall i :: 0 <= i < 5 ==> r[i].school == school && r[i].stock == 0 && r[i].isAvailable
  {
    [ NewCanteenItem(mint(0), "Veg Sandwich", school, 50, Snacks),
      NewCanteenItem(mint(1), "Chicken Burger", school, 90, Meals),
      NewCanteenItem(mint(2), "Fruit Juice", school, 40, Drinks),
      NewCanteenItem(mint(3), "Samosa", school, 20, Snacks),
      NewCanteenItem(mint(4), "Lunch Thali", school, 120, Meals) ]
  }

  /** POST /canteen/seed: the school's whole menu is deleted, then the five
      items are inserted; other schools' items are untouched. */
  function SeedMenu(items: seq<CanteenItem>, caller: Caller, mint: nat -> Id): (r: seq<CanteenItem>)
    ensures forall it :: it in items && it.school != caller.school ==> it in r
    ensures forall it :: it in r && it.school == caller.school ==> it in SeedItems(caller.school, mint)
    ensures forall it :: it in SeedItems(caller.school, mint) ==> it in r
  {
    Filter(items, (it: CanteenItem) => it.school != caller.school) + SeedItems(caller.school, mint)
  }

  /** After seeding, the caller's menu is exactly the five seeded items, all
      available. */
  lemma SeededMenuIsTheSeedItems(items: seq<CanteenItem>, caller: Caller, mint: nat -> Id)
    ensures GetMenu(SeedMenu(items, caller, mint), caller) == SeedItems(caller.school, mint)
  {
    MenuOfReplaced(items, SeedItems(caller.school, mint), caller);
  }

  /** Replacing a school's items by available ones of that school makes them
      its whole menu. */
  lemma MenuOfReplaced(items: seq<CanteenItem>, seeds: seq<CanteenItem>, caller: Caller)
    requires forall i :: 0 <= i < |seeds| ==> seeds[i].school == caller.school && seeds[i].isAvailable
    ensures GetMenu(Filter(items, (it: CanteenItem) => it.school != caller.school) + seeds, caller) == seeds
  {
    var p := (it: CanteenItem) => it.isAvailable && it.school == caller.school;
    var others := Filter(items, (it: CanteenItem) => it.school != caller.school);
    FilterAppend(others, seeds, p);
    FilterNone(others, p);
    FilterAll(seeds, p);
  }
}

=== FILE: classes.dfy ===
/**
 Classes: creation with teacher validation, student enrollment (the
 roster as a duplicate-free list of the school's students), the merge
 update that does not re-validate the teacher, and the per-role class
 listings.
 */
module Classes {
  import opened Common
  import opened Models

  const InvalidTeacher: string := "Invalid teacher ID"
  const InvalidStudent: string := "Invalid student ID"
  const AlreadyEnrolled: string := "Student already enrolled"
  const ClassNotFound: string := "Class not found"

  /** `id` names a user of `school` holding `role`. */
  predicate HasRole(users: seq<User>, id: Id, school: Id, role: Role) {
    match FindUserInSchool(users, id, school)
    case None => false
    case Some(i) => users[i].role == role
  }

  /** Every class is taught by a Teacher of its own school. */
  predicate TeachersValid(classes: seq<Class>, users: seq<User>) {
    forall k :: 0 <= k < |classes| ==> HasRole(users, classes[k].teacher, classes[k].school, Teacher)
  }

  /** Every roster holds distinct Students of the class's school. */
  predicate RostersValid(classes: seq<Class>, users: seq<User>) {
    forall k :: 0 <= k < |classes| ==>
      && NoDup(classes[k].students)
      && forall s :: s in classes[k].students ==> HasRole(users, s, classes[k].school, Student)
  }

  // ------------------------------------------------------------ createClass

  /** The creation check: `User.findOne({ _id: teacherId, school })` must
      find a Teacher. Mongoose drops a key whose value is undefined, so with
      no id the school's first user is the one tested. */
  predicate TeacherCheck(users: seq<User>, teacherId: Option<Id>, school: Id) {
    match teacherId
    case Some(t) => HasRole(users, t, school, Teacher)
    case None =>
      match FindFirst(users, (u: User) => u.school == school)
      case None => false
      case Some(i) => users[i].role == Teacher
  }

  /** The schema requires a day, a start and an end time on every schedule
      entry; an empty string fails the required check. */
  predicate ScheduleValid(schedule: seq<ScheduleEntry>) {
    forall e :: e in schedule ==> e.day != "" && e.startTime != "" && e.endTime != ""
  }

  /** POST /classes: the teacher must be a Teacher of the caller's school
      (400 otherwise); a missing teacher id, a falsy name or subject, or a
      schedule entry without its day or times then fails validation. */
  function CreateClass(classes: seq<Class>, users: seq<User>, caller: Caller, name: Option<string>,
                       subject: Option<string>, teacherId: Option<Id>, schedule: Option<seq<ScheduleEntry>>,
                       id: Id): (r: Step<seq<Class>, Class>)
    ensures !TeacherCheck(users, teacherId, caller.school) ==> r == Step(classes, Err(400, InvalidTeacher))
    ensures r.response.Err? ==> r.state == classes
    ensures r.response.Ok? <==>
              && teacherId.Some? && HasRole(users, teacherId.value, caller.school, Teacher)
              && Truthy(name) && Truthy(subject) && ScheduleValid(schedule.GetOr([]))
    ensures r.response.Ok? ==>
              && r.response.code == 201
              && r.state == classes + [r.response.body]
              && r.response.body == Class(id, name.value, subject.value, teacherId.value, caller.school, [],
                                          schedule.GetOr([]))
  {
    if !TeacherCheck(users, teacherId, caller.school) then Step(classes, Err(400, InvalidTeacher))
    else if teacherId.None? || !Truthy(name) || !Truthy(subject) || !ScheduleValid(schedule.GetOr([])) then
      Step(classes, Err(Uncaught, "Class validation failed"))
    else
      var c := Class(id, name.value, subject.value, teacherId.value, caller.school, [], schedule.GetOr([]));
      Step(classes + [c], Ok(201, c))
  }

  /** With no teacher id, a school whose first user is a Teacher passes the
      check, and the create then fails the schema's required teacher. */
  lemma AbsentTeacherFailsValidation(classes: seq<Class>, users: seq<User>, caller: Caller, name: Option<string>,
                                     subject: Option<string>, schedule: Option<seq<ScheduleEntry>>, id: Id, i: nat)
    requires i < |users| && users[i].school == caller.school && users[i].role == Teacher
    requires forall k :: 0 <= k < i ==> users[k].school != caller.school
    ensures CreateClass(classes, users, caller, name, subject, None, schedule, id)
            == Step(classes, Err(Uncaught, "Class validation failed"))
  {
    FindFirstAt(users, (u: User) => u.school == caller.school, i);
  }

  /** Creating a class under a fresh id and deleting it again leaves the
      classes as they were. */
  lemma CreateThenDeleteRestores(classes: seq<Class>, users: seq<User>, caller: Caller, name: Option<string>,
                                 subject: Option<string>, teacherId: Option<Id>, schedule: Option<seq<ScheduleEntry>>, id: Id)
    requires forall c :: c in classes ==> !(c.id == id && c.school == caller.school)
    ensures var a := CreateClass(classes, users, caller, name, subject, teacherId, schedule, id);
            a.response.Ok? ==> DeleteClass(a.state, caller, id) == Step(classes, Ok(200, "Class removed"))
  {
    var a := CreateClass(classes, users, caller, name, subject, teacherId, schedule, id);
    if a.response.Ok? {
      forall k | 0 <= k < |classes| ensures !(a.state[k].id == id && a.state[k].school == caller.school) {
        assert a.state[k] == classes[k] && classes[k] in classes;
      }
      FindFirstAt(a.state, (c: Class) => c.id == id && c.school == caller.school, |classes|);
      assert FindClassInSchool(a.state, id, caller.school) == Some(|classes|);
      assert a.state[..|classes|] + a.state[|classes| + 1..] == classes;
    }
  }

  /** Creation keeps every class taught by a Teacher of its school, and
      starts with an empty roster. */
  lemma CreateKeepsInvariants(classes: seq<Class>, users: seq<User>, caller: Caller, name: Option<string>,
                              subject: Option<string>, teacherId: Option<Id>, schedule: Option<seq<ScheduleEntry>>, id: Id)
    requires TeachersValid(classes, users) && RostersValid(classes, users)
    ensures var s := CreateClass(classes, users, caller, name, subject, teacherId, schedule, id).state;
            TeachersValid(s, users) && RostersValid(s, users)
  {
  }

  // ----------------------------------------------------------- enrollStudent

  /** POST /classes/:id/enroll: 404 for a class outside the school, 400 for
      anyone but a Student of the school, 400 for a student already on the
      roster; otherwise the student is appended. */
  function EnrollStudent(classes: seq<Class>, users: seq<User>, caller: Caller, id: Id,
                         studentId: Id): (r: Step<seq<Class>, string>)
    ensures FindClassInSchool(classes, id, caller.school).None? ==> r == Step(classes, Err(404, ClassNotFound))
    ensures r.response.Err? ==> r.state == classes
    ensures FindClassInSchool(classes, id, caller.school).Some? ==>
              var j := FindClassInSchool(classes, id, caller.school).value;
              && (!HasRole(users, studentId, caller.school, Student) ==> r == Step(classes, Err(400, InvalidStudent)))
              && (HasRole(users, studentId, caller.school, Student) && studentId in classes[j].students ==>
                    r == Step(classes, Err(400, AlreadyEnrolled)))
              && (r.response.Ok? <==> HasRole(users, studentId, caller.school, Student) && studentId !in classes[j].students)
              && (r.response.Ok? ==>
                    r.state == classes[j := classes[j].(students := classes[j].students + [studentId])])
  {
    match FindClassInSchool(classes, id, caller.school)
    case None => Step(classes, Err(404, ClassNotFound))
    case Some(j) =>
      if !HasRole(users, studentId, caller.school, Student) then Step(classes, Err(400, InvalidStudent))
      else if studentId in classes[j].students then Step(classes, Err(400, AlreadyEnrolled))
      else
        Step(classes[j := classes[j].(students := classes[j].students + [studentId])],
             Ok(200, "Student enrolled successfully"))
  }

  /** Enrollment keeps every roster duplicate-free and made of the school's
      students, and leaves teachers alone. */
  lemma EnrollKeepsInvariants(classes: seq<Class>, users: seq<User>, caller: Caller, id: Id, studentId: Id)
    requires TeachersValid(classes, users) && RostersValid(classes, users)
    ensures var s := EnrollStudent(classes, users, caller, id, studentId).state;
            TeachersValid(s, users) && RostersValid(s, users)
  {
    var r := EnrollStudent(classes, users, caller, id, studentId);
    if r.response.Ok? {
      var j := FindClassInSchool(classes, id, caller.school).value;
      var roster := classes[j].students;
      assert classes[j].school == caller.school;
      forall a, b | 0 <= a < b < |roster + [studentId]|
        ensures (roster + [studentId])[a] != (roster + [studentId])[b]
      {
        if b == |roster| {
          assert roster[a] in roster;
        }
      }
    }
  }

  // ------------------------------------------------------------ updateClass

  /** PUT /classes/:id: name, subject and teacher take the new value only
      when truthy; a schedule array replaces the old one whenever sent, and
      the save then fails validation if an entry lacks its day or times. The
      new teacher id is not checked. */
  function UpdateClass(classes: seq<Class>, caller: Caller, id: Id, name: Option<string>,
                       subject: Option<string>, teacherId: Option<Id>,
                       schedule: Option<seq<ScheduleEntry>>): (r: Step<seq<Class>, Class>)
    ensures FindClassInSchool(classes, id, caller.school).None? <==> r == Step(classes, Err(404, ClassNotFound))
    ensures r.response.Err? ==> r.state == classes
    ensures r.response.Ok? <==>
              FindClassInSchool(classes, id, caller.school).Some? && (schedule.Some? ==> ScheduleValid(schedule.value))
    ensures r.response.Ok? ==>
              var j := FindClassInSchool(classes, id, caller.school).value;
              var c := r.response.body;
              && r.state == classes[j := c]
              && c.id == classes[j].id && c.school == classes[j].school && c.students == classes[j].students
              && (Truthy(name) ==> c.name == name.value) && (!Truthy(name) ==> c.name == classes[j].name)
              && (Truthy(subject) ==> c.subject == subject.value)
              && (!Truthy(subject) ==> c.subject == classes[j].subject)
              && (Truthy(teacherId) ==> c.teacher == teacherId.value)
              && (!Truthy(teacherId) ==> c.teacher == classes[j].teacher)
              && (schedule.Some? ==> c.schedule == schedule.value)
              && (schedule.None? ==> c.schedule == classes[j].schedule)
  {
    match FindClassInSchool(classes, id, caller.school)
    case None => Step(classes, Err(404, ClassNotFound))
    case Some(j) =>
      if schedule.Some? && !ScheduleValid(schedule.value) then Step(classes, Err(Uncaught, "Class validation failed"))
      else
        var c := classes[j];
        var c' := c.(name := Or(name, c.name), subject := Or(subject, c.subject),
                     teacher := Or(teacherId, c.teacher), schedule := OrOpt(schedule, c.schedule));
        Step(classes[j := c'], Ok(200, c'))
  }

  /** The update does not re-validate the teacher: an id that is not a
      Teacher of the school (a student's, say) is installed all the same, and
      the class list stops being taught by teachers only. */
  lemma UpdateBreaksTeacherInvariant(classes: seq<Class>, users: seq<User>, caller: Caller, id: Id, teacherId: Id)
    requires FindClassInSchool(classes, id, caller.school).Some? && teacherId != ""
    requires !HasRole(users, teacherId, caller.school, Teacher)
    ensures var r := UpdateClass(classes, caller, id, None, None, Some(teacherId), None);
            r.response.Ok? && r.response.body.teacher == teacherId && !TeachersValid(r.state, users)
  {
    var j := FindClassInSchool(classes, id, caller.school).value;
    var r := UpdateClass(classes, caller, id, None, None, Some(teacherId), None);
    assert r.state[j].teacher == teacherId && r.state[j].school == caller.school;
  }

  // --------------------------------------------------------------- listings

  /** GET /classes/teacher: the classes the caller teaches in its school. */
  function TeacherClasses(classes: seq<Class>, caller: Caller): (r: seq<Class>)
    ensures forall c :: c in r <==> c in classes && c.teacher == caller.id && c.school == caller.school
  {
    Filter(classes, (c: Class) => c.teacher == caller.id && c.school == caller.school)
  }

  /** GET /classes/student: the classes whose roster holds the caller. */
  function StudentClasses(classes: seq<Class>, caller: Caller): (r: seq<Class>)
    ensures forall c :: c in r <==> c in classes && caller.id in c.students && c.school == caller.school
  {
    ClassesOf(classes, caller.id, caller.school)
  }

  /** GET /classes: every class of the caller's school. */
  function AllClasses(classes: seq<Class>, caller: Caller): (r: seq<Class>)
    ensures forall c :: c in r <==> c in classes && c.school == caller.school
  {
    Filter(classes, (c: Class) => c.school == caller.school)
  }

  /** A student enrolled through the endpoint then sees the class in its own
      listing. */
  lemma EnrolledStudentSeesClass(classes: seq<Class>, users: seq<User>, caller: Caller, id: Id,
                                 student: Caller)
    requires student.school == caller.school
    ensures var r := EnrollStudent(classes, users, caller, id, student.id);
            r.response.Ok? ==>
              var j := FindClassInSchool(classes, id, caller.school).value;
              r.state[j] in StudentClasses(r.state, student)
  {
  }

  /** DELETE /classes/:id. */
  function DeleteClass(classes: seq<Class>, caller: Caller, id: Id): (r: Step<seq<Class>, string>)
    ensures FindClassInSchool(classes, id, caller.school).None? <==> r == Step(classes, Err(404, ClassNotFound))
    ensures r.response.Ok? <==> FindClassInSchool(classes, id, caller.school).Some?
    ensures r.response.Ok? ==> |r.state| + 1 == |classes| && forall c :: c in r.state ==> c in classes
    ensures r.response.Ok? ==>
              var j := FindClassInSchool(classes, id, caller.school).value;
              && classes[j].id == id && classes[j].school == caller.school
              && multiset(r.state) + multiset{classes[j]} == multiset(classes)
  {
    match FindClassInSchool(classes, id, caller.school)
    case None => Step(classes, Err(404, ClassNotFound))
    case Some(j) =>
      assert classes == classes[..j] + [classes[j]] + classes[j + 1..];
      Step(classes[..j] + classes[j + 1..], Ok(200, "Class removed"))
  }
}

=== FILE: clubs.dfy ===
/**
 Clubs: joining and leaving (the member list as a duplicate-free set),
 the truthy-merge update, and the seeding helper, whose third entry
 names a variable that does not exist.
 */
module Clubs {
  import opened Common
  import opened Models

  const ClubNotFound: string := "Club not found"
  const AlreadyMember: string := "Already a member"
  const LeftClub: string := "Left club successfully"

  /** `Club.findOne({ _id, school })`. */
  function FindClub(clubs: seq<Club>, id: Id, school: Id): Option<nat> {
    FindFirst(clubs, (c: Club) => c.id == id && c.school == school)
  }

  // ------------------------------------------------------------ join/leave

  /** POST /clubs/:id/join: 404 outside the school, 400 for a member, else
      the caller is appended once. */
  function JoinClub(clubs: seq<Club>, caller: Caller, id: Id): (r: Step<seq<Club>, Club>)
    ensures FindClub(clubs, id, caller.school).None? ==> r == Step(clubs, Err(404, ClubNotFound))
    ensures r.response.Err? ==> r.state == clubs
    ensures r.response.Ok? <==>
              FindClub(clubs, id, caller.school).Some?
              && caller.id !in clubs[FindClub(clubs, id, caller.school).value].members
    ensures FindClub(clubs, id, caller.school).Some? ==>
              var j := FindClub(clubs, id, caller.school).value;
              && (caller.id in clubs[j].members <==> r == Step(clubs, Err(400, AlreadyMember)))
              && (r.response.Ok? ==>
                    && r.response.body == clubs[j].(members := clubs[j].members + [caller.id])
                    && r.state == clubs[j := r.response.body]
                    && (NoDup(clubs[j].members) ==> NoDup(r.response.body.members)))
  {
    match FindClub(clubs, id, caller.school)
    case None => Step(clubs, Err(404, ClubNotFound))
    case Some(j) =>
      var c := clubs[j];
      if caller.id in c.members then Step(clubs, Err(400, AlreadyMember))
      else
        var c' := c.(members := c.members + [caller.id]);
        Step(clubs[j := c'], Ok(200, c'))
  }

  /** POST /clubs/:id/leave: every occurrence of the caller is removed; not
      being a member is no error. */
  function LeaveClub(clubs: seq<Club>, caller: Caller, id: Id): (r: Step<seq<Club>, string>)
    ensures FindClub(clubs, id, caller.school).None? <==> r == Step(clubs, Err(404, ClubNotFound))
    ensures r.response.Ok? <==> FindClub(clubs, id, caller.school).Some?
    ensures r.response.Ok? ==>
              var j := FindClub(clubs, id, caller.school).value;
              && r.response == Ok(200, LeftClub)
              && |r.state| == |clubs|
              && r.state[j].(members := clubs[j].members) == clubs[j]
              && caller.id !in r.state[j].members
              && (forall m :: m in r.state[j].members <==> m in clubs[j].members && m != caller.id)
              && (forall k :: 0 <= k < |clubs| && k != j ==> r.state[k] == clubs[k])
  {
    match FindClub(clubs, id, caller.school)
    case None => Step(clubs, Err(404, ClubNotFound))
    case Some(j) =>
      Step(clubs[j := clubs[j].(members := RemoveAll(clubs[j].members, caller.id))], Ok(200, LeftClub))
  }

  /** Leaving is idempotent: a second leave changes nothing. */
  lemma LeaveIdempotent(clubs: seq<Club>, caller: Caller, id: Id)
    ensures var once := LeaveClub(clubs, caller, id).state;
            LeaveClub(once, caller, id).state == once
  {
    match FindClub(clubs, id, caller.school)
    case None =>
    case Some(j) =>
      var once := LeaveClub(clubs, caller, id).state;
      FindFirstUpdate(clubs, (c: Club) => c.id == id && c.school == caller.school, j, once[j]);
      assert once[j].members == RemoveAll(once[j].members, caller.id);
  }

  lemma {:induction false} RemoveAppended<T(!new)>(xs: seq<T>, x: T)
    requires x !in xs
    ensures RemoveAll(xs + [x], x) == xs
    decreases |xs|
  {
    if |xs| == 0 {
      assert xs + [x] == [x];
      assert [x][1..] == [];
    } else {
      assert (xs + [x])[1..] == xs[1..] + [x];
      RemoveAppended(xs[1..], x);
      assert xs == [xs[0]] + xs[1..];
    }
  }

  /** For a non-member, joining then leaving restores the club list. */
  lemma JoinThenLeaveRestores(clubs: seq<Club>, caller: Caller, id: Id)
    requires FindClub(clubs, id, caller.school).Some?
    requires caller.id !in clubs[FindClub(clubs, id, caller.school).value].members
    ensures var joined := JoinClub(clubs, caller, id);
            joined.response.Ok? && LeaveClub(joined.state, caller, id).state == clubs
  {
    var j := FindClub(clubs, id, caller.school).value;
    var joined := JoinClub(clubs, caller, id).state;
    FindFirstUpdate(clubs, (c: Club) => c.id == id && c.school == caller.school, j, joined[j]);
    RemoveAppended(clubs[j].members, caller.id);
  }

  // --------------------------------------------------------------- update

  /** PUT /clubs/:id: each field takes the new value only when it is truthy. */
  function UpdateClub(clubs: seq<Club>, caller: Caller, id: Id, name: Option<string>,
                      description: Option<string>, meetingDay: Option<string>,
                      meetingTime: Option<string>, president: Option<Id>,
                      facultyAdvisor: Option<Id>): (r: Step<seq<Club>, Club>)
    ensures FindClub(clubs, id, caller.school).None? <==> r == Step(clubs, Err(404, ClubNotFound))
    ensures r.response.Ok? <==> FindClub(clubs, id, caller.school).Some?
    ensures r.response.Ok? ==>
              var j := FindClub(clubs, id, caller.school).value;
              var c := r.response.body;
              && r.state == clubs[j := c]
              && c.id == clubs[j].id && c.school == clubs[j].school && c.members == clubs[j].members
              && (Truthy(name) ==> c.name == name.value) && (!Truthy(name) ==> c.name == clubs[j].name)
              && (Truthy(description) ==> c.description == description.value)
              && (!Truthy(description) ==> c.description == clubs[j].description)
              && (Truthy(meetingDay) ==> c.meetingDay == meetingDay)
              && (!Truthy(meetingDay) ==> c.meetingDay == clubs[j].meetingDay)
              && (Truthy(meetingTime) ==> c.meetingTime == meetingTime)
              && (!Truthy(meetingTime) ==> c.meetingTime == clubs[j].meetingTime)
              && (Truthy(president) ==> c.president == president)
              && (!Truthy(president) ==> c.president == clubs[j].president)
              && (Truthy(facultyAdvisor) ==> c.facultyAdvisor == facultyAdvisor)
              && (!Truthy(facultyAdvisor) ==> c.facultyAdvisor == clubs[j].facultyAdvisor)
  {
    match FindClub(clubs, id, caller.school)
    case None => Step(clubs, Err(404, ClubNotFound))
    case Some(j) =>
      var c := clubs[j];
      var c' := c.(name := Or(name, c.name), description := Or(description, c.description),
                   meetingDay := OrMaybe(meetingDay, c.meetingDay),
                   meetingTime := OrMaybe(meetingTime, c.meetingTime),
                   president := OrMaybe(president, c.president),
                   facultyAdvisor := OrMaybe(facultyAdvisor, c.facultyAdvisor));
      Step(clubs[j := c'], Ok(200, c'))
  }

  /** An update with every field falsy leaves the clubs as they were. */
  lemma EmptyUpdateChangesNothing(clubs: seq<Club>, caller: Caller, id: Id)
    requires FindClub(clubs, id, caller.school).Some?
    ensures UpdateClub(clubs, caller, id, None, None, None, None, None, None).state == clubs
  {
  }

  // ----------------------------------------------------------------- seed

  const ClubsSeeded: string := "Clubs seeded"
  const ClubsExist: string := "Clubs already exist"

  /** The five clubs of the seeding helper, bound to `school`. */
  function SeedClubList(school: Id, mint: nat -> Id): (r: seq<Club>)
    ensures |r| == 5 && forall i :: 0 <= i < 5 ==> r[i].school == school && r[i].members == []
  {
    [ Club(mint(0), "Robotics Club", school, "Building the future, one bot at a time.", None, None, [], Some("Friday"), Some("3:00 PM")),
      Club(mint(1), "Debate Society", school, "Voice your opinion and sharpen your mind.", None, None, [], Some("Wednesday"), Some("2:30 PM")),
      Club(mint(2), "Eco Warriors", school, "Making our school and planet greener.", None, None, [], Some("Monday"), Some("3:30 PM")),
      Club(mint(3), "Music Band", school, "Rock out and learn instruments.", None, None, [], Some("Thursday"), Some("4:00 PM")),
      Club(mint(4), "Coding Club", school, "Learn to code apps and websites.", None, None, [], Some("Tuesday"), Some("3:00 PM")) ]
  }

  function SchoolClubs(clubs: seq<Club>, school: Id): seq<Club> {
    Filter(clubs, (c: Club) => c.school == school)
  }

  /** POST /clubs/seed as written: building the third club reads an
      undeclared variable, so the handler throws before counting or
      inserting anything, on every call. */
  function SeedClubsAsWritten(clubs: seq<Club>, caller: Caller): (r: Step<seq<Club>, string>)
    ensures r.state == clubs && r.response.Err?
  {
    Step(clubs, Err(Uncaught, "schoolId is not defined"))
  }

  /** The helper never seeds anything, for any school and any store. */
  lemma SeedClubsNeverSeeds(clubs: seq<Club>, caller: Caller)
    ensures SchoolClubs(SeedClubsAsWritten(clubs, caller).state, caller.school)
            == SchoolClubs(clubs, caller.school)
    ensures SeedClubsAsWritten(clubs, caller).response != Ok(200, ClubsSeeded)
  {
  }

  /** The evidently intended helper: every club bound to the caller's school,
      inserted only when the school has none. */
  function SeedClubs(clubs: seq<Club>, caller: Caller, mint: nat -> Id): (r: Step<seq<Club>, string>)
    ensures |SchoolClubs(clubs, caller.school)| == 0 ==>
              r == Step(clubs + SeedClubList(caller.school, mint), Ok(200, ClubsSeeded))
    ensures |SchoolClubs(clubs, caller.school)| > 0 ==> r == Step(clubs, Ok(200, ClubsExist))
  {
    if |SchoolClubs(clubs, caller.school)| == 0 then
      Step(clubs + SeedClubList(caller.school, mint), Ok(200, ClubsSeeded))
    else
      Step(clubs, Ok(200, ClubsExist))
  }

  /** Seeding is idempotent, and a school without clubs ends up with exactly
      the five seeded ones. */
  lemma SeedClubsIdempotent(clubs: seq<Club>, caller: Caller, mint: nat -> Id)
    ensures var once := SeedClubs(clubs, caller, mint).state;
            SeedClubs(once, caller, mint).state == once
    ensures |SchoolClubs(clubs, caller.school)| == 0 ==>
              SchoolClubs(SeedClubs(clubs, caller, mint).state, caller.school)
              == SeedClubList(caller.school, mint)
  {
    var p := (c: Club) => c.school == caller.school;
    var seeds := SeedClubList(caller.school, mint);
    FilterAppend(clubs, seeds, p);
    FilterAll(seeds, p);
    if |SchoolClubs(clubs, caller.school)| == 0 {
      assert |SchoolClubs(clubs + seeds, caller.school)| == 5;
    }
  }
}

=== FILE: common.dfy ===
/**
 Shared vocabulary of the school API model: opaque ids, roles, the
 authenticated caller, status-coded responses, JavaScript truthiness for
 optional request fields, and the sequence queries every controller uses
 over its in-memory collections.
 */
module Common {

  /** Opaque database id (a Mongo ObjectId rendered as a string). */
  type Id = string

  datatype Option<T> = None | Some(value: T)
  {
    function GetOr(default: T): T {
      match this
      case Some(v) => v
      case None => default
    }
  }

  /** User.role enum; the schema default is Student. */
  datatype Role = Admin | Teacher | Student | SuperAdmin

  /** The role as the schema's enum spells it. */
  function RoleName(r: Role): string {
    match r
    case Admin => "Admin"
    case Teacher => "Teacher"
    case Student => "Student"
    case SuperAdmin => "SuperAdmin"
  }

  /** The authenticated principal of a request: `req.user` and `req.schoolId`. */
  datatype Caller = Caller(id: Id, role: Role, school: Id)

  /** What a handler sends back: a status code with a body, or a status code
      with the error message the error middleware serialises. */
  datatype Response<T> = Ok(code: int, body: T) | Err(code: int, message: string)

  /** A handler as a transition: the store after the request, and the reply. */
  datatype Step<S, T> = Step(state: S, response: Response<T>)

  /** Status of an error thrown without a preceding `res.status(...)`, as the
      error middleware reports it once corrected (see ErrorHandler below). */
  const Uncaught: int := 500

  /** The error middleware as written: `res.statusCode ? res.statusCode : 500`.
      Express starts every response at 200, so an error thrown before any
      `res.status(...)` is reported with status 200. */
  function ErrorStatusAsWritten(current: int): (r: int)
    ensures current != 0 ==> r == current
    ensures current == 0 ==> r == Uncaught
  {
    if current != 0 then current else 500
  }

  /** The evidently intended middleware: an error never keeps the 200 default. */
  function ErrorStatus(current: int): (r: int)
    ensures r != 200
    ensures current != 200 && current != 0 ==> r == current
  {
    if current == 200 || current == 0 then 500 else current
  }

  /** A thrown error with untouched `res.statusCode` surfaces as success. */
  lemma UncaughtErrorReportedAsSuccess()
    ensures ErrorStatusAsWritten(200) == 200
    ensures ErrorStatus(200) == Uncaught
  {
  }

  /** JavaScript truthiness of an optional string field: absent and "" are falsy. */
  predicate Truthy(o: Option<string>) {
    o.Some? && o.value != ""
  }

  /** JavaScript truthiness of an optional number field: absent and 0 are falsy. */
  predicate TruthyNum(o: Option<int>) {
    o.Some? && o.value != 0
  }

  /** `o || old` for a string field. */
  function Or(o: Option<string>, prev: string): (r: string)
    ensures Truthy(o) ==> r == o.value
    ensures !Truthy(o) ==> r == prev
  {
    if Truthy(o) then o.value else prev
  }

  /** `o || old` for an optional value whose every present value is truthy
      (ids, dates, enum members). */
  function OrOpt<T>(o: Option<T>, prev: T): (r: T)
    ensures o.Some? ==> r == o.value
    ensures o.None? ==> r == prev
  {
    if o.Some? then o.value else prev
  }

  /** `o || old` for a string field that may itself be absent. */
  function OrMaybe(o: Option<string>, prev: Option<string>): (r: Option<string>)
    ensures Truthy(o) ==> r == o
    ensures !Truthy(o) ==> r == prev
  {
    if Truthy(o) then o else prev
  }

  /** Mongo `findOne`: the position of the first record matching `p`. */
  function FindFirst<T>(xs: seq<T>, p: T -> bool): (r: Option<nat>)
    ensures r.Some? ==> r.value < |xs| && p(xs[r.value])
    ensures r.Some? ==> forall j :: 0 <= j < r.value ==> !p(xs[j])
    ensures r.None? <==> forall j :: 0 <= j < |xs| ==> !p(xs[j])
    decreases |xs|
  {
    if |xs| == 0 then None
    else if p(xs[0]) then Some(0)
    else match FindFirst(xs[1..], p)
      case None => None
      case Some(k) => Some(k + 1)
  }

  /** The first match is the one at `j` when `j` matches and nothing before
      it does. */
  lemma FindFirstAt<T>(xs: seq<T>, p: T -> bool, j: nat)
    requires j < |xs| && p(xs[j])
    requires forall m :: 0 <= m < j ==> !p(xs[m])
    ensures FindFirst(xs, p) == Some(j)
  {
    assert FindFirst(xs, p).Some?;
  }

  /** Two tests that agree on every element pick the same first match. */
  lemma FindFirstSame<T>(xs: seq<T>, p: T -> bool, q: T -> bool)
    requires forall x :: p(x) == q(x)
    ensures FindFirst(xs, p) == FindFirst(xs, q)
  {
    match FindFirst(xs, p)
    case Some(j) => FindFirstAt(xs, q, j);
    case None =>
  }

  /** Updating the first match with a record that still matches leaves it the
      first match. */
  lemma FindFirstUpdate<T>(xs: seq<T>, p: T -> bool, j: nat, v: T)
    requires FindFirst(xs, p) == Some(j) && p(v)
    ensures FindFirst(xs[j := v], p) == Some(j)
  {
    FindFirstAt(xs[j := v], p, j);
  }

  /** Mongo `find`: the records matching `p`, in natural order. */
  function Filter<T(!new)>(xs: seq<T>, p: T -> bool): (r: seq<T>)
    ensures |r| <= |xs|
    ensures forall x :: x in r <==> x in xs && p(x)
    ensures forall i :: 0 <= i < |r| ==> p(r[i])
    decreases |xs|
  {
    if |xs| == 0 then []
    else (if p(xs[0]) then [xs[0]] else []) + Filter(xs[1..], p)
  }

  lemma {:induction false} FilterAppend<T(!new)>(xs: seq<T>, ys: seq<T>, p: T -> bool)
    ensures Filter(xs + ys, p) == Filter(xs, p) + Filter(ys, p)
    decreases |xs|
  {
    if |xs| == 0 {
      assert xs + ys == ys;
    } else {
      assert (xs + ys)[1..] == xs[1..] + ys;
      FilterAppend(xs[1..], ys, p);
    }
  }

  /** Filtering with a predicate every record satisfies keeps them all. */
  lemma {:induction false} FilterAll<T(!new)>(xs: seq<T>, p: T -> bool)
    requires forall i :: 0 <= i < |xs| ==> p(xs[i])
    ensures Filter(xs, p) == xs
    decreases |xs|
  {
    if |xs| > 0 {
      FilterAll(xs[1..], p);
    }
  }

  /** Filtering a collection with a predicate no record satisfies yields nothing. */
  lemma FilterNone<T(!new)>(xs: seq<T>, p: T -> bool)
    requires forall i :: 0 <= i < |xs| ==> !p(xs[i])
    ensures Filter(xs, p) == []
  {
  }

  /** Every element of a sequence occurs at most once. */
  predicate NoDup<T(==)>(xs: seq<T>) {
    forall i, j :: 0 <= i < j < |xs| ==> xs[i] != xs[j]
  }

  /** `xs.filter(y => y !== x)`. */
  function RemoveAll<T(==,!new)>(xs: seq<T>, x: T): (r: seq<T>)
    ensures x !in r
    ensures forall y :: y in r <==> y in xs && y != x
    ensures x !in xs ==> r == xs
    decreases |xs|
  {
    if |xs| == 0 then []
    else (if xs[0] == x then [] else [xs[0]]) + RemoveAll(xs[1..], x)
  }

  lemma {:induction false} RemoveAllNoDup<T(!new)>(xs: seq<T>, x: T)
    requires NoDup(xs)
    ensures NoDup(RemoveAll(xs, x))
    decreases |xs|
  {
    if |xs| > 0 {
      var rest := RemoveAll(xs[1..], x);
      RemoveAllNoDup(xs[1..], x);
      assert xs[0] !in xs[1..];
      assert xs[0] !in rest;
    }
  }

  /** ASCII upper-casing of one character (JavaScript `toUpperCase` on ASCII). */
  function UpperChar(c: char): char {
    if 'a' <= c <= 'z' then (c as int - 32) as char else c
  }

  function Upper(s: string): (r: string)
    ensures |r| == |s|
    ensures forall i :: 0 <= i < |s| ==> r[i] == UpperChar(s[i])
  {
    seq(|s|, i requires 0 <= i < |s| => UpperChar(s[i]))
  }

  /** The HTTP method of a request, as a router sees it. */
  datatype Verb = Get | Post | Put | Delete
}

=== FILE: content.dfy ===
/**
 Teacher-published content: assignments, study materials and gallery
 photos. All three are stamped with the uploader and the school, deleted
 (and assignments updated) only by the uploader or an Admin, and listed to
 a Student only when their grade names one of the Student's classes.
 */
module Content {
  import opened Common
  import opened Models
  import opened Sorting
  import opened Access

  const AssignmentNotFound: string := "Assignment not found"
  const NotAuthorizedUpdate: string := "Not authorized to update this assignment"
  const NotAuthorizedDelete: string := "Not authorized to delete this assignment"
  const AssignmentRemoved: string := "Assignment removed"
  const MaterialNotFound: string := "Study material not found"
  const NotAuthorizedMaterial: string := "Not authorized to delete this material"
  const MaterialRemoved: string := "Study material removed"
  const PhotoNotFound: string := "Photo not found"
  const NotAuthorizedPhoto: string := "Not authorized to delete this photo"
  const PhotoRemoved: string := "Photo removed"

  // ------------------------------------------------------------- shared

  /** The names of the caller's classes in its school. */
  function ClassNames(classes: seq<Class>, caller: Caller): (r: seq<string>)
    ensures forall n :: n in r <==>
              exists c :: c in classes && c.school == caller.school && caller.id in c.students && c.name == n
  {
    var mine := ClassesOf(classes, caller.id, caller.school);
    var r := seq(|mine|, i requires 0 <= i < |mine| => mine[i].name);
    assert forall c :: c in mine ==> c.name in r by {
      forall c | c in mine ensures c.name in r {
        var i :| 0 <= i < |mine| && mine[i] == c;
        assert r[i] == c.name;
      }
    }
    r
  }

  /** What a listing shows the caller: everything of the school, except that a
      Student only sees records whose grade names one of its classes. */
  predicate ShownTo(classes: seq<Class>, caller: Caller, school: Id, grade: string) {
    && school == caller.school
    && (caller.role == Student ==> grade in ClassNames(classes, caller))
  }

  /** The delete shared by the three controllers: 404 when the school has no
      such record, 401 unless the caller uploaded it or is an Admin,
      otherwise the record is removed. */
  function DeleteOwned<T>(xs: seq<T>, at: Option<nat>, owner: T -> Id, caller: Caller,
                          notFound: string, notAuthorized: string, removed: string): (r: Step<seq<T>, string>)
    requires at.Some? ==> at.value < |xs|
    ensures r.response.Err? ==> r.state == xs
    ensures at.None? ==> r.response == Err(404, notFound)
    ensures at.Some? ==>
              && (r.response.Ok? <==> OwnerOrAdmin(caller, owner(xs[at.value])))
              && (!OwnerOrAdmin(caller, owner(xs[at.value])) ==> r.response == Err(401, notAuthorized))
    ensures r.response.Ok? ==>
              && r.response == Ok(200, removed)
              && |r.state| + 1 == |xs|
              && multiset(r.state) + multiset{xs[at.value]} == multiset(xs)
  {
    match at
    case None => Step(xs, Err(404, notFound))
    case Some(i) =>
      if !OwnerOrAdmin(caller, owner(xs[i])) then Step(xs, Err(401, notAuthorized))
      else
        assert xs == xs[..i] + [xs[i]] + xs[i + 1..];
        Step(xs[..i] + xs[i + 1..], Ok(200, removed))
  }

  // --------------------------------------------------------- assignments

  /** POST /assignments: every field is required, so a falsy one fails
      validation; the teacher and school come from the caller. */
  function CreateAssignment(assignments: seq<Assignment>, caller: Caller, title: Option<string>,
                            description: Option<string>, subject: Option<string>, grade: Option<string>,
                            dueDate: Option<int>, id: Id, now: int): (r: Step<seq<Assignment>, Assignment>)
    ensures r.response.Err? ==> r.state == assignments && r.response.code == Uncaught
    ensures r.response.Ok? <==>
              Truthy(title) && Truthy(description) && Truthy(subject) && Truthy(grade) && dueDate.Some?
    ensures r.response.Ok? ==>
              var a := r.response.body;
              && r.response.code == 201 && r.state == assignments + [a]
              && a.teacher == caller.id && a.school == caller.school && a.linkedQuiz.None?
              && a.title == title.value && a.grade == grade.value && a.dueDate == dueDate.value
              && a.id == id && a.description == description.value && a.subject == subject.value
              && a.createdAt == now
  {
    if !Truthy(title) || !Truthy(description) || !Truthy(subject) || !Truthy(grade) || dueDate.None? then
      Step(assignments, Err(Uncaught, "Assignment validation failed"))
    else
      var a := Assignment(id, title.value, description.value, subject.value, grade.value, dueDate.value,
                          caller.id, caller.school, None, now);
      Step(assignments + [a], Ok(201, a))
  }

  predicate DueFirst(a: Assignment, b: Assignment) {
    a.dueDate <= b.dueDate
  }

  /** GET /assignments: the school's assignments, earliest due first; a
      Student sees only those for its classes, and nothing when it is in no
      class. */
  function GetAssignments(assignments: seq<Assignment>, classes: seq<Class>, caller: Caller): (r: seq<Assignment>)
    ensures SortedBy(r, DueFirst)
    ensures forall a :: a in r <==> a in assignments && ShownTo(classes, caller, a.school, a.grade)
    ensures caller.role == Student && |ClassNames(classes, caller)| == 0 ==> r == []
  {
    if caller.role == Student && |ClassNames(classes, caller)| == 0 then []
    else Select(assignments, (a: Assignment) => ShownTo(classes, caller, a.school, a.grade), DueFirst)
  }

  /** GET /assignments/:id. */
  function GetAssignmentById(assignments: seq<Assignment>, caller: Caller, id: Id): (r: Response<Assignment>)
    ensures r.Err? <==> forall a :: a in assignments ==> !(a.id == id && a.school == caller.school)
    ensures r.Err? ==> r == Err(404, AssignmentNotFound)
    ensures r.Ok? ==> r.body in assignments && r.body.id == id && r.body.school == caller.school
  {
    match FindAssignment(assignments, id, caller.school)
    case None => Err(404, AssignmentNotFound)
    case Some(i) => Ok(200, assignments[i])
  }

  /** PUT /assignments/:id: 404 outside the school, 401 unless the caller is
      the assignment's teacher or an Admin; each field is replaced only by a
      truthy value. */
  function UpdateAssignment(assignments: seq<Assignment>, caller: Caller, id: Id, title: Option<string>,
                            description: Option<string>, subject: Option<string>, grade: Option<string>,
                            dueDate: Option<int>): (r: Step<seq<Assignment>, Assignment>)
    ensures FindAssignment(assignments, id, caller.school).None? ==> r == Step(assignments, Err(404, AssignmentNotFound))
    ensures r.response.Err? ==> r.state == assignments
    ensures FindAssignment(assignments, id, caller.school).Some? ==>
              var j := FindAssignment(assignments, id, caller.school).value;
              && (r.response.Ok? <==> OwnerOrAdmin(caller, assignments[j].teacher))
              && (!OwnerOrAdmin(caller, assignments[j].teacher) ==> r.response == Err(401, NotAuthorizedUpdate))
    ensures r.response.Ok? ==>
              var j := FindAssignment(assignments, id, caller.school).value;
              var a := r.response.body;
              var prev := assignments[j];
              && r.state == assignments[j := a]
              && a.id == prev.id && a.school == prev.school && a.teacher == prev.teacher
              && a.linkedQuiz == prev.linkedQuiz && a.createdAt == prev.createdAt
              && (Truthy(title) ==> a.title == title.value) && (!Truthy(title) ==> a.title == prev.title)
              && (Truthy(description) ==> a.description == description.value)
              && (!Truthy(description) ==> a.description == prev.description)
              && (Truthy(subject) ==> a.subject == subject.value) && (!Truthy(subject) ==> a.subject == prev.subject)
              && (Truthy(grade) ==> a.grade == grade.value) && (!Truthy(grade) ==> a.grade == prev.grade)
              && (dueDate.Some? ==> a.dueDate == dueDate.value) && (dueDate.None? ==> a.dueDate == prev.dueDate)
  {
    match FindAssignment(assignments, id, caller.school)
    case None => Step(assignments, Err(404, AssignmentNotFound))
    case Some(j) =>
      var a := assignments[j];
      if !OwnerOrAdmin(caller, a.teacher) then Step(assignments, Err(401, NotAuthorizedUpdate))
      else
        var a' := a.(title := Or(title, a.title), description := Or(description, a.description),
                     subject := Or(subject, a.subject), grade := Or(grade, a.grade),
                     dueDate := OrOpt(dueDate, a.dueDate));
        Step(assignments[j := a'], Ok(200, a'))
  }

  /** DELETE /assignments/:id. */
  function DeleteAssignment(assignments: seq<Assignment>, caller: Caller, id: Id): (r: Step<seq<Assignment>, string>)
    ensures FindAssignment(assignments, id, caller.school).None? ==> r == Step(assignments, Err(404, AssignmentNotFound))
    ensures r.response.Ok? <==>
              FindAssignment(assignments, id, caller.school).Some?
              && OwnerOrAdmin(caller, assignments[FindAssignment(assignments, id, caller.school).value].teacher)
    ensures r.response.Ok? ==>
              multiset(r.state) + multiset{assignments[FindAssignment(assignments, id, caller.school).value]}
              == multiset(assignments)
  {
    DeleteOwned(assignments, FindAssignment(assignments, id, caller.school), (a: Assignment) => a.teacher, caller,
                AssignmentNotFound, NotAuthorizedDelete, AssignmentRemoved)
  }

  /** Someone else's assignment is out of reach of a Teacher or Student, for
      update and delete alike, and within reach of an Admin. */
  lemma OthersAssignmentNeedsAdmin(assignments: seq<Assignment>, caller: Caller, id: Id)
    requires FindAssignment(assignments, id, caller.school).Some?
    requires assignments[FindAssignment(assignments, id, caller.school).value].teacher != caller.id
    ensures var u := UpdateAssignment(assignments, caller, id, None, None, None, None, None);
            var d := DeleteAssignment(assignments, caller, id);
            && (caller.role == Admin <==> u.response.Ok?)
            && (caller.role == Admin <==> d.response.Ok?)
            && (caller.role != Admin ==> u.response == Err(401, NotAuthorizedUpdate) && d.state == assignments)
  {
  }

  /** A newly created assignment is listed to its school's staff, and to every
      Student of the school enrolled in a class whose name is its grade. */
  lemma CreatedAssignmentListed(assignments: seq<Assignment>, classes: seq<Class>, caller: Caller,
                                title: string, description: string, subject: string, grade: string,
                                dueDate: int, id: Id, now: int, viewer: Caller)
    requires title != "" && description != "" && subject != "" && grade != ""
    requires viewer.school == caller.school
    requires viewer.role == Student ==>
               exists c :: c in classes && c.school == caller.school && viewer.id in c.students && c.name == grade
    ensures var r := CreateAssignment(assignments, caller, Some(title), Some(description), Some(subject),
                                      Some(grade), Some(dueDate), id, now);
            r.response.Ok? && r.response.body in GetAssignments(r.state, classes, viewer)
  {
    var r := CreateAssignment(assignments, caller, Some(title), Some(description), Some(subject),
                              Some(grade), Some(dueDate), id, now);
    assert r.response.body in r.state;
    if viewer.role == Student {
      assert grade in ClassNames(classes, viewer);
    }
  }

  // ------------------------------------------------------ study materials

  /** POST /materials: every field is required; the teacher and school come
      from the caller. */
  function UploadMaterial(materials: seq<StudyMaterial>, caller: Caller, title: Option<string>,
                          description: Option<string>, link: Option<string>, subject: Option<string>,
                          grade: Option<string>, id: Id, now: int): (r: Step<seq<StudyMaterial>, StudyMaterial>)
    ensures r.response.Err? ==> r.state == materials && r.response.code == Uncaught
    ensures r.response.Ok? <==>
              Truthy(title) && Truthy(description) && Truthy(link) && Truthy(subject) && Truthy(grade)
    ensures r.response.Ok? ==>
              var m := r.response.body;
              && r.response.code == 201 && r.state == materials + [m]
              && m.teacher == caller.id && m.school == caller.school && m.createdAt == now
              && m.id == id && m.title == title.value && m.description == description.value
              && m.link == link.value && m.subject == subject.value && m.grade == grade.value
  {
    if !Truthy(title) || !Truthy(description) || !Truthy(link) || !Truthy(subject) || !Truthy(grade) then
      Step(materials, Err(Uncaught, "StudyMaterial validation failed"))
    else
      var m := StudyMaterial(id, title.value, description.value, link.value, subject.value, grade.value,
                             caller.id, caller.school, now);
      Step(materials + [m], Ok(201, m))
  }

  predicate NewestMaterialFirst(a: StudyMaterial, b: StudyMaterial) {
    a.createdAt >= b.createdAt
  }

  /** GET /materials: the school's materials, newest first, with the same
      Student rule as assignments. */
  function GetMaterials(materials: seq<StudyMaterial>, classes: seq<Class>, caller: Caller): (r: seq<StudyMaterial>)
    ensures SortedBy(r, NewestMaterialFirst)
    ensures forall m :: m in r <==> m in materials && ShownTo(classes, caller, m.school, m.grade)
    ensures caller.role == Student && |ClassNames(classes, caller)| == 0 ==> r == []
  {
    if caller.role == Student && |ClassNames(classes, caller)| == 0 then []
    else Select(materials, (m: StudyMaterial) => ShownTo(classes, caller, m.school, m.grade), NewestMaterialFirst)
  }

  /** A newly uploaded material is listed to its school's staff, and to every
      Student of the school enrolled in a class whose name is its grade. */
  lemma CreatedMaterialListed(materials: seq<StudyMaterial>, classes: seq<Class>, caller: Caller,
                              title: string, description: string, link: string, subject: string,
                              grade: string, id: Id, now: int, viewer: Caller)
    requires title != "" && description != "" && link != "" && subject != "" && grade != ""
    requires viewer.school == caller.school
    requires viewer.role == Student ==>
               exists c :: c in classes && c.school == caller.school && viewer.id in c.students && c.name == grade
    ensures var r := UploadMaterial(materials, caller, Some(title), Some(description), Some(link), Some(subject),
                                    Some(grade), id, now);
            r.response.Ok? && r.response.body in GetMaterials(r.state, classes, viewer)
  {
    var r := UploadMaterial(materials, caller, Some(title), Some(description), Some(link), Some(subject),
                            Some(grade), id, now);
    assert r.response.body in r.state;
    if viewer.role == Student {
      assert grade in ClassNames(classes, viewer);
    }
  }

  /** DELETE /materials/:id. */
  function DeleteMaterial(materials: seq<StudyMaterial>, caller: Caller, id: Id): (r: Step<seq<StudyMaterial>, string>)
    ensures var at := FindFirst(materials, (m: StudyMaterial) => m.id == id && m.school == caller.school);
            && (at.None? ==> r == Step(materials, Err(404, MaterialNotFound)))
            && (r.response.Ok? <==> at.Some? && OwnerOrAdmin(caller, materials[at.value].teacher))
            && (at.Some? && !OwnerOrAdmin(caller, materials[at.value].teacher) ==>
                  r == Step(materials, Err(401, NotAuthorizedMaterial)))
            && (r.response.Ok? ==> multiset(r.state) + multiset{materials[at.value]} == multiset(materials))
  {
    DeleteOwned(materials, FindFirst(materials, (m: StudyMaterial) => m.id == id && m.school == caller.school),
                (m: StudyMaterial) => m.teacher, caller, MaterialNotFound, NotAuthorizedMaterial, MaterialRemoved)
  }

  /** Uploading a material under a fresh id and deleting it again as the
      uploader leaves the materials as they were. */
  lemma UploadThenDeleteMaterial(materials: seq<StudyMaterial>, caller: Caller, title: Option<string>,
                                 description: Option<string>, link: Option<string>, subject: Option<string>,
                                 grade: Option<string>, id: Id, now: int)
    requires forall m :: m in materials ==> !(m.id == id && m.school == caller.school)
    ensures var up := UploadMaterial(materials, caller, title, description, link, subject, grade, id, now);
            up.response.Ok? ==>
              var del := DeleteMaterial(up.state, caller, id);
              del.response == Ok(200, MaterialRemoved) && del.state == materials
  {
    var up := UploadMaterial(materials, caller, title, description, link, subject, grade, id, now);
    if up.response.Ok? {
      var p := (m: StudyMaterial) => m.id == id && m.school == caller.school;
      forall k | 0 <= k < |materials| ensures !p(up.state[k]) {
        assert up.state[k] == materials[k] && materials[k] in materials;
      }
      FindFirstAt(up.state, p, |materials|);
      assert up.state[..|materials|] == materials;
    }
  }

  // ------------------------------------------------------------- gallery

  /** POST /gallery: title and image url are required; description and class
      are optional; the teacher and school come from the caller. */
  function UploadPhoto(photos: seq<Photo>, caller: Caller, title: Option<string>, imageUrl: Option<string>,
                       description: Option<string>, className: Option<string>, id: Id, now: int): (r: Step<seq<Photo>, Photo>)
    ensures r.response.Err? ==> r.state == photos && r.response.code == Uncaught
    ensures r.response.Ok? <==> Truthy(title) && Truthy(imageUrl)
    ensures r.response.Ok? ==>
              var p := r.response.body;
              && r.response.code == 201 && r.state == photos + [p]
              && p.teacher == caller.id && p.school == caller.school && p.createdAt == now
              && p.title == title.value && p.imageUrl == imageUrl.value
              && p.description == description && p.className == className && p.id == id
  {
    if !Truthy(title) || !Truthy(imageUrl) then Step(photos, Err(Uncaught, "Gallery validation failed"))
    else
      var p := Photo(id, title.value, imageUrl.value, description, className, caller.id, caller.school, now);
      Step(photos + [p], Ok(201, p))
  }

  predicate NewestPhotoFirst(a: Photo, b: Photo) {
    a.createdAt >= b.createdAt
  }

  /** GET /gallery: every photo of the school, newest first, for every role. */
  function GetPhotos(photos: seq<Photo>, caller: Caller): (r: seq<Photo>)
    ensures SortedBy(r, NewestPhotoFirst)
    ensures forall p :: p in r <==> p in photos && p.school == caller.school
  {
    Select(photos, (p: Photo) => p.school == caller.school, NewestPhotoFirst)
  }

  /** DELETE /gallery/:id. */
  function DeletePhoto(photos: seq<Photo>, caller: Caller, id: Id): (r: Step<seq<Photo>, string>)
    ensures var at := FindFirst(photos, (p: Photo) => p.id == id && p.school == caller.school);
            && (at.None? ==> r == Step(photos, Err(404, PhotoNotFound)))
            && (r.response.Ok? <==> at.Some? && OwnerOrAdmin(caller, photos[at.value].teacher))
            && (at.Some? && !OwnerOrAdmin(caller, photos[at.value].teacher) ==>
                  r == Step(photos, Err(401, NotAuthorizedPhoto)))
            && (r.response.Ok? ==> multiset(r.state) + multiset{photos[at.value]} == multiset(photos))
  {
    DeleteOwned(photos, FindFirst(photos, (p: Photo) => p.id == id && p.school == caller.school),
                (p: Photo) => p.teacher, caller, PhotoNotFound, NotAuthorizedPhoto, PhotoRemoved)
  }

  /** Uploading a photo then deleting it as its uploader restores the
      gallery. */
  lemma UploadThenDeletePhoto(photos: seq<Photo>, caller: Caller, title: string, imageUrl: string,
                              description: Option<string>, className: Option<string>, id: Id, now: int)
    requires title != "" && imageUrl != ""
    requires forall p :: p in photos ==> p.id != id
    ensures var up := UploadPhoto(photos, caller, Some(title), Some(imageUrl), description, className, id, now);
            var del := DeletePhoto(up.state, caller, id);
            del.response.Ok? && del.state == photos
  {
    var up := UploadPhoto(photos, caller, Some(title), Some(imageUrl), description, className, id, now);
    FindFirstAt(up.state, (p: Photo) => p.id == id && p.school == caller.school, |photos|);
    assert up.state[..|photos|] == photos;
  }
}

=== FILE: courses.dfy ===
/**
 Courses and their enrollments: the owner-or-Admin course update, the
 course listing and detail, enrolling (at most one enrollment per student
 and course), lesson completion with its progress figure, and the
 certificate gate with its id format.
 */
module Courses {
  import opened Common
  import opened Models
  import opened Access

  const CourseNotFound: string := "Course not found"
  const NotAuthorizedCourse: string := "Not authorized to update this course"
  const AlreadyEnrolledCourse: string := "Already enrolled"
  const EnrollmentNotFound: string := "Enrollment not found"
  const NotEnrolled: string := "Not enrolled in this course"
  const NotCompleted: string := "Course not completed yet"
  const DefaultInstructor: string := "SMS Faculty"

  /** `Course.findOne({ _id, school })`. */
  function FindCourse(courses: seq<Course>, id: Id, school: Id): Option<nat> {
    FindFirst(courses, (c: Course) => c.id == id && c.school == school)
  }

  /** `Enrollment.findOne({ student, course, school })`. */
  function FindEnrollment(es: seq<Enrollment>, student: Id, course: Id, school: Id): Option<nat> {
    FindFirst(es, (e: Enrollment) => e.student == student && e.course == course && e.school == school)
  }

  /** An enrollment exists for the triple. */
  predicate Enrolled(es: seq<Enrollment>, student: Id, course: Id, school: Id) {
    exists e :: e in es && e.student == student && e.course == course && e.school == school
  }

  /** At most one enrollment per (student, course, school). */
  predicate OneEnrollmentPerKey(es: seq<Enrollment>) {
    forall i, j :: 0 <= i < j < |es| ==>
      !(es[i].student == es[j].student && es[i].course == es[j].course && es[i].school == es[j].school)
  }

  // ---------------------------------------------------------------- courses

  /** GET /courses: the school's courses, narrowed by category and level only
      when those are given. */
  function GetCourses(courses: seq<Course>, caller: Caller, category: Option<string>,
                      level: Option<Level>): (r: seq<Course>)
    ensures forall c :: c in r <==>
              && c in courses && c.school == caller.school
              && (Truthy(category) ==> c.category == category.value)
              && (level.Some? ==> c.level == level.value)
    ensures !Truthy(category) && level.None? ==>
              forall c :: c in r <==> c in courses && c.school == caller.school
  {
    Filter(courses, (c: Course) =>
      && c.school == caller.school
      && (Truthy(category) ==> c.category == category.value)
      && (level.Some? ==> c.level == level.value))
  }

  datatype CourseView = CourseView(course: Course, isEnrolled: bool, enrollment: Option<Enrollment>)

  /** GET /courses/:id: the course with the caller's enrollment, if any. */
  function GetCourseById(courses: seq<Course>, es: seq<Enrollment>, caller: Caller, id: Id)
    : (r: Response<CourseView>)
    ensures FindCourse(courses, id, caller.school).None? <==> r == Err(404, CourseNotFound)
    ensures r.Ok? <==> FindCourse(courses, id, caller.school).Some?
    ensures r.Ok? ==>
              && r.body.course in courses && r.body.course.school == caller.school
              && (r.body.isEnrolled <==> Enrolled(es, caller.id, r.body.course.id, caller.school))
              && (r.body.isEnrolled <==> r.body.enrollment.Some?)
    ensures r.Ok? ==> r.body.course.id == id
    ensures r.Ok? && r.body.enrollment.Some? ==>
              var e := r.body.enrollment.value;
              e in es && e.student == caller.id && e.course == id && e.school == caller.school
  {
    match FindCourse(courses, id, caller.school)
    case None => Err(404, CourseNotFound)
    case Some(j) =>
      var c := courses[j];
      match FindEnrollment(es, caller.id, c.id, caller.school)
      case None => Ok(200, CourseView(c, false, None))
      case Some(k) =>
        assert es[k] in es;
        Ok(200, CourseView(c, true, Some(es[k])))
  }

  /** The schema requires a title on every module and on every lesson;
      an empty string fails the required check. */
  predicate ModulesValid(modules: seq<CourseModule>) {
    forall m :: m in modules ==> m.title != "" && forall l :: l in m.lessons ==> l.title != ""
  }

  /** PUT /courses/:id: 404 outside the school, then 401 unless the caller
      owns the course or is an Admin. Text fields, modules and level take
      the new value only when truthy; isPublished whenever it is sent, an
      explicit false included. Modules sent with an untitled module or
      lesson fail validation on save. */
  function UpdateCourse(courses: seq<Course>, caller: Caller, id: Id, title: Option<string>,
                        description: Option<string>, category: Option<string>,
                        thumbnail: Option<string>, modules: Option<seq<CourseModule>>,
                        level: Option<Level>, isPublished: Option<bool>): (r: Step<seq<Course>, Course>)
    ensures FindCourse(courses, id, caller.school).None? ==> r == Step(courses, Err(404, CourseNotFound))
    ensures r.response.Err? ==> r.state == courses
    ensures FindCourse(courses, id, caller.school).Some? ==>
              var j := FindCourse(courses, id, caller.school).value;
              && (r.response.Ok? <==>
                    OwnerOrAdmin(caller, courses[j].teacher) && (modules.Some? ==> ModulesValid(modules.value)))
              && (!OwnerOrAdmin(caller, courses[j].teacher) ==> r.response == Err(401, NotAuthorizedCourse))
    ensures r.response.Ok? ==>
              var j := FindCourse(courses, id, caller.school).value;
              var c := r.response.body;
              && r.state == courses[j := c]
              && c.id == courses[j].id && c.school == courses[j].school && c.teacher == courses[j].teacher
              && c.title == Or(title, courses[j].title)
              && c.description == Or(description, courses[j].description)
              && c.category == Or(category, courses[j].category)
              && c.thumbnail == OrMaybe(thumbnail, courses[j].thumbnail)
              && c.modules == OrOpt(modules, courses[j].modules)
              && c.level == OrOpt(level, courses[j].level)
              && (isPublished.Some? ==> c.isPublished == isPublished.value)
              && (isPublished.None? ==> c.isPublished == courses[j].isPublished)
  {
    match FindCourse(courses, id, caller.school)
    case None => Step(courses, Err(404, CourseNotFound))
    case Some(j) =>
      var c := courses[j];
      if !OwnerOrAdmin(caller, c.teacher) then Step(courses, Err(401, NotAuthorizedCourse))
      else if modules.Some? && !ModulesValid(modules.value) then Step(courses, Err(Uncaught, "Course validation failed"))
      else
        var c' := c.(title := Or(title, c.title), description := Or(description, c.description),
                     category := Or(category, c.category), thumbnail := OrMaybe(thumbnail, c.thumbnail),
                     modules := OrOpt(modules, c.modules), level := OrOpt(level, c.level),
                     isPublished := OrOpt(isPublished, c.isPublished));
        Step(courses[j := c'], Ok(200, c'))
  }

  /** An explicit `false` unpublishes, where a truthy merge would have kept
      the course published. */
  lemma ExplicitFalseUnpublishes(courses: seq<Course>, caller: Caller, id: Id)
    requires FindCourse(courses, id, caller.school).Some?
    requires OwnerOrAdmin(caller, courses[FindCourse(courses, id, caller.school).value].teacher)
    ensures var r := UpdateCourse(courses, caller, id, None, None, None, None, None, None, Some(false));
            r.response.Ok? && !r.response.body.isPublished
  {
  }

  // ------------------------------------------------------------ enrollment

  /** POST /enrollment/:courseId: 404 outside the school, 400 when already
      enrolled, else one enrollment with progress 0. */
  function EnrollCourse(courses: seq<Course>, es: seq<Enrollment>, caller: Caller, courseId: Id,
                        now: int): (r: Step<seq<Enrollment>, Enrollment>)
    ensures FindCourse(courses, courseId, caller.school).None? ==> r == Step(es, Err(404, CourseNotFound))
    ensures r.response.Err? ==> r.state == es
    ensures FindCourse(courses, courseId, caller.school).Some? && Enrolled(es, caller.id, courseId, caller.school) ==>
              r == Step(es, Err(400, AlreadyEnrolledCourse))
    ensures r.response.Ok? <==>
              FindCourse(courses, courseId, caller.school).Some? && !Enrolled(es, caller.id, courseId, caller.school)
    ensures r.response.Ok? ==>
              && r.response == Ok(201, NewEnrollment(caller.id, caller.school, courseId, now))
              && r.state == es + [r.response.body]
  {
    match FindCourse(courses, courseId, caller.school)
    case None => Step(es, Err(404, CourseNotFound))
    case Some(j) =>
      match FindEnrollment(es, caller.id, courseId, caller.school)
      case Some(k) =>
        assert es[k] in es;
        Step(es, Err(400, AlreadyEnrolledCourse))
      case None =>
        var e := NewEnrollment(caller.id, caller.school, courseId, now);
        Step(es + [e], Ok(201, e))
  }

  /** Enrolling keeps at most one enrollment per key, and afterwards the
      caller is enrolled. */
  lemma EnrollKeepsOnePerKey(courses: seq<Course>, es: seq<Enrollment>, caller: Caller, courseId: Id, now: int)
    requires OneEnrollmentPerKey(es)
    ensures var r := EnrollCourse(courses, es, caller, courseId, now);
            && OneEnrollmentPerKey(r.state)
            && (FindCourse(courses, courseId, caller.school).Some? ==> Enrolled(r.state, caller.id, courseId, caller.school))
  {
    var r := EnrollCourse(courses, es, caller, courseId, now);
    if r.response.Ok? {
      var e := r.response.body;
      forall i, j | 0 <= i < j < |r.state|
        ensures !(r.state[i].student == r.state[j].student && r.state[i].course == r.state[j].course
                  && r.state[i].school == r.state[j].school)
      {
        if j == |es| {
          assert r.state[i] == es[i] && es[i] in es;
        }
      }
      assert r.state[|es|] == e;
    }
  }

  /** Once enrolled, the course view shows the enrollment just created. */
  lemma EnrollThenView(courses: seq<Course>, es: seq<Enrollment>, caller: Caller, courseId: Id, now: int)
    requires EnrollCourse(courses, es, caller, courseId, now).response.Ok?
    ensures var r := EnrollCourse(courses, es, caller, courseId, now);
            var v := GetCourseById(courses, r.state, caller, courseId);
            && v.Ok? && v.body.isEnrolled && v.body.enrollment == Some(r.response.body)
  {
    var r := EnrollCourse(courses, es, caller, courseId, now);
    assert r.state[|es|] == r.response.body;
    forall k | 0 <= k < |es|
      ensures !(r.state[k].student == caller.id && r.state[k].course == courseId && r.state[k].school == caller.school)
    {
      assert r.state[k] == es[k] && es[k] in es;
    }
  }

  // -------------------------------------------------------- lesson progress

  /** `completed / total * 100` as JavaScript computes it: with no lessons in
      the course the quotient of a positive count is Infinity. */
  function ProgressOf(completed: nat, total: nat): (p: Progress)
    ensures total > 0 ==> p.Percent? && p.value * total as real == completed as real * 100.0
    ensures total == 0 && completed > 0 ==> p == Infinity
  {
    if total == 0 then (if completed == 0 then Percent(0.0) else Infinity)
    else Percent(completed as real / total as real * 100.0)
  }

  /** The lookups of the lesson handler, `findOne({ student, course, school })`
      and `findOne({ _id, school })`, with the course id taken from the body.
      Mongoose drops a key whose value is undefined, so with no id the
      caller's first enrollment and the school's first course match, each
      on its own. */
  function LessonEnrollment(es: seq<Enrollment>, student: Id, courseId: Option<Id>, school: Id): Option<nat> {
    FindFirst(es, (e: Enrollment) => e.student == student && (courseId.Some? ==> e.course == courseId.value) && e.school == school)
  }

  function LessonCourse(courses: seq<Course>, courseId: Option<Id>, school: Id): Option<nat> {
    FindFirst(courses, (c: Course) => (courseId.Some? ==> c.id == courseId.value) && c.school == school)
  }

  /** PUT /enrollment/lesson-complete: 404 without an enrollment; an already
      completed lesson changes nothing; otherwise the lesson is appended and
      progress recomputed over the course's lesson count. A course no longer
      in the school makes the count throw, and nothing is saved. */
  function CompleteLesson(courses: seq<Course>, es: seq<Enrollment>, caller: Caller, courseId: Option<Id>,
                          lessonId: Id): (r: Step<seq<Enrollment>, Enrollment>)
    ensures courseId.Some? ==>
              LessonEnrollment(es, caller.id, courseId, caller.school) == FindEnrollment(es, caller.id, courseId.value, caller.school)
              && LessonCourse(courses, courseId, caller.school) == FindCourse(courses, courseId.value, caller.school)
    ensures LessonEnrollment(es, caller.id, courseId, caller.school).None? <==>
              r == Step(es, Err(404, EnrollmentNotFound))
    ensures r.response.Err? ==> r.state == es
    ensures LessonEnrollment(es, caller.id, courseId, caller.school).Some? ==>
              var k := LessonEnrollment(es, caller.id, courseId, caller.school).value;
              && (lessonId in es[k].completedLessons ==> r == Step(es, Ok(200, es[k])))
              && (lessonId !in es[k].completedLessons && LessonCourse(courses, courseId, caller.school).None? ==>
                    r == Step(es, Err(Uncaught, "Cannot read properties of null (reading 'modules')")))
              && (lessonId !in es[k].completedLessons && LessonCourse(courses, courseId, caller.school).Some? ==>
                    var c := courses[LessonCourse(courses, courseId, caller.school).value];
                    var done := es[k].completedLessons + [lessonId];
                    var e := es[k].(completedLessons := done,
                                    progress := ProgressOf(|done|, TotalLessons(c.modules)));
                    r == Step(es[k := e], Ok(200, e)))
  {
    assert courseId.Some? ==>
             LessonEnrollment(es, caller.id, courseId, caller.school) == FindEnrollment(es, caller.id, courseId.value, caller.school)
             && LessonCourse(courses, courseId, caller.school) == FindCourse(courses, courseId.value, caller.school) by {
      if courseId.Some? {
        FindFirstSame(es, (e: Enrollment) => e.student == caller.id && (courseId.Some? ==> e.course == courseId.value) && e.school == caller.school,
                      (e: Enrollment) => e.student == caller.id && e.course == courseId.value && e.school == caller.school);
        FindFirstSame(courses, (c: Course) => (courseId.Some? ==> c.id == courseId.value) && c.school == caller.school,
                      (c: Course) => c.id == courseId.value && c.school == caller.school);
      }
    }
    match LessonEnrollment(es, caller.id, courseId, caller.school)
    case None => Step(es, Err(404, EnrollmentNotFound))
    case Some(k) =>
      var e := es[k];
      if lessonId in e.completedLessons then Step(es, Ok(200, e))
      else match LessonCourse(courses, courseId, caller.school)
        case None => Step(es, Err(Uncaught, "Cannot read properties of null (reading 'modules')"))
        case Some(j) =>
          var done := e.completedLessons + [lessonId];
          var e' := e.(completedLessons := done, progress := ProgressOf(|done|, TotalLessons(courses[j].modules)));
          Step(es[k := e'], Ok(200, e'))
  }

  /** Completing the same lesson twice is the same as completing it once. */
  lemma CompleteLessonIdempotent(courses: seq<Course>, es: seq<Enrollment>, caller: Caller, courseId: Option<Id>,
                                 lessonId: Id)
    ensures var once := CompleteLesson(courses, es, caller, courseId, lessonId).state;
            CompleteLesson(courses, once, caller, courseId, lessonId).state == once
  {
    var r := CompleteLesson(courses, es, caller, courseId, lessonId);
    match LessonEnrollment(es, caller.id, courseId, caller.school)
    case None =>
    case Some(k) =>
      if r.state != es {
        FindFirstUpdate(es, (e: Enrollment) => e.student == caller.id && (courseId.Some? ==> e.course == courseId.value)
                                               && e.school == caller.school,
                        k, r.state[k]);
        assert lessonId in r.state[k].completedLessons;
      }
  }

  /** Completing lessons keeps each enrollment's completed list free of
      duplicates. */
  lemma CompleteLessonKeepsNoDup(courses: seq<Course>, es: seq<Enrollment>, caller: Caller, courseId: Option<Id>,
                                 lessonId: Id)
    requires forall i :: 0 <= i < |es| ==> NoDup(es[i].completedLessons)
    ensures var s := CompleteLesson(courses, es, caller, courseId, lessonId).state;
            forall i :: 0 <= i < |s| ==> NoDup(s[i].completedLessons)
  {
    var r := CompleteLesson(courses, es, caller, courseId, lessonId);
    if r.state != es {
      var k := LessonEnrollment(es, caller.id, courseId, caller.school).value;
      var xs := es[k].completedLessons;
      forall a, b | 0 <= a < b < |xs + [lessonId]|
        ensures (xs + [lessonId])[a] != (xs + [lessonId])[b]
      {
        if b == |xs| {
          assert xs[a] in xs;
        }
      }
    }
  }

  /** The lesson id is not checked against the course: a one-lesson course
      can report 200 percent. */
  lemma ProgressCanExceedHundred()
    ensures ProgressOf(2, 1) == Percent(200.0)
  {
  }

  // ------------------------------------------------------------ certificate

  /** `s.slice(-4)`: the last four characters, or all of a shorter string. */
  function Last4(s: string): (r: string)
    ensures |s| >= 4 ==> |r| == 4 && s == s[..|s| - 4] + r
    ensures |s| < 4 ==> r == s
  {
    if |s| >= 4 then s[|s| - 4..] else s
  }

  lemma UpperAppend(a: string, b: string)
    ensures Upper(a + b) == Upper(a) + Upper(b)
  {
    var l, r := Upper(a + b), Upper(a) + Upper(b);
    forall i | 0 <= i < |l| ensures l[i] == r[i] {
      if i < |a| {
        assert (a + b)[i] == a[i];
      } else {
        assert (a + b)[i] == b[i - |a|];
      }
    }
  }

  /** The certificate id: "CERT-", the last four characters of the course id
      upper-cased, "-", the last four of the student id upper-cased; 14
      characters for ids of at least four. */
  function CertificateId(courseId: Id, studentId: Id): (r: string)
    ensures r == "CERT-" + Upper(Last4(courseId)) + "-" + Upper(Last4(studentId))
    ensures |courseId| >= 4 && |studentId| >= 4 ==> |r| == 14
  {
    var a := Last4(courseId);
    var b := Last4(studentId);
    var r := Upper("CERT-" + a + "-" + b);
    UpperAppend("CERT-" + a + "-", b);
    UpperAppend("CERT-" + a, "-");
    UpperAppend("CERT-", a);
    assert Upper("CERT-") == "CERT-";
    assert Upper("-") == "-";
    r
  }

  datatype Certificate = Certificate(studentName: string, courseTitle: string, completionDate: int,
                                     instructor: string, certificateId: string)

  /** The completion test: fewer completed entries than lessons fails, unless
      the course has no lessons at all. Only the count is compared. */
  predicate Completed(e: Enrollment, c: Course) {
    !(|e.completedLessons| < TotalLessons(c.modules) && TotalLessons(c.modules) > 0)
  }

  /** GET /certificate/:courseId: 404 for a course outside the school, 400
      without an enrollment, 400 before completion; otherwise the certificate,
      under the generic instructor (courses have no instructor field). The
      caller's name is read from a lookup in the school, which throws when
      the caller is not there. */
  function GetCertificate(courses: seq<Course>, users: seq<User>, es: seq<Enrollment>, caller: Caller,
                          courseId: Id, now: int): (r: Response<Certificate>)
    ensures FindCourse(courses, courseId, caller.school).None? ==> r == Err(404, CourseNotFound)
    ensures FindCourse(courses, courseId, caller.school).Some? && !Enrolled(es, caller.id, courseId, caller.school) ==>
              r == Err(400, NotEnrolled)
    ensures r.Ok? <==>
              && FindCourse(courses, courseId, caller.school).Some?
              && FindEnrollment(es, caller.id, courseId, caller.school).Some?
              && Completed(es[FindEnrollment(es, caller.id, courseId, caller.school).value],
                           courses[FindCourse(courses, courseId, caller.school).value])
              && FindUserInSchool(users, caller.id, caller.school).Some?
    ensures r.Ok? ==>
              && r.body.certificateId == CertificateId(courseId, caller.id)
              && r.body.instructor == DefaultInstructor
              && r.body.courseTitle == courses[FindCourse(courses, courseId, caller.school).value].title
              && r.body.studentName == users[FindUserInSchool(users, caller.id, caller.school).value].name
              && r.body.completionDate == now
  {
    match FindCourse(courses, courseId, caller.school)
    case None => Err(404, CourseNotFound)
    case Some(j) =>
      match FindEnrollment(es, caller.id, courseId, caller.school)
      case None => Err(400, NotEnrolled)
      case Some(k) =>
        assert es[k] in es;
        if !Completed(es[k], courses[j]) then Err(400, NotCompleted)
        else match FindUserInSchool(users, caller.id, caller.school)
          case None => Err(Uncaught, "Cannot read properties of null (reading 'name')")
          case Some(u) =>
            Ok(200, Certificate(users[u].name, courses[j].title, now, DefaultInstructor,
                                CertificateId(courseId, caller.id)))
  }

  /** A course without lessons certifies every enrolled student of the school,
      whatever they completed. */
  lemma EmptyCourseCertifiesEnrolled(courses: seq<Course>, users: seq<User>, es: seq<Enrollment>,
                                     caller: Caller, courseId: Id, now: int)
    requires FindCourse(courses, courseId, caller.school).Some?
    requires TotalLessons(courses[FindCourse(courses, courseId, caller.school).value].modules) == 0
    requires FindEnrollment(es, caller.id, courseId, caller.school).Some?
    requires FindUserInSchool(users, caller.id, caller.school).Some?
    ensures GetCertificate(courses, users, es, caller, courseId, now).Ok?
  {
  }

  /** Progress and the certificate gate agree: with lessons in the course,
      the gate opens exactly when the progress figure reaches 100. */
  lemma GateMatchesProgress(e: Enrollment, c: Course)
    requires TotalLessons(c.modules) > 0
    ensures var p := ProgressOf(|e.completedLessons|, TotalLessons(c.modules));
            Completed(e, c) <==> p.value >= 100.0
  {
    var p := ProgressOf(|e.completedLessons|, TotalLessons(c.modules));
    ScaledReachesHundred(p.value, TotalLessons(c.modules) as real, |e.completedLessons| as real);
  }

  /** A percentage `p` with `p * t == n * 100` reaches 100 exactly when `n`
      reaches `t`. */
  lemma ScaledReachesHundred(p: real, t: real, n: real)
    requires t > 0.0 && p * t == n * 100.0
    ensures p >= 100.0 <==> n >= t
  {
    assert (p - 100.0) * t == (n - t) * 100.0;
    if p >= 100.0 {
      assert (p - 100.0) * t >= 0.0;
    } else {
      assert (p - 100.0) * t < 0.0;
    }
  }
}

=== FILE: fees.dfy ===
/**
 The fee ledger: how an admin's fee update is classified into a Credit, a
 Debit or no ledger movement, the merge of the fee fields, the bulk levy
 over a class roster, and the UPI payment flow with its webhook status
 machine, where SUCCESS is terminal.
 */
module Fees {
  import opened Common
  import opened Models

  /** The users collection together with the fee ledger. */
  datatype FeeBook = FeeBook(users: seq<User>, ledger: seq<FeeTransaction>)

  const StudentNotFound: string := "Student not found"

  // ------------------------------------------------------- classification

  /** The ledger movement a fee update implies: a type (or none) and an amount. */
  datatype Movement = Movement(txType: Option<TxType>, amount: int)

  /** Paying a fee that was not paid. */
  predicate Pays(status: Option<FeeStatus>, cur: User) {
    status == Some(Paid) && cur.feeStatus != Paid
  }

  /** Reverting a paid fee to pending. */
  predicate Reverts(status: Option<FeeStatus>, cur: User) {
    status == Some(Pending) && cur.feeStatus == Paid
  }

  /** Changing the fee amount to a different defined value. */
  predicate Reprices(amount: Option<int>, cur: User) {
    amount.Some? && amount.value != cur.feeAmount
  }

  /** Classification of a fee update against the student's current record. */
  function Classify(status: Option<FeeStatus>, amount: Option<int>, cur: User): (m: Movement)
    ensures m.txType == Some(Credit) <==> Pays(status, cur)
    ensures m.txType == Some(Debit) <==> !Pays(status, cur) && (Reverts(status, cur) || Reprices(amount, cur))
    ensures m.txType.None? <==> !Pays(status, cur) && !Reverts(status, cur) && !Reprices(amount, cur)
    ensures Pays(status, cur) || Reverts(status, cur) ==>
              m.amount == (if TruthyNum(amount) then amount.value else cur.feeAmount)
    ensures !Pays(status, cur) && !Reverts(status, cur) && Reprices(amount, cur) ==> m.amount == amount.value
    ensures m.txType.None? ==> m.amount == 0
  {
    if Pays(status, cur) then
      Movement(Some(Credit), if TruthyNum(amount) then amount.value else cur.feeAmount)
    else if Reverts(status, cur) then
      Movement(Some(Debit), if TruthyNum(amount) then amount.value else cur.feeAmount)
    else if Reprices(amount, cur) then
      Movement(Some(Debit), amount.value)
    else
      Movement(None, 0)
  }

  /** A status as template text: an absent status prints as "undefined". */
  function StatusText(status: Option<FeeStatus>): string {
    match status
    case None => "undefined"
    case Some(Paid) => "Paid"
    case Some(Pending) => "Pending"
    case Some(Overdue) => "Overdue"
  }

  /** The merge of the three fee fields: status and due date keep the old
      value when the new one is absent; an amount replaces the old one
      whenever it is given, 0 included. */
  function MergeFees(u: User, status: Option<FeeStatus>, amount: Option<int>, due: Option<int>): (r: User)
    ensures r.feeStatus == (if status.Some? then status.value else u.feeStatus)
    ensures r.feeAmount == (if amount.Some? then amount.value else u.feeAmount)
    ensures r.feeDueDate == (if due.Some? then due else u.feeDueDate)
    ensures r.(feeStatus := u.feeStatus, feeAmount := u.feeAmount, feeDueDate := u.feeDueDate) == u
  {
    u.(feeStatus := OrOpt(status, u.feeStatus), feeAmount := OrOpt(amount, u.feeAmount),
       feeDueDate := if due.Some? then due else u.feeDueDate)
  }

  /** The fee update with a choice of ledger schema: `infoAccepted` says
      whether an entry of type Info passes validation. */
  function UpdateFees(book: FeeBook, caller: Caller, id: Id, status: Option<FeeStatus>,
                      amount: Option<int>, due: Option<int>, remarks: Option<string>,
                      newId: Id, now: int, infoAccepted: bool): (r: Step<FeeBook, User>)
    ensures FindUserInSchool(book.users, id, caller.school).None? ==>
              r == Step(book, Err(404, StudentNotFound))
  {
    match FindUserInSchool(book.users, id, caller.school)
    case None => Step(book, Err(404, StudentNotFound))
    case Some(i) =>
      var u := book.users[i];
      var m := Classify(status, amount, u);
      var logged := m.txType.Some? || Truthy(remarks);
      var t := m.txType.GetOr(Info);
      if logged && !infoAccepted && !InTypeEnum(t) then
        Step(book, Err(Uncaught, "FeeTransaction validation failed: type"))
      else
        var entry := NewFeeTransaction(newId, u.id, m.amount, t,
                                       Or(remarks, "Fee status updated to " + StatusText(status)),
                                       caller.id, now);
        var u' := MergeFees(u, status, amount, due);
        Step(FeeBook(book.users[i := u'], if logged then book.ledger + [entry] else book.ledger), Ok(200, u'))
  }

  /** updateFeeDetails as written: an entry that falls back to type Info is
      refused by the ledger schema, so the request fails before the student
      is saved. */
  function UpdateFeeDetailsAsWritten(book: FeeBook, caller: Caller, id: Id, status: Option<FeeStatus>,
                                     amount: Option<int>, due: Option<int>, remarks: Option<string>,
                                     newId: Id, now: int): (r: Step<FeeBook, User>)
    ensures r.response.Err? ==> r.state == book
    ensures var i := FindUserInSchool(book.users, id, caller.school);
            i.Some? && Classify(status, amount, book.users[i.value]).txType.None? && Truthy(remarks) ==>
              r == Step(book, Err(Uncaught, "FeeTransaction validation failed: type"))
  {
    UpdateFees(book, caller, id, status, amount, due, remarks, newId, now, false)
  }

  /** updateFeeDetails as evidently intended: a remarks-only update is logged
      as an Info entry and the student is saved. */
  function UpdateFeeDetails(book: FeeBook, caller: Caller, id: Id, status: Option<FeeStatus>,
                            amount: Option<int>, due: Option<int>, remarks: Option<string>,
                            newId: Id, now: int): (r: Step<FeeBook, User>)
    ensures var i := FindUserInSchool(book.users, id, caller.school);
            && (i.None? <==> r.response.Err?)
            && (i.None? ==> r == Step(book, Err(404, StudentNotFound)))
            && (i.Some? ==>
                  var u := book.users[i.value];
                  var m := Classify(status, amount, u);
                  var logged := m.txType.Some? || Truthy(remarks);
                  && r.response == Ok(200, MergeFees(u, status, amount, due))
                  && |r.state.users| == |book.users|
                  && r.state.users[i.value] == MergeFees(u, status, amount, due)
                  && (forall j :: 0 <= j < |book.users| && j != i.value ==> r.state.users[j] == book.users[j])
                  && |r.state.ledger| == |book.ledger| + (if logged then 1 else 0)
                  && r.state.ledger[..|book.ledger|] == book.ledger
                  && (logged ==>
                        var e := r.state.ledger[|book.ledger|];
                        && e.student == u.id && e.amount == m.amount
                        && e.txType == m.txType.GetOr(Info)
                        && e.recordedBy == caller.id
                        && (Truthy(remarks) ==> e.remarks == remarks.value)))
  {
    UpdateFees(book, caller, id, status, amount, due, remarks, newId, now, true)
  }

  /** The two versions differ exactly on a remarks-only update of an existing
      student: the written one fails, the intended one logs an Info entry. */
  lemma InfoEntryRefused(book: FeeBook, caller: Caller, id: Id, status: Option<FeeStatus>,
                         amount: Option<int>, due: Option<int>, remarks: Option<string>,
                         newId: Id, now: int)
    ensures var i := FindUserInSchool(book.users, id, caller.school);
            var w := UpdateFeeDetailsAsWritten(book, caller, id, status, amount, due, remarks, newId, now);
            var c := UpdateFeeDetails(book, caller, id, status, amount, due, remarks, newId, now);
            (w != c <==> i.Some? && Classify(status, amount, book.users[i.value]).txType.None? && Truthy(remarks))
  {
    var i := FindUserInSchool(book.users, id, caller.school);
    var w := UpdateFeeDetailsAsWritten(book, caller, id, status, amount, due, remarks, newId, now);
    var c := UpdateFeeDetails(book, caller, id, status, amount, due, remarks, newId, now);
    if i.Some? {
      var m := Classify(status, amount, book.users[i.value]);
      if m.txType.None? && Truthy(remarks) {
        assert c.response.Ok? && w.response.Err?;
      } else {
        assert !(m.txType.Some? || Truthy(remarks)) || InTypeEnum(m.txType.GetOr(Info));
      }
    }
  }

  // -------------------------------------------------------------- bulk levy

  /** The students a bulk levy reaches: users of the caller's school whose id
      is on the class roster. */
  predicate InRoster(c: Class, school: Id, u: User) {
    u.id in c.students && u.school == school
  }

  /** One student's levy: the amount is added, the due date replaced when
      given, and a paid fee reopened. */
  function Levy(u: User, amount: int, due: Option<int>): (r: User)
    ensures r.feeAmount == u.feeAmount + amount
    ensures r.feeStatus == (if u.feeStatus == Paid then Pending else u.feeStatus)
    ensures r.feeStatus != Paid
    ensures r.feeDueDate == (if due.Some? then due else u.feeDueDate)
    ensures r.(feeAmount := u.feeAmount, feeStatus := u.feeStatus, feeDueDate := u.feeDueDate) == u
  {
    u.(feeAmount := u.feeAmount + amount,
       feeDueDate := if due.Some? then due else u.feeDueDate,
       feeStatus := if u.feeStatus == Paid then Pending else u.feeStatus)
  }

  /** Number of users the levy reaches. */
  function CountRoster(users: seq<User>, c: Class, school: Id): (n: nat)
    ensures n <= |users|
  {
    if |users| == 0 then 0
    else CountRoster(users[..|users| - 1], c, school) + (if InRoster(c, school, users[|users| - 1]) then 1 else 0)
  }

  /** The users after the levy, position by position. */
  function LevyUsers(users: seq<User>, c: Class, school: Id, amount: int, due: Option<int>): (r: seq<User>)
    ensures |r| == |users|
    ensures forall i :: 0 <= i < |users| ==>
              r[i] == (if InRoster(c, school, users[i]) then Levy(users[i], amount, due) else users[i])
  {
    seq(|users|, i requires 0 <= i < |users| =>
          if InRoster(c, school, users[i]) then Levy(users[i], amount, due) else users[i])
  }

  /** The users the levy reaches, in user order: what `User.find` returns. */
  function Roster(users: seq<User>, c: Class, school: Id): (r: seq<User>)
    ensures |r| == CountRoster(users, c, school)
    ensures forall u :: u in r <==> u in users && InRoster(c, school, u)
  {
    if |users| == 0 then []
    else
      var init := Roster(users[..|users| - 1], c, school);
      var u := users[|users| - 1];
      assert users == users[..|users| - 1] + [u];
      if InRoster(c, school, u) then init + [u] else init
  }

  /** Ids of the users the levy reaches. */
  function RosterIds(users: seq<User>, c: Class, school: Id): set<Id> {
    set u | u in users && InRoster(c, school, u) :: u.id
  }

  /** The Debit entries of the levy, one per reached student in user order.
      Entry k of the whole ledger gets id `mint(k)`. */
  function LevyEntries(users: seq<User>, c: Class, school: Id, amount: int, remarks: string,
                       recordedBy: Id, now: int, mint: nat -> Id, base: nat): (r: seq<FeeTransaction>)
    ensures |r| == CountRoster(users, c, school)
    ensures forall k :: 0 <= k < |r| ==>
              r[k].txType == Debit && r[k].amount == amount && r[k].remarks == remarks
              && r[k].recordedBy == recordedBy
    ensures forall k :: 0 <= k < |r| ==> r[k].student in RosterIds(users, c, school)
    ensures forall k :: 0 <= k < |r| ==> r[k].student == Roster(users, c, school)[k].id
  {
    if |users| == 0 then []
    else
      var init := LevyEntries(users[..|users| - 1], c, school, amount, remarks, recordedBy, now, mint, base);
      var u := users[|users| - 1];
      assert RosterIds(users[..|users| - 1], c, school) <= RosterIds(users, c, school) by {
        assert forall v :: v in users[..|users| - 1] ==> v in users;
      }
      if InRoster(c, school, u) then
        var r := init + [NewFeeTransaction(mint(base + |init|), u.id, amount, Debit, remarks, recordedBy, now)];
        assert u in users && r[|init|].student == u.id;
        assert forall k :: 0 <= k < |init| ==> r[k] == init[k];
        assert Roster(users, c, school) == Roster(users[..|users| - 1], c, school) + [u];
        r
      else init
  }

  const ClassAndAmountRequired: string := "Class ID and Amount are required"
  const ClassNotFound: string := "Class not found"

  /** bulkAssignFees. The class is looked up by id in any school; only roster
      members of the caller's school are levied. The reply carries the number
      of students levied. */
  function BulkAssignFees(book: FeeBook, classes: seq<Class>, caller: Caller, classId: Option<Id>,
                          amount: Option<int>, due: Option<int>, description: Option<string>,
                          mint: nat -> Id, now: int): (r: Step<FeeBook, nat>)
    ensures !Truthy(classId) || !TruthyNum(amount) ==> r == Step(book, Err(400, ClassAndAmountRequired))
    ensures Truthy(classId) && TruthyNum(amount) && FindClass(classes, classId.value).None? ==>
              r == Step(book, Err(404, ClassNotFound))
    ensures r.response.Err? ==> r.state == book
    ensures r.response.Ok? ==>
              && Truthy(classId) && TruthyNum(amount) && FindClass(classes, classId.value).Some?
              && var c := classes[FindClass(classes, classId.value).value];
              && r.response.body == CountRoster(book.users, c, caller.school)
              && |r.state.users| == |book.users|
              && r.state.users == LevyUsers(book.users, c, caller.school, amount.value, due)
              && (forall i :: 0 <= i < |book.users| && InRoster(c, caller.school, book.users[i]) ==>
                    && r.state.users[i].feeAmount == book.users[i].feeAmount + amount.value
                    && r.state.users[i].feeStatus != Paid)
              && (forall i :: 0 <= i < |book.users| && !InRoster(c, caller.school, book.users[i]) ==>
                    r.state.users[i] == book.users[i])
              && |r.state.ledger| == |book.ledger| + r.response.body
              && r.state.ledger[..|book.ledger|] == book.ledger
              && (forall k :: |book.ledger| <= k < |r.state.ledger| ==>
                    && r.state.ledger[k].txType == Debit && r.state.ledger[k].amount == amount.value
                    && r.state.ledger[k].student in RosterIds(book.users, c, caller.school))
              && (forall k :: 0 <= k < r.response.body ==>
                    r.state.ledger[|book.ledger| + k].student == Roster(book.users, c, caller.school)[k].id)
  {
    if !Truthy(classId) || !TruthyNum(amount) then Step(book, Err(400, ClassAndAmountRequired))
    else match FindClass(classes, classId.value)
      case None => Step(book, Err(404, ClassNotFound))
      case Some(ci) =>
        var c := classes[ci];
        var remarks := Or(description, "Bulk Fee Assigned: " + c.name);
        var entries := LevyEntries(book.users, c, caller.school, amount.value, remarks, caller.id, now, mint, |book.ledger|);
        var ledger := book.ledger + entries;
        assert ledger[..|book.ledger|] == book.ledger;
        assert forall k :: |book.ledger| <= k < |ledger| ==> ledger[k] == entries[k - |book.ledger|];
        assert forall k :: 0 <= k < |entries| ==> ledger[|book.ledger| + k] == entries[k];
        var users := LevyUsers(book.users, c, caller.school, amount.value, due);
        assert forall i :: 0 <= i < |book.users| && InRoster(c, caller.school, book.users[i]) ==>
                 users[i] == Levy(book.users[i], amount.value, due);
        Step(FeeBook(users, ledger),
             Ok(200, CountRoster(book.users, c, caller.school)))
  }

  /** Total of the fee amounts of a list of users. */
  function TotalDue(users: seq<User>): int {
    if |users| == 0 then 0 else TotalDue(users[..|users| - 1]) + users[|users| - 1].feeAmount
  }

  lemma MulSucc(a: int, k: int)
    ensures a * (k + 1) == a * k + a
  {
  }

  lemma LevyUsersPrefix(users: seq<User>, c: Class, school: Id, amount: int, due: Option<int>)
    requires |users| > 0
    ensures LevyUsers(users, c, school, amount, due)[..|users| - 1]
            == LevyUsers(users[..|users| - 1], c, school, amount, due)
  {
  }

  /** The levy raises the total amount due by the amount times the number of
      students reached. */
  lemma {:induction false} LevyRaisesTotal(users: seq<User>, c: Class, school: Id, amount: int, due: Option<int>)
    ensures TotalDue(LevyUsers(users, c, school, amount, due)) == TotalDue(users) + amount * CountRoster(users, c, school)
    decreases |users|
  {
    if |users| > 0 {
      var n := |users| - 1;
      var k := CountRoster(users[..n], c, school);
      LevyRaisesTotal(users[..n], c, school, amount, due);
      var b := LevyLast(users, c, school, amount, due);
      if b {
        MulSucc(amount, k);
      }
    }
  }

  /** The levy of a non-empty list is the levy of all but its last user, then
      that user's; `reached` says whether the last user is on the roster. */
  lemma LevyLast(users: seq<User>, c: Class, school: Id, amount: int, due: Option<int>) returns (reached: bool)
    requires |users| > 0
    ensures reached == InRoster(c, school, users[|users| - 1])
    ensures CountRoster(users, c, school) == CountRoster(users[..|users| - 1], c, school) + (if reached then 1 else 0)
    ensures TotalDue(LevyUsers(users, c, school, amount, due))
            == TotalDue(LevyUsers(users[..|users| - 1], c, school, amount, due))
               + users[|users| - 1].feeAmount + (if reached then amount else 0)
    ensures TotalDue(users) == TotalDue(users[..|users| - 1]) + users[|users| - 1].feeAmount
  {
    var n := |users| - 1;
    reached := InRoster(c, school, users[n]);
    var r := LevyUsers(users, c, school, amount, due);
    LevyUsersPrefix(users, c, school, amount, due);
    assert TotalDue(r) == TotalDue(r[..n]) + r[n].feeAmount;
  }

  // ------------------------------------------------------------------- UPI

  const ValidAmountRequired: string := "Valid amount is required to initiate payment"

  /** createUpiPayment: a student starts a payment for itself. The reply
      carries the id of the pending Credit entry. */
  function CreateUpiPayment(book: FeeBook, caller: Caller, amount: Option<int>, newId: Id, now: int)
    : (r: Step<FeeBook, Id>)
    ensures !TruthyNum(amount) || amount.value <= 0 ==> r == Step(book, Err(400, ValidAmountRequired))
    ensures r.response.Ok? <==>
              TruthyNum(amount) && amount.value > 0 && FindUserInSchool(book.users, caller.id, caller.school).Some?
    ensures r.response.Err? ==> r.state == book
    ensures r.response.Ok? ==>
              && r.response == Ok(200, newId)
              && r.state.users == book.users
              && r.state.ledger == book.ledger + [FeeTransaction(newId, caller.id, amount.value, Credit, UPI,
                                                                  None, PENDING, "UPI Payment initiated",
                                                                  caller.id, now)]
  {
    if !TruthyNum(amount) || amount.value <= 0 then Step(book, Err(400, ValidAmountRequired))
    else if FindUserInSchool(book.users, caller.id, caller.school).None? then Step(book, Err(404, StudentNotFound))
    else
      var e := FeeTransaction(newId, caller.id, amount.value, Credit, UPI, None, PENDING,
                              "UPI Payment initiated", caller.id, now);
      Step(book.(ledger := book.ledger + [e]), Ok(200, newId))
  }

  /** The UPI status enum, by its exact spelling. */
  function ParseUpiStatus(s: string): (r: Option<UpiStatus>)
    ensures r.Some? <==> s in {"PENDING", "SUCCESS", "FAILED", "REFUNDED"}
    ensures r == Some(SUCCESS) <==> s == "SUCCESS"
    ensures r == Some(PENDING) <==> s == "PENDING"
    ensures r == Some(FAILED) <==> s == "FAILED"
    ensures r == Some(REFUNDED) <==> s == "REFUNDED"
  {
    if s == "PENDING" then Some(PENDING)
    else if s == "SUCCESS" then Some(SUCCESS)
    else if s == "FAILED" then Some(FAILED)
    else if s == "REFUNDED" then Some(REFUNDED)
    else None
  }

  function FindEntry(ledger: seq<FeeTransaction>, id: Id): Option<nat> {
    FindFirst(ledger, (e: FeeTransaction) => e.id == id)
  }

  const MissingWebhookFields: string := "Missing transactionId or status in webhook payload"
  const EntryNotFound: string := "FeeTransaction not found"
  const AlreadyProcessed: string := "Transaction already processed as successful"
  const WebhookFailed: string := "Internal server error processing webhook"
  const WebhookProcessed: string := "Webhook processed successfully"

  /** handleUpiWebhook. The status is upper-cased before it is stored; one
      outside the enum fails the save and nothing changes. A successful
      payment marks the entry's student Paid with nothing due. */
  function HandleUpiWebhook(book: FeeBook, transactionId: Option<string>, status: Option<string>,
                            refId: Option<string>): (r: Step<FeeBook, string>)
    ensures !Truthy(transactionId) || !Truthy(status) ==> r == Step(book, Err(400, MissingWebhookFields))
    ensures Truthy(transactionId) && Truthy(status) && FindEntry(book.ledger, transactionId.value).None? ==>
              r == Step(book, Err(404, EntryNotFound))
    ensures Truthy(transactionId) && Truthy(status) && FindEntry(book.ledger, transactionId.value).Some? ==>
              var i := FindEntry(book.ledger, transactionId.value).value;
              var e := book.ledger[i];
              && (e.upiStatus == SUCCESS ==> r == Step(book, Ok(200, AlreadyProcessed)))
              && (e.upiStatus != SUCCESS && ParseUpiStatus(Upper(status.value)).None? ==>
                    r == Step(book, Err(500, WebhookFailed)))
              && (e.upiStatus != SUCCESS && ParseUpiStatus(Upper(status.value)).Some? ==>
                    && r.response == Ok(200, WebhookProcessed)
                    && r.state.ledger == book.ledger[i := e.(upiStatus := ParseUpiStatus(Upper(status.value)).value,
                                                            upiRefId := if Truthy(refId) then refId else e.upiRefId)]
                    && (ParseUpiStatus(Upper(status.value)) != Some(SUCCESS) ==> r.state.users == book.users)
                    && (ParseUpiStatus(Upper(status.value)) == Some(SUCCESS) ==>
                          && |r.state.users| == |book.users|
                          && (FindUser(book.users, e.student).None? ==> r.state.users == book.users)
                          && (FindUser(book.users, e.student).Some? ==>
                                var j := FindUser(book.users, e.student).value;
                                && book.users[j].id == e.student
                                && r.state.users[j].feeStatus == Paid && r.state.users[j].feeAmount == 0
                                && r.state.users[j].(feeStatus := book.users[j].feeStatus,
                                                     feeAmount := book.users[j].feeAmount) == book.users[j]
                                && forall k :: 0 <= k < |book.users| && k != j ==> r.state.users[k] == book.users[k])))
    ensures r.response.Err? ==> r.state == book
  {
    if !Truthy(transactionId) || !Truthy(status) then Step(book, Err(400, MissingWebhookFields))
    else match FindEntry(book.ledger, transactionId.value)
      case None => Step(book, Err(404, EntryNotFound))
      case Some(i) =>
        var e := book.ledger[i];
        if e.upiStatus == SUCCESS then Step(book, Ok(200, AlreadyProcessed))
        else match ParseUpiStatus(Upper(status.value))
          case None => Step(book, Err(500, WebhookFailed))
          case Some(s) =>
            var e' := e.(upiStatus := s, upiRefId := if Truthy(refId) then refId else e.upiRefId);
            var users :=
              if s != SUCCESS then book.users
              else match FindUser(book.users, e.student)
                case None => book.users
                case Some(j) => book.users[j := book.users[j].(feeStatus := Paid, feeAmount := 0)];
            Step(FeeBook(users, book.ledger[i := e']), Ok(200, WebhookProcessed))
  }

  /** SUCCESS is terminal: once the webhook has recorded a success for an
      entry, every later webhook for it changes nothing. */
  lemma SuccessIsTerminal(book: FeeBook, tid: string, s1: string, ref1: Option<string>,
                          s2: Option<string>, ref2: Option<string>)
    requires Upper(s1) == "SUCCESS"
    ensures var b1 := HandleUpiWebhook(book, Some(tid), Some(s1), ref1);
            b1.response.Ok? ==> HandleUpiWebhook(b1.state, Some(tid), s2, ref2).state == b1.state
  {
    var b1 := HandleUpiWebhook(book, Some(tid), Some(s1), ref1);
    if b1.response.Ok? && tid != "" && Truthy(s2) {
      var i := FindEntry(book.ledger, tid).value;
      var l1 := b1.state.ledger;
      assert l1[i].upiStatus == SUCCESS;
      assert l1[i].id == tid;
      assert forall j :: 0 <= j < i ==> l1[j] == book.ledger[j];
      assert FindEntry(l1, tid) == Some(i);
    }
  }

  /** Paying through UPI: initiating a payment and then receiving a success
      webhook for its entry leaves the student Paid with nothing due. */
  lemma UpiPaymentSettlesFee(book: FeeBook, caller: Caller, amount: int, newId: Id, now: int,
                             status: string, refId: Option<string>)
    requires UserIdsUnique(book.users)
    requires forall e :: e in book.ledger ==> e.id != newId
    requires newId != "" && amount > 0 && Upper(status) == "SUCCESS"
    requires FindUserInSchool(book.users, caller.id, caller.school).Some?
    ensures var b1 := CreateUpiPayment(book, caller, Some(amount), newId, now).state;
            var b2 := HandleUpiWebhook(b1, Some(newId), Some(status), refId).state;
            var j := FindUserInSchool(book.users, caller.id, caller.school).value;
            b2.users[j].feeStatus == Paid && b2.users[j].feeAmount == 0
  {
    var b1 := CreateUpiPayment(book, caller, Some(amount), newId, now).state;
    var n := |book.ledger|;
    forall k | 0 <= k < n ensures b1.ledger[k].id != newId {
      assert b1.ledger[k] == book.ledger[k];
    }
    FindFirstAt(b1.ledger, (e: FeeTransaction) => e.id == newId, n);
    assert b1.ledger[n].upiStatus == PENDING;
    assert ParseUpiStatus(Upper(status)) == Some(SUCCESS);
    var j := FindUserInSchool(book.users, caller.id, caller.school).value;
    assert FindUser(b1.users, caller.id) == Some(j);
    assert FindEntry(b1.ledger, newId) == Some(n) && b1.ledger[n].student == caller.id;
    SuccessWebhookPays(b1, newId, status, refId, n, j);
  }

  /** A success webhook for an entry not yet successful pays the entry's
      student, found by id alone. */
  lemma SuccessWebhookPays(book: FeeBook, tid: string, status: string, refId: Option<string>, i: nat, j: nat)
    requires tid != "" && Upper(status) == "SUCCESS"
    requires FindEntry(book.ledger, tid) == Some(i) && book.ledger[i].upiStatus != SUCCESS
    requires FindUser(book.users, book.ledger[i].student) == Some(j)
    ensures var b := HandleUpiWebhook(book, Some(tid), Some(status), refId).state;
            b.users[j].feeStatus == Paid && b.users[j].feeAmount == 0
  {
    assert ParseUpiStatus(Upper(status)) == Some(SUCCESS);
  }
}

=== FILE: grade.dfy ===
/**
 The report-card grade: a percentage of obtained over total marks, mapped
 to a letter by fixed thresholds. The division is JavaScript's, so a zero
 total yields an infinity or NaN rather than an error; the model keeps
 those cases apart and computes finite percentages exactly.
 */
module Grades {

  datatype Grade = APlus | A | B | C | D | F

  /** `(obtained / total) * 100` as a JavaScript number. */
  datatype Percentage = Finite(value: real) | PosInfinity | NegInfinity | NaN

  function PercentageOf(obtained: real, total: real): (p: Percentage)
    ensures total != 0.0 ==> p.Finite? && p.value * total == obtained * 100.0
    ensures total == 0.0 ==> (p == PosInfinity <==> obtained > 0.0)
    ensures total == 0.0 ==> (p == NaN <==> obtained == 0.0)
  {
    if total != 0.0 then Finite(obtained / total * 100.0)
    else if obtained > 0.0 then PosInfinity
    else if obtained < 0.0 then NegInfinity
    else NaN
  }

  /** `p >= t`: infinity passes every threshold, NaN and minus infinity none. */
  predicate AtLeast(p: Percentage, t: real) {
    match p
    case Finite(v) => v >= t
    case PosInfinity => true
    case NegInfinity => false
    case NaN => false
  }

  /** calculateGrade: the first threshold the percentage reaches. With a
      zero total, a positive mark is an A+ (the quotient is infinite) and any
      other mark an F (NaN or minus infinity reach no threshold). */
  function CalculateGrade(obtained: real, total: real): (g: Grade)
    ensures total == 0.0 ==> (g == APlus <==> obtained > 0.0)
    ensures total == 0.0 ==> (g == F <==> obtained <= 0.0)
  {
    var p := PercentageOf(obtained, total);
    if AtLeast(p, 90.0) then APlus
    else if AtLeast(p, 80.0) then A
    else if AtLeast(p, 70.0) then B
    else if AtLeast(p, 60.0) then C
    else if AtLeast(p, 50.0) then D
    else F
  }

  /** The bands for a positive total, stated without division: A+ from 90
      percent, then A, B, C and D in steps of ten down to 50, F below. Each
      input lands in exactly one band. */
  lemma GradeBands(obtained: real, total: real)
    requires total > 0.0
    ensures var g := CalculateGrade(obtained, total);
            && (g == APlus <==> obtained * 100.0 >= 90.0 * total)
            && (g == A <==> 80.0 * total <= obtained * 100.0 < 90.0 * total)
            && (g == B <==> 70.0 * total <= obtained * 100.0 < 80.0 * total)
            && (g == C <==> 60.0 * total <= obtained * 100.0 < 70.0 * total)
            && (g == D <==> 50.0 * total <= obtained * 100.0 < 60.0 * total)
            && (g == F <==> obtained * 100.0 < 50.0 * total)
  {
    var v := PercentageOf(obtained, total).value;
    ScaleCompare(obtained, total, v, 90.0);
    ScaleCompare(obtained, total, v, 80.0);
    ScaleCompare(obtained, total, v, 70.0);
    ScaleCompare(obtained, total, v, 60.0);
    ScaleCompare(obtained, total, v, 50.0);
  }

  /** For a positive total, comparing the percentage with a threshold is
      comparing obtained × 100 with threshold × total. */
  lemma ScaleCompare(obtained: real, total: real, v: real, t: real)
    requires total > 0.0 && v * total == obtained * 100.0
    ensures v >= t <==> obtained * 100.0 >= t * total
  {
    if v >= t {
      assert v * total >= t * total;
    } else {
      assert v * total < t * total;
    }
  }

  /** Letters ranked from F (0) to A+ (5). */
  function Rank(g: Grade): nat {
    match g
    case F => 0
    case D => 1
    case C => 2
    case B => 3
    case A => 4
    case APlus => 5
  }

  /** For a fixed positive total, more marks never give a lower grade. */
  lemma GradeMonotone(o1: real, o2: real, total: real)
    requires total > 0.0 && o1 <= o2
    ensures Rank(CalculateGrade(o1, total)) <= Rank(CalculateGrade(o2, total))
  {
    GradeBands(o1, total);
    GradeBands(o2, total);
  }
}

=== FILE: keyed.dfy ===
/**
 The find-then-update-or-create pattern shared by submissions, marks and
 attendance: look up the first record with a given key; if there is one,
 modify it in place, otherwise append a new record carrying that key.
 */
module Keyed {
  import opened Common

  /** No two records of the collection share a key. */
  predicate UniqueBy<R, K(==)>(s: seq<R>, key: R -> K) {
    forall i, j :: 0 <= i < j < |s| ==> key(s[i]) != key(s[j])
  }

  /** Number of records carrying key `k`. */
  function CountKey<R, K(==)>(s: seq<R>, key: R -> K, k: K): (n: nat)
    ensures n <= |s|
    ensures n == 0 <==> forall i :: 0 <= i < |s| ==> key(s[i]) != k
    decreases |s|
  {
    if |s| == 0 then 0
    else (if key(s[0]) == k then 1 else 0) + CountKey(s[1..], key, k)
  }

  datatype Upserted<R> = Upserted(store: seq<R>, updated: bool, at: nat)

  /** Position of the first record with key `k`, if any. */
  function FirstWithKey<R, K(==)>(s: seq<R>, key: R -> K, k: K): (r: int)
    ensures -1 <= r < |s|
    ensures r >= 0 ==> key(s[r]) == k && forall j :: 0 <= j < r ==> key(s[j]) != k
    ensures r < 0 ==> forall j :: 0 <= j < |s| ==> key(s[j]) != k
    decreases |s|
  {
    if |s| == 0 then -1
    else if key(s[0]) == k then 0
    else
      var t := FirstWithKey(s[1..], key, k);
      if t < 0 then -1 else t + 1
  }

  /** Update the first record with key `k`, or append `created`. `at` is the
      position of the record written. */
  function Upsert<R, K(==)>(s: seq<R>, key: R -> K, k: K, update: R -> R, created: R): (r: Upserted<R>)
    ensures r.updated <==> exists i :: 0 <= i < |s| && key(s[i]) == k
    ensures r.updated ==> r.at < |s| && key(s[r.at]) == k && r.store == s[r.at := update(s[r.at])]
    ensures r.updated ==> forall j :: 0 <= j < r.at ==> key(s[j]) != k
    ensures !r.updated ==> r.store == s + [created] && r.at == |s|
  {
    var i := FirstWithKey(s, key, k);
    if i >= 0 then Upserted(s[i := update(s[i])], true, i)
    else Upserted(s + [created], false, |s|)
  }

  lemma {:induction false} UniqueCountAtMostOne<R, K>(s: seq<R>, key: R -> K, k: K)
    requires UniqueBy(s, key)
    ensures CountKey(s, key, k) <= 1
    decreases |s|
  {
    if |s| > 0 {
      assert UniqueBy(s[1..], key);
      UniqueCountAtMostOne(s[1..], key, k);
      if key(s[0]) == k {
        assert forall i :: 0 <= i < |s[1..]| ==> key(s[1..][i]) != k by {
          forall i | 0 <= i < |s[1..]| ensures key(s[1..][i]) != k {
            assert s[1..][i] == s[i + 1];
          }
        }
      }
    }
  }

  /** An upsert whose update keeps the key and whose new record carries the
      key keeps the collection free of duplicate keys. */
  lemma UpsertKeepsUnique<R, K>(s: seq<R>, key: R -> K, k: K, update: R -> R, created: R)
    requires UniqueBy(s, key)
    requires forall x :: key(update(x)) == key(x)
    requires key(created) == k
    ensures UniqueBy(Upsert(s, key, k, update, created).store, key)
  {
    var r := Upsert(s, key, k, update, created);
    if r.updated {
      forall i, j | 0 <= i < j < |r.store| ensures key(r.store[i]) != key(r.store[j]) {
        assert key(r.store[i]) == key(s[i]);
        assert key(r.store[j]) == key(s[j]);
      }
    } else {
      forall i, j | 0 <= i < j < |r.store| ensures key(r.store[i]) != key(r.store[j]) {
        if j == |s| {
          assert r.store[i] == s[i];
        } else {
          assert r.store[i] == s[i] && r.store[j] == s[j];
        }
      }
    }
  }

  /** After an upsert for key `k`, exactly one record carries `k`. */
  lemma UpsertLeavesExactlyOne<R, K>(s: seq<R>, key: R -> K, k: K, update: R -> R, created: R)
    requires UniqueBy(s, key)
    requires forall x :: key(update(x)) == key(x)
    requires key(created) == k
    ensures CountKey(Upsert(s, key, k, update, created).store, key, k) == 1
  {
    var r := Upsert(s, key, k, update, created);
    UpsertKeepsUnique(s, key, k, update, created);
    UniqueCountAtMostOne(r.store, key, k);
    assert key(r.store[r.at]) == k;
  }

  /** Rewriting one record without changing its key keeps keys unique. */
  lemma UpdateKeepsUnique<R, K>(s: seq<R>, key: R -> K, i: nat, x: R)
    requires UniqueBy(s, key) && i < |s| && key(x) == key(s[i])
    ensures UniqueBy(s[i := x], key)
  {
    var t := s[i := x];
    forall a, b | 0 <= a < b < |t| ensures key(t[a]) != key(t[b]) {
      assert key(t[a]) == key(s[a]) && key(t[b]) == key(s[b]);
    }
  }

  /** Appending a record whose key no record carries keeps keys unique. */
  lemma AppendKeepsUnique<R, K>(s: seq<R>, key: R -> K, x: R)
    requires UniqueBy(s, key)
    requires forall i :: 0 <= i < |s| ==> key(s[i]) != key(x)
    ensures UniqueBy(s + [x], key)
  {
    var t := s + [x];
    forall a, b | 0 <= a < b < |t| ensures key(t[a]) != key(t[b]) {
      assert t[a] == s[a];
      if b < |s| {
        assert t[b] == s[b];
      }
    }
  }

  /** In a collection with unique keys, the key of a record present occurs
      exactly once. */
  lemma UniquePresentOnce<R, K>(s: seq<R>, key: R -> K, i: nat)
    requires UniqueBy(s, key) && i < |s|
    ensures CountKey(s, key, key(s[i])) == 1
  {
    UniqueCountAtMostOne(s, key, key(s[i]));
  }

  /** In a collection with unique keys, querying by the key of one record
      returns that record alone. */
  lemma {:induction false} FilterUniqueKey<R(!new), K>(s: seq<R>, key: R -> K, p: R -> bool, i: nat)
    requires UniqueBy(s, key) && i < |s|
    requires forall x :: p(x) <==> key(x) == key(s[i])
    ensures Filter(s, p) == [s[i]]
    decreases |s|
  {
    if i == 0 {
      FilterNone(s[1..], p);
    } else {
      assert UniqueBy(s[1..], key);
      assert s[1..][i - 1] == s[i];
      FilterUniqueKey(s[1..], key, p, i - 1);
    }
  }
}

=== FILE: library.dfy ===
/**
 The library: adding books, issuing and returning loans, and the book
 search. The copy counter is the one piece of state with an invariant:
 a book's available copies plus its loans still out equal its total
 copies. Issue and return keep it; return increments without a cap, so
 the bound rests on the invariant alone.
 */
module Library {
  import opened Common
  import opened Models
  import opened Sorting

  datatype Library = Library(books: seq<Book>, loans: seq<BookLoan>)

  const BookNotAvailable: string := "Book not available"
  const InvalidLoan: string := "Invalid loan or already returned"
  const BookNotFound: string := "Book not found"
  const BookRemoved: string := "Book removed"

  /** `Book.findOne({ _id, school })`. */
  function FindBook(books: seq<Book>, id: Id, school: Id): Option<nat> {
    FindFirst(books, (b: Book) => b.id == id && b.school == school)
  }

  /** `Book.findById(id)`: no school in the filter. */
  function FindBookAnywhere(books: seq<Book>, id: Id): Option<nat> {
    FindFirst(books, (b: Book) => b.id == id)
  }

  function FindLoan(loans: seq<BookLoan>, id: Id, school: Id): Option<nat> {
    FindFirst(loans, (l: BookLoan) => l.id == id && l.school == school)
  }

  predicate BookIdsUnique(books: seq<Book>) {
    forall i, j :: 0 <= i < j < |books| ==> books[i].id != books[j].id
  }

  /** Loans of a book that are still out (Issued or Overdue). */
  function Out(loans: seq<BookLoan>, book: Id): nat {
    if |loans| == 0 then 0
    else (if loans[0].book == book && loans[0].status != Returned then 1 else 0) + Out(loans[1..], book)
  }

  /** The copy invariant of the library. */
  predicate CopiesBalanced(lib: Library) {
    forall i :: 0 <= i < |lib.books| ==>
      lib.books[i].availableCopies + Out(lib.loans, lib.books[i].id) == lib.books[i].totalCopies
  }

  // ------------------------------------------------------------- addBook

  /** POST /library. Title, author and subject are required by the schema,
      so a falsy one fails validation (reported as an uncaught error) and
      nothing is stored. Both counters start at `totalCopies || 1`. */
  function AddBook(lib: Library, caller: Caller, title: Option<string>, author: Option<string>,
                   subject: Option<string>, className: Option<string>, totalCopies: Option<int>,
                   id: Id): (r: Step<Library, Book>)
    ensures r.response.Ok? <==> Truthy(title) && Truthy(author) && Truthy(subject)
    ensures r.response.Err? ==> r == Step(lib, Err(Uncaught, r.response.message))
    ensures r.response.Ok? ==>
              var b := r.response.body;
              && r.response.code == 201
              && r.state == lib.(books := lib.books + [b])
              && b.id == id && b.school == caller.school
              && b.title == title.value && b.author == author.value && b.subject == subject.value
              && b.className == className
              && b.availableCopies == b.totalCopies
              && (TruthyNum(totalCopies) ==> b.totalCopies == totalCopies.value)
              && (!TruthyNum(totalCopies) ==> b.totalCopies == 1)
  {
    if !(Truthy(title) && Truthy(author) && Truthy(subject)) then
      Step(lib, Err(Uncaught, "Book validation failed"))
    else
      var copies := if TruthyNum(totalCopies) then totalCopies.value else 1;
      var b := Book(id, title.value, caller.school, author.value, subject.value, className, copies, copies);
      Step(lib.(books := lib.books + [b]), Ok(201, b))
  }

  /** DELETE /library/:id. */
  function DeleteBook(lib: Library, caller: Caller, id: Id): (r: Step<Library, string>)
    ensures FindBook(lib.books, id, caller.school).None? <==> r.response == Err(404, BookNotFound)
    ensures r.response.Err? ==> r.state == lib
    ensures r.response.Ok? <==> FindBook(lib.books, id, caller.school).Some?
    ensures r.response.Ok? ==>
              && r.response == Ok(200, BookRemoved)
              && |r.state.books| + 1 == |lib.books|
              && r.state.loans == lib.loans
              && forall b :: b in r.state.books ==> b in lib.books
    ensures r.response.Ok? ==>
              var j := FindBook(lib.books, id, caller.school).value;
              && lib.books[j].id == id && lib.books[j].school == caller.school
              && multiset(r.state.books) + multiset{lib.books[j]} == multiset(lib.books)
  {
    match FindBook(lib.books, id, caller.school)
    case None => Step(lib, Err(404, BookNotFound))
    case Some(j) =>
      assert lib.books == lib.books[..j] + [lib.books[j]] + lib.books[j + 1..];
      Step(lib.(books := lib.books[..j] + lib.books[j + 1..]), Ok(200, BookRemoved))
  }

  /** Adding a book under a fresh id and deleting it again leaves the
      library as it was. */
  lemma AddThenDeleteRestores(lib: Library, caller: Caller, title: Option<string>, author: Option<string>,
                              subject: Option<string>, className: Option<string>, totalCopies: Option<int>, id: Id)
    requires forall b :: b in lib.books ==> !(b.id == id && b.school == caller.school)
    ensures var a := AddBook(lib, caller, title, author, subject, className, totalCopies, id);
            a.response.Ok? ==> DeleteBook(a.state, caller, id) == Step(lib, Ok(200, BookRemoved))
  {
    var a := AddBook(lib, caller, title, author, subject, className, totalCopies, id);
    if a.response.Ok? {
      forall k | 0 <= k < |lib.books| ensures !(a.state.books[k].id == id && a.state.books[k].school == caller.school) {
        assert a.state.books[k] == lib.books[k] && lib.books[k] in lib.books;
      }
      FindFirstAt(a.state.books, (b: Book) => b.id == id && b.school == caller.school, |lib.books|);
      assert FindBook(a.state.books, id, caller.school) == Some(|lib.books|);
      assert a.state.books[..|lib.books|] + a.state.books[|lib.books| + 1..] == lib.books;
    }
  }

  // ----------------------------------------------------------- issueBook

  /** The issue handler's `Book.findOne({ _id: bookId, school })`. Mongoose
      drops a key whose value is undefined, so with no id the school's first
      book is found. */
  function LoanBook(books: seq<Book>, bookId: Option<Id>, school: Id): (r: Option<nat>)
    ensures bookId.Some? ==> r == FindBook(books, bookId.value, school)
    ensures bookId.None? && r.Some? ==> r.value < |books| && books[r.value].school == school
    ensures bookId.None? && r.None? ==> forall b :: b in books ==> b.school != school
  {
    match bookId
    case Some(id) => FindBook(books, id, school)
    case None => FindFirst(books, (b: Book) => b.school == school)
  }

  /** POST /library/loans. A book missing from the caller's school, or with
      no copy left, is refused with 400 and nothing changes. The loan is
      created before the counter is touched: a loan without a book, a
      student or a due date fails validation and changes nothing either. */
  function IssueBook(lib: Library, caller: Caller, bookId: Option<Id>, studentId: Option<Id>,
                     dueDate: Option<int>, loanId: Id, now: int): (r: Step<Library, BookLoan>)
    ensures (LoanBook(lib.books, bookId, caller.school).None?
             || lib.books[LoanBook(lib.books, bookId, caller.school).value].availableCopies < 1)
            ==> r == Step(lib, Err(400, BookNotAvailable))
    ensures r.response.Ok? <==>
              && LoanBook(lib.books, bookId, caller.school).Some?
              && lib.books[LoanBook(lib.books, bookId, caller.school).value].availableCopies >= 1
              && bookId.Some? && studentId.Some? && dueDate.Some?
    ensures r.response.Err? ==> r.state == lib
    ensures r.response.Ok? ==>
              var j := FindBook(lib.books, bookId.value, caller.school).value;
              var loan := r.response.body;
              && r.response.code == 201
              && lib.books[j].availableCopies >= 1
              && r.state.books == lib.books[j := lib.books[j].(availableCopies := lib.books[j].availableCopies - 1)]
              && r.state.loans == lib.loans + [loan]
              && loan == BookLoan(loanId, caller.school, bookId.value, studentId.value, now, dueDate.value, None, Issued)
  {
    match LoanBook(lib.books, bookId, caller.school)
    case None => Step(lib, Err(400, BookNotAvailable))
    case Some(j) =>
      var b := lib.books[j];
      if b.availableCopies < 1 then Step(lib, Err(400, BookNotAvailable))
      else if bookId.None? || studentId.None? || dueDate.None? then Step(lib, Err(Uncaught, "BookLoan validation failed"))
      else
        var loan := BookLoan(loanId, caller.school, bookId.value, studentId.value, now, dueDate.value, None, Issued);
        Step(Library(lib.books[j := b.(availableCopies := b.availableCopies - 1)], lib.loans + [loan]),
             Ok(201, loan))
  }

  // ---------------------------------------------------------- returnBook

  /** PUT /library/loans/:loanId/return. A loan missing from the caller's
      school, or already Returned, is refused with 400. Otherwise the loan is
      closed with a return date, and the book it names — looked up by id
      alone — gains one available copy, with no cap at its total. */
  function ReturnBook(lib: Library, caller: Caller, loanId: Id, now: int): (r: Step<Library, BookLoan>)
    ensures (FindLoan(lib.loans, loanId, caller.school).None?
             || lib.loans[FindLoan(lib.loans, loanId, caller.school).value].status == Returned)
            <==> r == Step(lib, Err(400, InvalidLoan))
    ensures r.response.Ok? <==>
              && FindLoan(lib.loans, loanId, caller.school).Some?
              && lib.loans[FindLoan(lib.loans, loanId, caller.school).value].status != Returned
    ensures r.response.Ok? ==>
              var i := FindLoan(lib.loans, loanId, caller.school).value;
              var loan := lib.loans[i];
              && r.response == Ok(200, loan.(returnDate := Some(now), status := Returned))
              && loan.status != Returned
              && r.state.loans == lib.loans[i := r.response.body]
              && (FindBookAnywhere(lib.books, loan.book).None? ==> r.state.books == lib.books)
              && (FindBookAnywhere(lib.books, loan.book).Some? ==>
                    var j := FindBookAnywhere(lib.books, loan.book).value;
                    r.state.books == lib.books[j := lib.books[j].(availableCopies := lib.books[j].availableCopies + 1)])
  {
    match FindLoan(lib.loans, loanId, caller.school)
    case None => Step(lib, Err(400, InvalidLoan))
    case Some(i) =>
      var loan := lib.loans[i];
      if loan.status == Returned then Step(lib, Err(400, InvalidLoan))
      else
        var closed := loan.(returnDate := Some(now), status := Returned);
        var books := match FindBookAnywhere(lib.books, loan.book)
          case None => lib.books
          case Some(j) => lib.books[j := lib.books[j].(availableCopies := lib.books[j].availableCopies + 1)];
        Step(Library(books, lib.loans[i := closed]), Ok(200, closed))
  }

  // ----------------------------------------------------------- invariant

  lemma {:induction false} OutAppend(loans: seq<BookLoan>, loan: BookLoan, book: Id)
    ensures Out(loans + [loan], book) == Out(loans, book) + (if loan.book == book && loan.status != Returned then 1 else 0)
    decreases |loans|
  {
    if |loans| == 0 {
      assert loans + [loan] == [loan];
    } else {
      assert (loans + [loan])[1..] == loans[1..] + [loan];
      OutAppend(loans[1..], loan, book);
    }
  }

  /** Closing one outstanding loan lowers its book's count by one and no
      other book's. */
  lemma {:induction false} OutClose(loans: seq<BookLoan>, i: nat, closed: BookLoan, book: Id)
    requires i < |loans| && loans[i].status != Returned
    requires closed.book == loans[i].book && closed.status == Returned
    ensures Out(loans[i := closed], book) == Out(loans, book) - (if loans[i].book == book then 1 else 0)
    decreases |loans|
  {
    if i > 0 {
      assert loans[i := closed][1..] == loans[1..][i - 1 := closed];
      OutClose(loans[1..], i - 1, closed, book);
    }
  }

  /** A book added with a fresh id, no loans naming it, keeps the balance. */
  lemma AddKeepsBalance(lib: Library, caller: Caller, title: Option<string>, author: Option<string>,
                        subject: Option<string>, className: Option<string>, totalCopies: Option<int>, id: Id)
    requires CopiesBalanced(lib)
    requires forall l :: l in lib.loans ==> l.book != id
    ensures CopiesBalanced(AddBook(lib, caller, title, author, subject, className, totalCopies, id).state)
  {
    var r := AddBook(lib, caller, title, author, subject, className, totalCopies, id);
    if r.response.Ok? {
      OutNone(lib.loans, id);
    }
  }

  lemma {:induction false} OutNone(loans: seq<BookLoan>, book: Id)
    requires forall l :: l in loans ==> l.book != book
    ensures Out(loans, book) == 0
    decreases |loans|
  {
    if |loans| > 0 {
      assert loans[0] in loans;
      OutNone(loans[1..], book);
    }
  }

  /** Issuing keeps the balance: one copy fewer on the shelf, one more loan
      out for the same book. */
  lemma IssueKeepsBalance(lib: Library, caller: Caller, bookId: Option<Id>, studentId: Option<Id>,
                          dueDate: Option<int>, loanId: Id, now: int)
    requires BookIdsUnique(lib.books) && CopiesBalanced(lib)
    ensures CopiesBalanced(IssueBook(lib, caller, bookId, studentId, dueDate, loanId, now).state)
  {
    var r := IssueBook(lib, caller, bookId, studentId, dueDate, loanId, now);
    if r.response.Ok? {
      var j := FindBook(lib.books, bookId.value, caller.school).value;
      forall k | 0 <= k < |r.state.books|
        ensures r.state.books[k].availableCopies + Out(r.state.loans, r.state.books[k].id)
                == r.state.books[k].totalCopies
      {
        OutAppend(lib.loans, r.response.body, lib.books[k].id);
        if k != j {
          assert lib.books[k].id != lib.books[j].id;
        }
      }
    }
  }

  /** Returning keeps the balance: the closed loan's book regains the copy
      the loan held. */
  lemma ReturnKeepsBalance(lib: Library, caller: Caller, loanId: Id, now: int)
    requires BookIdsUnique(lib.books) && CopiesBalanced(lib)
    ensures CopiesBalanced(ReturnBook(lib, caller, loanId, now).state)
  {
    var r := ReturnBook(lib, caller, loanId, now);
    if r.response.Ok? {
      var i := FindLoan(lib.loans, loanId, caller.school).value;
      var loan := lib.loans[i];
      forall k | 0 <= k < |r.state.books|
        ensures r.state.books[k].availableCopies + Out(r.state.loans, r.state.books[k].id)
                == r.state.books[k].totalCopies
      {
        OutClose(lib.loans, i, r.response.body, lib.books[k].id);
        match FindBookAnywhere(lib.books, loan.book)
        case None =>
          assert lib.books[k].id != loan.book;
        case Some(j) =>
          if k != j {
            assert lib.books[k].id != lib.books[j].id;
          }
      }
    }
  }

  /** Under the balance, no book has more copies available than it owns:
      returns can never lift the counter above the total. */
  lemma BalancedCountsInRange(lib: Library)
    requires CopiesBalanced(lib)
    ensures forall i :: 0 <= i < |lib.books| ==> lib.books[i].availableCopies <= lib.books[i].totalCopies
  {
  }

  /** Issue followed by returning the new loan restores the book's count. */
  lemma IssueThenReturnRestores(lib: Library, caller: Caller, bookId: Id, studentId: Id,
                                dueDate: int, loanId: Id, now: int, later: int)
    requires BookIdsUnique(lib.books)
    requires forall l :: l in lib.loans ==> l.id != loanId
    requires FindBook(lib.books, bookId, caller.school).Some?
    requires lib.books[FindBook(lib.books, bookId, caller.school).value].availableCopies >= 1
    ensures var s1 := IssueBook(lib, caller, Some(bookId), Some(studentId), Some(dueDate), loanId, now).state;
            var s2 := ReturnBook(s1, caller, loanId, later);
            s2.response.Ok? && s2.state.books == lib.books
  {
    var j := FindBook(lib.books, bookId, caller.school).value;
    var s1 := IssueBook(lib, caller, Some(bookId), Some(studentId), Some(dueDate), loanId, now).state;
    var n := |lib.loans|;
    forall m | 0 <= m < n ensures s1.loans[m].id != loanId {
      assert s1.loans[m] == lib.loans[m] && lib.loans[m] in lib.loans;
    }
    FindFirstAt(s1.loans, (l: BookLoan) => l.id == loanId && l.school == caller.school, n);
    forall m | 0 <= m < j ensures s1.books[m].id != bookId {
      assert s1.books[m].id == lib.books[m].id && lib.books[m].id != lib.books[j].id;
    }
    FindFirstAt(s1.books, (b: Book) => b.id == bookId, j);
  }

  // ------------------------------------------------------------- getBooks

  predicate TitleOrder(a: Book, b: Book) {
    LexLe(a.title, b.title)
  }

  lemma TitleOrderPreorder()
    ensures TotalPreorder(TitleOrder)
  {
    forall a: Book, b: Book ensures TitleOrder(a, b) || TitleOrder(b, a) {
      LexLeTotal(a.title, b.title);
    }
    forall a: Book, b: Book, c: Book | TitleOrder(a, b) && TitleOrder(b, c) ensures TitleOrder(a, c) {
      LexLeTransitive(a.title, b.title, c.title);
    }
  }

  /** The query getBooks builds. A truthy keyword REPLACES the school-scoped
      query by a title-or-author match; a truthy subject then narrows it.
      `matches(pattern, text)` is the case-insensitive regex test. */
  predicate BookQuery(school: Id, keyword: Option<string>, subject: Option<string>,
                      matches: (string, string) -> bool, b: Book)
  {
    && (if Truthy(keyword) then matches(keyword.value, b.title) || matches(keyword.value, b.author)
        else b.school == school)
    && (Truthy(subject) ==> matches(subject.value, b.subject))
  }

  /** GET /library: the matching books, by title ascending. */
  function GetBooks(books: seq<Book>, caller: Caller, keyword: Option<string>, subject: Option<string>,
                    matches: (string, string) -> bool): (r: seq<Book>)
    ensures SortedBy(r, TitleOrder)
    ensures multiset(r) == multiset(Filter(books, (b: Book) => BookQuery(caller.school, keyword, subject, matches, b)))
    ensures !Truthy(keyword) ==> forall b :: b in r ==> b.school == caller.school
    ensures forall b :: b in r <==> b in books && BookQuery(caller.school, keyword, subject, matches, b)
  {
    TitleOrderPreorder();
    Select(books, (b: Book) => BookQuery(caller.school, keyword, subject, matches, b), TitleOrder)
  }

  /** A keyword search is not confined to the caller's school: another
      school's book whose title matches is returned. */
  lemma KeywordSearchCrossesSchools(books: seq<Book>, caller: Caller, keyword: string,
                                    matches: (string, string) -> bool, b: Book)
    requires keyword != "" && b in books && b.school != caller.school
    requires matches(keyword, b.title)
    ensures b in GetBooks(books, caller, Some(keyword), None, matches)
  {
  }
}

=== FILE: marks.dfy ===
/**
 Marks: one mark per (class, student, exam type, school), kept by a
 find-then-update-or-create, and the listing that confines a student to
 its own marks.
 */
module Marks {
  import opened Common
  import opened Models
  import Access
  import Keyed

  const MarkUpdated: string := "Mark updated"
  const MarkUploaded: string := "Mark uploaded"

  /** The identity of a mark: class, student, exam type and school. */
  function UploadKey(m: Mark): (Id, Id, Option<string>, Id) {
    (m.classId, m.student, m.examType, m.school)
  }

  /** The upload's `Mark.findOne` filter. The school is always part of it;
      class, student and exam type only when the request carries them, since
      an undefined value drops its key from the filter. */
  predicate UploadMatch(m: Mark, school: Id, classId: Option<Id>, studentId: Option<Id>, examType: Option<string>) {
    && m.school == school
    && (classId.Some? ==> m.classId == classId.value)
    && (studentId.Some? ==> m.student == studentId.value)
    && (examType.Some? ==> m.examType == examType)
  }

  datatype Uploaded = Uploaded(message: string, mark: Mark)

  /** POST /marks. The first mark the filter matches gets the new score and
      total (200); without one a mark is created (201). Score and total are
      required numbers, and a created mark also needs its class and student,
      so a request missing one of them fails validation with 500 and changes
      nothing. */
  function UploadMark(marks: seq<Mark>, caller: Caller, classId: Option<Id>, studentId: Option<Id>,
                      examType: Option<string>, score: Option<real>, total: Option<real>,
                      newId: Id): (r: Step<seq<Mark>, Uploaded>)
    ensures var existed := exists i :: 0 <= i < |marks| && UploadMatch(marks[i], caller.school, classId, studentId, examType);
            r.response.Ok? <==> score.Some? && total.Some? && (existed || (classId.Some? && studentId.Some?))
    ensures r.response.Err? ==> r.state == marks && r.response.code == Uncaught
    ensures r.response.Ok? ==>
              var m := r.response.body.mark;
              var existed := exists i :: 0 <= i < |marks| && UploadMatch(marks[i], caller.school, classId, studentId, examType);
              && UploadMatch(m, caller.school, classId, studentId, examType)
              && m.score == score.value && m.total == total.value
              && m in r.state
              && (existed <==> r.response == Ok(200, Uploaded(MarkUpdated, m)))
              && (!existed <==> r.response == Ok(201, Uploaded(MarkUploaded, m)))
              && |r.state| == (if existed then |marks| else |marks| + 1)
    ensures r.response.Ok? && r.response.code == 201 ==>
              var m := r.response.body.mark;
              && r.state == marks + [m]
              && m == Mark(newId, studentId.value, caller.school, classId.value, examType, score.value, total.value)
    ensures r.response.Ok? && r.response.code == 200 ==>
              exists i :: 0 <= i < |marks|
                && UploadMatch(marks[i], caller.school, classId, studentId, examType)
                && (forall j :: 0 <= j < i ==> !UploadMatch(marks[j], caller.school, classId, studentId, examType))
                && r.response.body.mark == marks[i].(score := score.value, total := total.value)
                && r.state == marks[i := r.response.body.mark]
  {
    match FindFirst(marks, (m: Mark) => UploadMatch(m, caller.school, classId, studentId, examType))
    case Some(i) =>
      if score.None? || total.None? then Step(marks, Err(Uncaught, "Mark validation failed"))
      else
        var m := marks[i].(score := score.value, total := total.value);
        assert marks[i := m][i] == m;
        Step(marks[i := m], Ok(200, Uploaded(MarkUpdated, m)))
    case None =>
      if classId.None? || studentId.None? || score.None? || total.None? then
        Step(marks, Err(Uncaught, "Mark validation failed"))
      else
        var m := Mark(newId, studentId.value, caller.school, classId.value, examType, score.value, total.value);
        Step(marks + [m], Ok(201, Uploaded(MarkUploaded, m)))
  }

  /** Uploading never creates a second mark for a key, and a successful
      upload leaves the uploaded mark's key with exactly one mark. When class,
      student and exam type are all given, that key is the one asked for. */
  lemma UploadKeepsOnePerKey(marks: seq<Mark>, caller: Caller, classId: Option<Id>, studentId: Option<Id>,
                             examType: Option<string>, score: Option<real>, total: Option<real>, newId: Id)
    requires Keyed.UniqueBy(marks, UploadKey)
    ensures var r := UploadMark(marks, caller, classId, studentId, examType, score, total, newId);
            && Keyed.UniqueBy(r.state, UploadKey)
            && (r.response.Ok? ==> Keyed.CountKey(r.state, UploadKey, UploadKey(r.response.body.mark)) == 1)
            && (r.response.Ok? && classId.Some? && studentId.Some? && examType.Some? ==>
                  UploadKey(r.response.body.mark) == (classId.value, studentId.value, examType, caller.school))
  {
    var r := UploadMark(marks, caller, classId, studentId, examType, score, total, newId);
    if r.response.Ok? {
      var m := r.response.body.mark;
      if r.response.code == 200 {
        var i :| 0 <= i < |marks|
                 && UploadMatch(marks[i], caller.school, classId, studentId, examType)
                 && (forall j :: 0 <= j < i ==> !UploadMatch(marks[j], caller.school, classId, studentId, examType))
                 && m == marks[i].(score := score.value, total := total.value)
                 && r.state == marks[i := m];
        Keyed.UpdateKeepsUnique(marks, UploadKey, i, m);
        Keyed.UniquePresentOnce(r.state, UploadKey, i);
      } else {
        forall k | 0 <= k < |marks| ensures UploadKey(marks[k]) != UploadKey(m) {
          assert !UploadMatch(marks[k], caller.school, classId, studentId, examType);
        }
        Keyed.AppendKeepsUnique(marks, UploadKey, m);
        Keyed.UniquePresentOnce(r.state, UploadKey, |marks|);
      }
    }
  }

  /** Sending the same upload twice is the same as sending it once: the
      second finds the mark the first wrote and rewrites it with the same
      values. */
  lemma UploadIdempotent(marks: seq<Mark>, caller: Caller, classId: Option<Id>, studentId: Option<Id>,
                         examType: Option<string>, score: Option<real>, total: Option<real>,
                         newId: Id, newId2: Id)
    ensures var once := UploadMark(marks, caller, classId, studentId, examType, score, total, newId);
            var twice := UploadMark(once.state, caller, classId, studentId, examType, score, total, newId2);
            && twice.state == once.state
            && (once.response.Ok? ==> twice.response == Ok(200, Uploaded(MarkUpdated, once.response.body.mark)))
  {
    var p := (m: Mark) => UploadMatch(m, caller.school, classId, studentId, examType);
    if score.Some? && total.Some? {
      match FindFirst(marks, p)
      case Some(i) =>
        RewriteRepeats(marks, caller, classId, studentId, examType, score.value, total.value, newId, newId2, i);
      case None =>
        if classId.Some? && studentId.Some? {
          CreateRepeats(marks, caller, classId.value, studentId.value, examType, score.value, total.value,
                        newId, newId2);
        }
    }
  }

  /** A repeated rewrite of the first match writes the same mark again. */
  lemma RewriteRepeats(marks: seq<Mark>, caller: Caller, classId: Option<Id>, studentId: Option<Id>,
                       examType: Option<string>, score: real, total: real, newId: Id, newId2: Id, i: nat)
    requires i < |marks| && UploadMatch(marks[i], caller.school, classId, studentId, examType)
    requires forall j :: 0 <= j < i ==> !UploadMatch(marks[j], caller.school, classId, studentId, examType)
    ensures var m := marks[i].(score := score, total := total);
            && UploadMark(marks, caller, classId, studentId, examType, Some(score), Some(total), newId)
               == Step(marks[i := m], Ok(200, Uploaded(MarkUpdated, m)))
            && UploadMark(marks[i := m], caller, classId, studentId, examType, Some(score), Some(total), newId2)
               == Step(marks[i := m], Ok(200, Uploaded(MarkUpdated, m)))
  {
    var m := marks[i].(score := score, total := total);
    FirstMatchRewritten(marks, caller, classId, studentId, examType, score, total, newId, i);
    FirstMatchRewritten(marks[i := m], caller, classId, studentId, examType, score, total, newId2, i);
    assert marks[i := m][i := m.(score := score, total := total)] == marks[i := m];
  }

  /** After a create, the repeated upload finds the new mark and writes it
      again unchanged. */
  lemma CreateRepeats(marks: seq<Mark>, caller: Caller, classId: Id, studentId: Id, examType: Option<string>,
                      score: real, total: real, newId: Id, newId2: Id)
    requires forall j :: 0 <= j < |marks| ==>
               !UploadMatch(marks[j], caller.school, Some(classId), Some(studentId), examType)
    ensures var m := Mark(newId, studentId, caller.school, classId, examType, score, total);
            && UploadMark(marks, caller, Some(classId), Some(studentId), examType, Some(score), Some(total), newId)
               == Step(marks + [m], Ok(201, Uploaded(MarkUploaded, m)))
            && UploadMark(marks + [m], caller, Some(classId), Some(studentId), examType, Some(score), Some(total), newId2)
               == Step(marks + [m], Ok(200, Uploaded(MarkUpdated, m)))
  {
    var m := Mark(newId, studentId, caller.school, classId, examType, score, total);
    assert FindFirst(marks, (x: Mark) => UploadMatch(x, caller.school, Some(classId), Some(studentId), examType)).None?;
    FirstMatchRewritten(marks + [m], caller, Some(classId), Some(studentId), examType, score, total, newId2, |marks|);
    assert (marks + [m])[|marks| := m.(score := score, total := total)] == marks + [m];
  }

  /** The first mark the filter matches is the one an upload with score and
      total rewrites, with 200 and nothing else changed. */
  lemma FirstMatchRewritten(marks: seq<Mark>, caller: Caller, classId: Option<Id>, studentId: Option<Id>,
                            examType: Option<string>, score: real, total: real, newId: Id, i: nat)
    requires i < |marks| && UploadMatch(marks[i], caller.school, classId, studentId, examType)
    requires forall j :: 0 <= j < i ==> !UploadMatch(marks[j], caller.school, classId, studentId, examType)
    ensures var m := marks[i].(score := score, total := total);
            UploadMark(marks, caller, classId, studentId, examType, Some(score), Some(total), newId)
            == Step(marks[i := m], Ok(200, Uploaded(MarkUpdated, m)))
  {
    FindFirstAt(marks, (m: Mark) => UploadMatch(m, caller.school, classId, studentId, examType), i);
  }

  /** Without an exam type the upload overwrites the first mark of that
      class and student in the school, whatever exam that mark is for. */
  lemma AbsentExamTypeOverwrites(marks: seq<Mark>, caller: Caller, classId: Id, studentId: Id,
                                 score: real, total: real, newId: Id, i: nat)
    requires i < |marks| && marks[i].school == caller.school
    requires marks[i].classId == classId && marks[i].student == studentId
    requires forall j :: 0 <= j < i ==> !(marks[j].school == caller.school && marks[j].classId == classId
                                          && marks[j].student == studentId)
    ensures var r := UploadMark(marks, caller, Some(classId), Some(studentId), None, Some(score), Some(total), newId);
            && r.response == Ok(200, Uploaded(MarkUpdated, marks[i].(score := score, total := total)))
            && r.state == marks[i := marks[i].(score := score, total := total)]
  {
    var p := (m: Mark) => UploadMatch(m, caller.school, Some(classId), Some(studentId), None);
    assert p(marks[i]);
    assert forall j :: 0 <= j < i ==> !p(marks[j]);
    assert FindFirst(marks, p) == Some(i);
  }

  /** GET /marks: the school's marks, narrowed by class and by student when
      those are given; a Student always sees its own marks whatever it asks
      for. */
  function GetMarks(marks: seq<Mark>, caller: Caller, classId: Option<Id>, studentId: Option<Id>): (r: seq<Mark>)
    ensures forall m :: m in r <==>
              && m in marks && m.school == caller.school
              && (Truthy(classId) ==> m.classId == classId.value)
              && (caller.role == Student ==> m.student == caller.id)
              && (caller.role != Student && Truthy(studentId) ==> m.student == studentId.value)
  {
    var student := Access.SubjectStudent(caller, if Truthy(studentId) then studentId else None);
    Filter(marks, (m: Mark) =>
      && m.school == caller.school
      && (Truthy(classId) ==> m.classId == classId.value)
      && (student.Some? ==> m.student == student.value))
  }

  /** A student's listing, whatever the query, is exactly its own marks in the
      school (within a class, when one is named). */
  lemma StudentSeesOnlyOwnMarks(marks: seq<Mark>, caller: Caller, classId: Option<Id>, asked: Option<Id>)
    requires caller.role == Student
    ensures GetMarks(marks, caller, classId, asked) == GetMarks(marks, caller, classId, Some(caller.id))
    ensures forall m :: m in GetMarks(marks, caller, classId, asked) ==> m.student == caller.id
  {
  }

  /** A freshly uploaded mark appears in a teacher's listing for its class and
      student, and in that student's own listing. */
  lemma UploadedMarkListed(marks: seq<Mark>, caller: Caller, classId: Option<Id>, studentId: Option<Id>,
                           examType: Option<string>, score: Option<real>, total: Option<real>, newId: Id,
                           viewer: Caller)
    requires UploadMark(marks, caller, classId, studentId, examType, score, total, newId).response.Ok?
    ensures var r := UploadMark(marks, caller, classId, studentId, examType, score, total, newId);
            var m := r.response.body.mark;
            viewer.school == caller.school && (viewer.role != Student || viewer.id == m.student) ==>
              m in GetMarks(r.state, viewer, Some(m.classId), Some(m.student))
  {
  }
}

=== FILE: messaging.dfy ===
/**
 Tenant-isolated messaging over HTTP: the message service that is the one
 place a message is created, the send endpoint that calls it, the
 conversation query, the chat-target visibility rule, and the router that
 mounts them. The socket side is in module Socket.

 The controller file uses `Message` and `User` without importing them, so as
 written both read endpoints fail on every request; the corrected versions
 are modelled next to them.
 */
module Messaging {
  import opened Common
  import opened Models
  import opened Sorting

  // ------------------------------------------------------------ service

  /** `io.to(room).emit('message', m)`. */
  datatype Emission = Emission(room: Id, message: Message)

  /** Result of the service: the stored message with the store after it and
      the emissions in order, or the error it throws. */
  datatype Delivery =
    | Delivered(store: seq<Message>, message: Message, emissions: seq<Emission>)
    | Refused(statusCode: int, error: string)

  const OutsideSchool: string := "Cannot send message to a user outside your school"

  /** The recipient exists and belongs to `school`. */
  predicate RecipientInSchool(users: seq<User>, recipient: Id, school: Id) {
    var i := FindUser(users, recipient);
    i.Some? && users[i.value].school == school
  }

  /** createAndEmitMessage. `io` tells whether a socket server is attached;
      `now` is the creation time the database stamps. The content is not
      checked here. */
  function CreateAndEmitMessage(users: seq<User>, store: seq<Message>, io: bool,
                                sender: Id, recipient: Id, content: string, school: Id,
                                now: int): (r: Delivery)
    ensures r.Refused? <==> !RecipientInSchool(users, recipient, school)
    ensures r.Refused? ==> r.statusCode == 403 && r.error == OutsideSchool
    ensures r.Delivered? ==> r.store == store + [r.message]
    ensures r.Delivered? ==> r.message == Message(sender, recipient, content, school, now)
    ensures r.Delivered? && io ==> r.emissions == [Emission(recipient, r.message), Emission(sender, r.message)]
    ensures r.Delivered? && !io ==> r.emissions == []
  {
    if !RecipientInSchool(users, recipient, school) then Refused(403, OutsideSchool)
    else
      var m := Message(sender, recipient, content, school, now);
      Delivered(store + [m], m, if io then [Emission(recipient, m), Emission(sender, m)] else [])
  }

  /** The tenancy invariant of the message store: every message is filed
      under its recipient's school. */
  predicate Tenanted(users: seq<User>, store: seq<Message>) {
    forall m :: m in store ==> RecipientInSchool(users, m.recipient, m.school)
  }

  /** Sending never breaks the tenancy invariant. */
  lemma SendKeepsTenancy(users: seq<User>, store: seq<Message>, io: bool,
                         sender: Id, recipient: Id, content: string, school: Id, now: int)
    requires Tenanted(users, store)
    ensures var r := CreateAndEmitMessage(users, store, io, sender, recipient, content, school, now);
            r.Delivered? ==> Tenanted(users, r.store)
  {
  }

  /** A recipient that does not exist gets exactly the cross-school refusal,
      and a recipient of another school gets the same one: the two cases
      cannot be told apart by the caller. */
  lemma UnknownRecipientLooksForeign(users: seq<User>, store: seq<Message>, io: bool,
                                     sender: Id, recipient: Id, content: string, school: Id, now: int)
    requires FindUser(users, recipient).None?
             || users[FindUser(users, recipient).value].school != school
    ensures CreateAndEmitMessage(users, store, io, sender, recipient, content, school, now)
            == Refused(403, OutsideSchool)
  {
  }

  // -------------------------------------------------------- conversation

  /** The conversation filter: in `school`, from a to b or from b to a. */
  predicate Between(m: Message, school: Id, a: Id, b: Id) {
    m.school == school
    && ((m.sender == a && m.recipient == b) || (m.sender == b && m.recipient == a))
  }

  predicate CreatedNoLater(a: Message, b: Message) {
    a.createdAt <= b.createdAt
  }

  lemma CreatedNoLaterPreorder()
    ensures TotalPreorder(CreatedNoLater)
  {
  }

  /** The messages between the caller and `other` in the caller's school. */
  function Thread(store: seq<Message>, caller: Caller, other: Id): seq<Message> {
    Filter(store, (m: Message) => Between(m, caller.school, caller.id, other))
  }

  /** getConversation as evidently intended: the thread, oldest first. */
  function GetConversation(store: seq<Message>, caller: Caller, other: Id): (r: Response<seq<Message>>)
    ensures r.Ok? && r.code == 200
    ensures SortedBy(r.body, CreatedNoLater)
    ensures multiset(r.body) == multiset(Thread(store, caller, other))
    ensures forall m :: m in r.body <==> m in store && Between(m, caller.school, caller.id, other)
  {
    CreatedNoLaterPreorder();
    Ok(200, Select(store, (m: Message) => Between(m, caller.school, caller.id, other), CreatedNoLater))
  }

  /** getConversation as written: `Message` is not in scope, the lookup throws
      a ReferenceError before any status is set, and the error middleware
      reports it with the untouched status 200. */
  function GetConversationAsWritten(store: seq<Message>, caller: Caller, other: Id): (r: Response<seq<Message>>)
    ensures r.Err? && r.code == 200
  {
    Err(ErrorStatusAsWritten(200), "Message is not defined")
  }

  /** The as-written endpoint never delivers a thread, even when the
      corrected query has messages to return. */
  lemma ConversationNeverDelivered(store: seq<Message>, caller: Caller, other: Id)
    ensures GetConversationAsWritten(store, caller, other).Err?
    ensures GetConversation(store, caller, other).Ok?
  {
  }

  /** A message the service stores shows up in the sender's thread with the
      recipient, whether or not a socket server was attached. */
  lemma SentMessageInThread(users: seq<User>, store: seq<Message>, io: bool,
                            caller: Caller, recipient: Id, content: string, now: int)
    ensures var r := CreateAndEmitMessage(users, store, io, caller.id, recipient, content, caller.school, now);
            r.Delivered? ==>
              (&& r.message in GetConversation(r.store, caller, recipient).body
               && r.message in GetConversation(r.store, Caller(recipient, caller.role, caller.school), caller.id).body)
  {
  }

  /** A message created strictly later comes later in the thread. */
  lemma ThreadOrdered(store: seq<Message>, caller: Caller, other: Id, i: int, j: int)
    requires var t := GetConversation(store, caller, other).body;
             0 <= i < |t| && 0 <= j < |t| && t[i].createdAt < t[j].createdAt
    ensures i < j
  {
    var t := GetConversation(store, caller, other).body;
    CreatedNoLaterPreorder();
    SortedStrictOrder(t, CreatedNoLater, i, j);
  }

  // -------------------------------------------------------- chat targets

  /** A chat target as the endpoint projects it: `select('name email role')`
      keeps these fields and the id. */
  datatype Target = Target(id: Id, name: string, email: string, role: Role)

  function Project(u: User): Target {
    Target(u.id, u.name, u.email, u.role)
  }

  /** The who-sees-whom table of the chat-target rule, per viewer role. */
  function VisibleRoles(viewer: Role): set<Role> {
    match viewer
    case Admin => {Admin, Teacher, Student, SuperAdmin}
    case Teacher => {Admin, Student}
    case Student => {Admin, Teacher}
    case SuperAdmin => {Admin, Teacher, Student, SuperAdmin}
  }

  /** Reference definition: another user, of a role the table allows, in the
      viewer's school unless the viewer is a super-admin. */
  predicate CanSee(viewer: Caller, u: User) {
    && u.id != viewer.id
    && (viewer.role == SuperAdmin || u.school == viewer.school)
    && u.role in VisibleRoles(viewer.role)
  }

  /** The query the controller builds, branch by branch on the caller's role. */
  predicate TargetQueryMatches(caller: Caller, u: User) {
    if caller.role == Admin then
      u.school == caller.school && u.id != caller.id
    else if caller.role == Teacher then
      u.school == caller.school && u.id != caller.id && (u.role == Admin || u.role == Student)
    else if caller.role == Student then
      u.school == caller.school && u.id != caller.id && (u.role == Admin || u.role == Teacher)
    else
      u.id != caller.id
  }

  /** The branch-by-branch query selects exactly what the table allows. */
  lemma QueryAgreesWithTable(caller: Caller, u: User)
    ensures TargetQueryMatches(caller, u) <==> CanSee(caller, u)
  {
    match u.role
    case Admin =>
    case Teacher =>
    case Student =>
    case SuperAdmin =>
  }

  /** The users the query selects, in natural order. */
  function Visible(users: seq<User>, caller: Caller): (r: seq<User>)
    ensures forall u :: u in r <==> u in users && CanSee(caller, u)
  {
    assert forall u :: TargetQueryMatches(caller, u) <==> CanSee(caller, u) by {
      forall u ensures TargetQueryMatches(caller, u) <==> CanSee(caller, u) {
        QueryAgreesWithTable(caller, u);
      }
    }
    Filter(users, (u: User) => TargetQueryMatches(caller, u))
  }

  /** getChatTargets as evidently intended. */
  function GetChatTargets(users: seq<User>, caller: Caller): (r: Response<seq<Target>>)
    ensures r.Ok? && r.code == 200
    ensures |r.body| <= |users|
    ensures forall t :: t in r.body ==> t.id != caller.id && t.role in VisibleRoles(caller.role)
    ensures forall u :: u in users && CanSee(caller, u) ==> Project(u) in r.body
    ensures forall t :: t in r.body ==> exists u :: u in users && CanSee(caller, u) && t == Project(u)
  {
    var v := Visible(users, caller);
    var body := seq(|v|, i requires 0 <= i < |v| => Project(v[i]));
    assert forall t :: t in body ==> exists u :: u in users && CanSee(caller, u) && t == Project(u) by {
      forall t | t in body ensures exists u :: u in users && CanSee(caller, u) && t == Project(u) {
        var i :| 0 <= i < |body| && body[i] == t;
        assert v[i] in v;
      }
    }
    assert forall u :: u in v ==> Project(u) in body by {
      forall u | u in v ensures Project(u) in body {
        var i :| 0 <= i < |v| && v[i] == u;
        assert body[i] == Project(u);
      }
    }
    Ok(200, body)
  }

  /** getChatTargets as written: `User` is not in scope, so the lookup throws
      and the error middleware reports status 200. */
  function GetChatTargetsAsWritten(users: seq<User>, caller: Caller): (r: Response<seq<Target>>)
    ensures r.Err? && r.code == 200
  {
    Err(ErrorStatusAsWritten(200), "User is not defined")
  }

  lemma ChatTargetsNeverDelivered(users: seq<User>, caller: Caller)
    ensures GetChatTargetsAsWritten(users, caller).Err?
    ensures GetChatTargets(users, caller).Ok?
  {
  }

  /** Teachers never see other teachers, students never see other students,
      and nobody but a super-admin sees another school. */
  lemma TargetsRespectRoles(users: seq<User>, caller: Caller, u: User)
    requires u in Visible(users, caller)
    ensures caller.role == Teacher ==> u.role != Teacher
    ensures caller.role == Student ==> u.role != Student
    ensures caller.role != SuperAdmin ==> u.school == caller.school
    ensures u.id != caller.id
  {
  }

  // --------------------------------------------------------- send endpoint

  /** The message store together with everything emitted so far. */
  datatype ChatLog = ChatLog(messages: seq<Message>, emitted: seq<Emission>)

  const RecipientAndContentRequired: string := "Recipient and content are required"

  /** sendMessage: both fields must be truthy; the sender and the school come
      from the authenticated caller; a service error is re-raised with its
      status code (500 when it has none). */
  function SendMessage(users: seq<User>, log: ChatLog, io: bool, caller: Caller,
                       recipientId: Option<string>, content: Option<string>, now: int)
    : (r: Step<ChatLog, Message>)
    ensures !Truthy(recipientId) || !Truthy(content) ==>
              r == Step(log, Err(400, RecipientAndContentRequired))
    ensures r.response.Ok? <==>
              Truthy(recipientId) && Truthy(content) && RecipientInSchool(users, recipientId.value, caller.school)
    ensures r.response.Ok? ==>
              && r.response.code == 201
              && r.state.messages == log.messages + [r.response.body]
              && r.response.body == Message(caller.id, recipientId.value, content.value, caller.school, now)
              && r.state.emitted == log.emitted +
                   (if io then [Emission(recipientId.value, r.response.body), Emission(caller.id, r.response.body)]
                    else [])
    ensures r.response.Err? ==> r.state == log && r.response.code in {400, 403}
  {
    if !Truthy(recipientId) || !Truthy(content) then
      Step(log, Err(400, RecipientAndContentRequired))
    else
      match CreateAndEmitMessage(users, log.messages, io, caller.id, recipientId.value, content.value, caller.school, now)
      case Refused(code, error) =>
        Step(log, Err(if code != 0 then code else 500, error))
      case Delivered(store, m, emissions) =>
        Step(ChatLog(store, log.emitted + emissions), Ok(201, m))
  }

  // ----------------------------------------------------------------- routes

  datatype MessageEndpoint =
    | ChatTargetsEndpoint
    | ConversationEndpoint(userId: Id)
    | SendEndpoint
    | NoRoute

  /** The message router as written: two GET routes under /api/messages, the
      literal /targets first. `path` is the list of segments after the mount
      point. */
  function MessageRouteAsWritten(verb: Verb, path: seq<string>): (r: MessageEndpoint)
    ensures r != SendEndpoint
    ensures r != NoRoute <==> verb == Get && |path| == 1
    ensures r == ChatTargetsEndpoint <==> verb == Get && path == ["targets"]
  {
    if verb == Get && |path| == 1 then
      if path[0] == "targets" then ChatTargetsEndpoint else ConversationEndpoint(path[0])
    else NoRoute
  }

  /** The router with the POST route the send handler documents. */
  function MessageRoute(verb: Verb, path: seq<string>): (r: MessageEndpoint)
    ensures r == SendEndpoint <==> verb == Post && path == []
    ensures r != SendEndpoint ==> r == MessageRouteAsWritten(verb, path)
  {
    if verb == Post && path == [] then SendEndpoint else MessageRouteAsWritten(verb, path)
  }

  /** No request reaches the send handler through the router as written. */
  lemma SendHandlerUnreachable(verb: Verb, path: seq<string>)
    ensures MessageRouteAsWritten(verb, path) != SendEndpoint
    ensures MessageRoute(Post, []) == SendEndpoint
  {
  }
}

=== FILE: models.dfy ===
/**
 The persisted records of the school API (the Mongoose schemas under
 src/models), with their enums and schema defaults. Every record except a
 fee ledger entry carries the id of the school that owns it. Dates and
 timestamps are milliseconds as integers; amounts are integers; scores and
 percentages are exact reals.
 */
module Models {
  import opened Common

  // ---------------------------------------------------------------- User

  datatype FeeStatus = Paid | Pending | Overdue

  datatype User = User(
    id: Id,
    name: string,
    email: string,
    password: string,
    mobileNumber: Option<string>,
    role: Role,
    school: Id,
    isPasswordResetRequired: bool,
    feeStatus: FeeStatus,
    feeAmount: int,
    feeDueDate: Option<int>,
    resetPasswordToken: Option<string>,
    resetPasswordExpire: Option<int>,
    expoPushToken: Option<string>)

  /** A user document as the schema completes it: fee status Pending, fee
      amount 0, no due date, no reset token. */
  function NewUser(id: Id, name: string, email: string, password: string,
                   mobileNumber: Option<string>, role: Role, school: Id,
                   isPasswordResetRequired: bool): User
  {
    User(id, name, email, password, mobileNumber, role, school,
         isPasswordResetRequired, Pending, 0, None, None, None, None)
  }

  /** The unique index on `email` spans all schools. */
  predicate EmailsUnique(users: seq<User>) {
    forall i, j :: 0 <= i < j < |users| ==> users[i].email != users[j].email
  }

  /** No two user documents share an id. */
  predicate UserIdsUnique(users: seq<User>) {
    forall i, j :: 0 <= i < j < |users| ==> users[i].id != users[j].id
  }

  /** `User.findById(id)`. */
  function FindUser(users: seq<User>, id: Id): Option<nat> {
    FindFirst(users, (u: User) => u.id == id)
  }

  /** `User.findOne({ _id: id, school })`. */
  function FindUserInSchool(users: seq<User>, id: Id, school: Id): Option<nat> {
    FindFirst(users, (u: User) => u.id == id && u.school == school)
  }

  /** Lifetime of a password-reset token: ten minutes. */
  const ResetTokenLifetime: int := 10 * 60 * 1000

  // --------------------------------------------------------------- Class

  datatype ScheduleEntry = ScheduleEntry(day: string, startTime: string, endTime: string)

  datatype Class = Class(
    id: Id,
    name: string,
    subject: string,
    teacher: Id,
    school: Id,
    students: seq<Id>,
    schedule: seq<ScheduleEntry>)

  /** `Class.findById(id)`: not restricted to any school. */
  function FindClass(classes: seq<Class>, id: Id): Option<nat> {
    FindFirst(classes, (c: Class) => c.id == id)
  }

  /** `Class.findOne({ _id: id, school })`. */
  function FindClassInSchool(classes: seq<Class>, id: Id, school: Id): Option<nat> {
    FindFirst(classes, (c: Class) => c.id == id && c.school == school)
  }

  /** `Class.find({ students: student, school })`, in natural order. */
  function ClassesOf(classes: seq<Class>, student: Id, school: Id): (r: seq<Class>)
    ensures forall c :: c in r <==> c in classes && student in c.students && c.school == school
  {
    Filter(classes, (c: Class) => student in c.students && c.school == school)
  }

  // ------------------------------------------------------------- Message

  /** The Message schema is not part of this model; the service stores these
      four fields and the database adds the creation time. */
  datatype Message = Message(sender: Id, recipient: Id, content: string, school: Id, createdAt: int)

  // ---------------------------------------------------------------- Quiz

  datatype QuizType = Practice | Competition
  datatype QuizStatus = Draft | Published | Live | Ended

  /** `correctAnswerIndex` is required; None only in a copy sent to a student. */
  datatype Question = Question(text: string, options: seq<string>, correctAnswerIndex: Option<int>, points: int)

  datatype Quiz = Quiz(
    id: Id,
    title: string,
    school: Id,
    teacher: Id,
    quizType: QuizType,
    status: QuizStatus,
    duration: int,
    classIds: seq<string>,
    isPublic: bool,
    questions: seq<Question>,
    passingScore: real,
    createdAt: int)

  const DefaultPoints: int := 1
  const DefaultPassingScore: real := 60.0
  const DefaultDuration: int := 30

  /** What a student selected for one question: a number, or no usable value
      (a JSON null, or a detailed answer without `selectedOption`). */
  datatype Selection = Picked(option: int) | NoValue

  datatype AnswerResult = AnswerResult(questionIndex: nat, selectedOption: Selection, isCorrect: bool, timeTaken: int)

  datatype QuizResult = QuizResult(
    quiz: Id, student: Id, school: Id, score: real, totalQuestions: nat,
    answers: seq<AnswerResult>, timeTaken: int)

  // ------------------------------------------------------ FeeTransaction

  /** Ledger entry types. Info is the type the fee update writes for an
      entry without a Credit or Debit; the schema's enum admits only Credit
      and Debit (see InTypeEnum). */
  datatype TxType = Credit | Debit | Info
  datatype PaymentMethod = Cash | Online | Cheque | UPI
  datatype UpiStatus = PENDING | SUCCESS | FAILED | REFUNDED

  /** The `type` enum of the ledger schema. */
  predicate InTypeEnum(t: TxType) {
    t == Credit || t == Debit
  }

  /** A ledger entry. There is no school field: an entry belongs to a school
      only through its student. */
  datatype FeeTransaction = FeeTransaction(
    id: Id,
    student: Id,
    amount: int,
    txType: TxType,
    paymentMethod: PaymentMethod,
    upiRefId: Option<string>,
    upiStatus: UpiStatus,
    remarks: string,
    recordedBy: Id,
    date: int)

  /** An entry as the schema completes it: method Cash, UPI status PENDING. */
  function NewFeeTransaction(id: Id, student: Id, amount: int, txType: TxType, remarks: string,
                             recordedBy: Id, date: int): FeeTransaction
  {
    FeeTransaction(id, student, amount, txType, Cash, None, PENDING, remarks, recordedBy, date)
  }

  // --------------------------------------------------------------- Canteen

  datatype Category = Snacks | Drinks | Meals

  datatype CanteenItem = CanteenItem(
    id: Id, name: string, school: Id, price: int, category: Category,
    isAvailable: bool, stock: int)

  /** A menu item as the schema completes it: available, with stock 0. */
  function NewCanteenItem(id: Id, name: string, school: Id, price: int, category: Category): CanteenItem
  {
    CanteenItem(id, name, school, price, category, true, 0)
  }

  datatype OrderLine = OrderLine(item: Id, quantity: int, price: int)

  datatype CanteenOrder = CanteenOrder(
    id: Id, student: Id, school: Id, items: seq<OrderLine>, totalAmount: int,
    pickupTime: Option<string>)

  // --------------------------------------------------------------- Library

  datatype Book = Book(
    id: Id, title: string, school: Id, author: string, subject: string,
    className: Option<string>, availableCopies: int, totalCopies: int)

  datatype LoanStatus = Issued | Returned | LoanOverdue

  datatype BookLoan = BookLoan(
    id: Id, school: Id, book: Id, student: Id, issueDate: int, dueDate: int,
    returnDate: Option<int>, status: LoanStatus)

  // ----------------------------------------------------------------- Club

  datatype Club = Club(
    id: Id, name: string, school: Id, description: string,
    president: Option<Id>, facultyAdvisor: Option<Id>, members: seq<Id>,
    meetingDay: Option<string>, meetingTime: Option<string>)

  // ---------------------------------------------------- Course, Enrollment

  datatype Level = Beginner | Intermediate | Advanced
  datatype Lesson = Lesson(id: Id, title: string)
  datatype CourseModule = CourseModule(title: string, lessons: seq<Lesson>)

  datatype Course = Course(
    id: Id, title: string, description: string, teacher: Id, school: Id,
    category: string, thumbnail: Option<string>, modules: seq<CourseModule>,
    level: Level, isPublished: bool)

  /** Sum of the lesson counts over the modules of a course. */
  function TotalLessons(modules: seq<CourseModule>): (n: nat)
    ensures |modules| == 0 ==> n == 0
  {
    if |modules| == 0 then 0
    else |modules[0].lessons| + TotalLessons(modules[1..])
  }

  /** A JavaScript number that the progress computation can produce:
      `k / 0 * 100` is Infinity for k > 0. */
  datatype Progress = Percent(value: real) | Infinity

  datatype Enrollment = Enrollment(
    student: Id, school: Id, course: Id, completedLessons: seq<Id>,
    progress: Progress, enrolledAt: int)

  /** An enrollment as the schema completes it: progress 0, enrolled now. */
  function NewEnrollment(student: Id, school: Id, course: Id, now: int): Enrollment
  {
    Enrollment(student, school, course, [], Percent(0.0), now)
  }

  // ---------------------------------------------- Assignment, Submission

  datatype Assignment = Assignment(
    id: Id, title: string, description: string, subject: string, grade: string,
    dueDate: int, teacher: Id, school: Id, linkedQuiz: Option<Id>, createdAt: int)

  /** `Assignment.findOne({ _id, school })`. */
  function FindAssignment(assignments: seq<Assignment>, id: Id, school: Id): Option<nat> {
    FindFirst(assignments, (a: Assignment) => a.id == id && a.school == school)
  }

  datatype SubmissionStatus = SubmissionPending | Graded

  datatype Submission = Submission(
    id: Id, assignment: Id, student: Id, school: Id, fileUrl: string,
    fileName: string, submittedAt: int, status: SubmissionStatus,
    grade: Option<real>, feedback: Option<string>)

  // ----------------------------------------------------------------- Mark

  /** The schema has no subject field, so a subject sent with a mark is
      dropped. */
  datatype Mark = Mark(
    id: Id, student: Id, school: Id, classId: Id, examType: Option<string>,
    score: real, total: real)

  // ----------------------------------------------------------- Attendance

  /** The Attendance schema is not part of this model; these are the fields
      the controller reads and writes. */
  datatype AttendanceEntry = AttendanceEntry(student: Id, status: string)

  datatype Attendance = Attendance(
    id: Id, classId: Id, date: int, school: Id, records: seq<AttendanceEntry>)

  // --------------------------------------------- Materials, gallery, etc.

  datatype StudyMaterial = StudyMaterial(
    id: Id, title: string, description: string, link: string, subject: string,
    grade: string, teacher: Id, school: Id, createdAt: int)

  datatype Photo = Photo(
    id: Id, title: string, imageUrl: string, description: Option<string>,
    className: Option<string>, teacher: Id, school: Id, createdAt: int)

  datatype PlanStatus = Planned | Ongoing | Completed

  datatype LessonPlan = LessonPlan(
    id: Id, teacher: Id, school: Id, date: int, subject: string,
    className: string, topic: string, objectives: Option<string>,
    materialsNeeded: Option<string>, status: PlanStatus, reflection: Option<string>)

  datatype SlotStatus = SlotOpen | SlotBooked | SlotCompleted | SlotCancelled

  datatype PtmSlot = PtmSlot(
    id: Id, teacher: Id, school: Id, student: Option<Id>, date: int,
    startTime: string, endTime: string, status: SlotStatus,
    link: Option<string>, notes: Option<string>)

  datatype Remark = Remark(
    id: Id, student: Id, teacher: Id, title: string, description: string,
    school: Id, createdAt: int)

  datatype Notice = Notice(
    id: Id, title: string, message: string, school: Id, postedBy: Id,
    targetAudience: string, targetClass: Option<Id>, createdAt: int)
}

=== FILE: notices.dfy ===
/**
 Notices: creation with a best-effort push to the chosen audience, the
 listing with its optional class filter, and deletion.

 The Notice schema declares no `targetClass` path, so the class a notice is
 created for is dropped on save, and every stored notice looks addressed to
 the whole school. `CreateNoticeAsWritten` keeps that behaviour and
 `CreateNotice` stores the class as the handler evidently intends.
 */
module Notices {
  import opened Common
  import opened Models
  import opened Sorting

  const NoticeNotFound: string := "Notice not found"
  const NoticeRemoved: string := "Notice removed"
  const AllAudience: string := "All"

  /** A notice as the handler builds it; `target` is what gets stored as its
      target class. */
  function Build(caller: Caller, title: Option<string>, message: Option<string>,
                 targetAudience: Option<string>, target: Option<Id>, id: Id, now: int): Notice
    requires Truthy(title) && Truthy(message)
  {
    Notice(id, title.value, message.value, caller.school, caller.id, targetAudience.GetOr(AllAudience), target, now)
  }

  /** POST /notices as written: the target class never reaches the store. */
  function CreateNoticeAsWritten(notices: seq<Notice>, caller: Caller, title: Option<string>, message: Option<string>,
                                 targetAudience: Option<string>, targetClassId: Option<Id>, id: Id,
                                 now: int): (r: Step<seq<Notice>, Notice>)
    ensures r.response.Err? ==> r.state == notices && r.response.code == Uncaught
    ensures r.response.Ok? <==> Truthy(title) && Truthy(message)
    ensures r.response.Ok? ==>
              && r.response.code == 201 && r.state == notices + [r.response.body]
              && r.response.body.targetClass.None?
  {
    if !Truthy(title) || !Truthy(message) then Step(notices, Err(Uncaught, "Notice validation failed"))
    else
      var n := Build(caller, title, message, targetAudience, None, id, now);
      Step(notices + [n], Ok(201, n))
  }

  /** POST /notices: title and message are required; the notice is stamped
      with the poster and the school, the audience defaults to everyone, and
      the target class is the one given, if truthy. Whether the push that
      follows fails has no effect on the reply or the store. */
  function CreateNotice(notices: seq<Notice>, caller: Caller, title: Option<string>, message: Option<string>,
                        targetAudience: Option<string>, targetClassId: Option<Id>, id: Id, now: int,
                        pushFailed: bool): (r: Step<seq<Notice>, Notice>)
    ensures r.response.Err? ==> r.state == notices && r.response.code == Uncaught
    ensures r.response.Ok? <==> Truthy(title) && Truthy(message)
    ensures r.response.Ok? ==>
              var n := r.response.body;
              && r.response.code == 201 && r.state == notices + [n]
              && n.id == id && n.title == title.value && n.message == message.value
              && n.postedBy == caller.id && n.school == caller.school && n.createdAt == now
              && n.targetAudience == (if targetAudience.Some? then targetAudience.value else AllAudience)
              && (Truthy(targetClassId) ==> n.targetClass == targetClassId)
              && (!Truthy(targetClassId) ==> n.targetClass.None?)
  {
    if !Truthy(title) || !Truthy(message) then Step(notices, Err(Uncaught, "Notice validation failed"))
    else
      var n := Build(caller, title, message, targetAudience, if Truthy(targetClassId) then targetClassId else None,
                     id, now);
      Step(notices + [n], Ok(201, n))
  }

  /** Push failures are swallowed: the outcome is the same either way. */
  lemma PushFailureIgnored(notices: seq<Notice>, caller: Caller, title: Option<string>, message: Option<string>,
                           targetAudience: Option<string>, targetClassId: Option<Id>, id: Id, now: int)
    ensures CreateNotice(notices, caller, title, message, targetAudience, targetClassId, id, now, true)
            == CreateNotice(notices, caller, title, message, targetAudience, targetClassId, id, now, false)
  {
  }

  // --------------------------------------------------------------- push

  /** Who the push goes to: users of the school; of the audience's role unless
      it is "All" (an absent audience is dropped from the query and so
      restricts nothing); and, when the class named is found (in any school),
      on its roster. */
  predicate Recipient(u: User, classes: seq<Class>, caller: Caller, targetAudience: Option<string>,
                      targetClassId: Option<Id>) {
    && u.school == caller.school
    && (targetAudience.Some? && targetAudience.value != AllAudience ==> RoleName(u.role) == targetAudience.value)
    && (Truthy(targetClassId) && FindClass(classes, targetClassId.value).Some? ==>
          u.id in classes[FindClass(classes, targetClassId.value).value].students)
  }

  /** The push tokens the notice is sent to: the recipients' tokens that pass
      the push service's format check. */
  function PushTokens(users: seq<User>, classes: seq<Class>, caller: Caller, targetAudience: Option<string>,
                      targetClassId: Option<Id>, isPushToken: string -> bool): (r: seq<string>)
    ensures forall t :: t in r <==>
              exists u :: u in users && Recipient(u, classes, caller, targetAudience, targetClassId)
                          && u.expoPushToken == Some(t) && isPushToken(t)
    decreases |users|
  {
    if |users| == 0 then []
    else
      var u := users[0];
      var rest := PushTokens(users[1..], classes, caller, targetAudience, targetClassId, isPushToken);
      assert forall v :: v in users <==> v == u || v in users[1..];
      if Recipient(u, classes, caller, targetAudience, targetClassId) && u.expoPushToken.Some?
         && isPushToken(u.expoPushToken.value)
      then [u.expoPushToken.value] + rest
      else rest
  }

  /** A class id that names no class restricts nothing: the push goes to the
      whole audience of the school. */
  lemma UnknownClassWidensPush(users: seq<User>, classes: seq<Class>, caller: Caller, targetAudience: Option<string>,
                               classId: Id, isPushToken: string -> bool)
    requires FindClass(classes, classId).None?
    ensures forall t :: t in PushTokens(users, classes, caller, targetAudience, Some(classId), isPushToken)
                        <==> t in PushTokens(users, classes, caller, targetAudience, None, isPushToken)
  {
  }

  /** A push never reaches another school, even for another school's class. */
  lemma PushStaysInSchool(users: seq<User>, classes: seq<Class>, caller: Caller, targetAudience: Option<string>,
                          targetClassId: Option<Id>, isPushToken: string -> bool, t: string)
    requires t in PushTokens(users, classes, caller, targetAudience, targetClassId, isPushToken)
    ensures exists u :: u in users && u.school == caller.school && u.expoPushToken == Some(t)
  {
  }

  // ------------------------------------------------------------- listing

  predicate NewestNoticeFirst(a: Notice, b: Notice) {
    a.createdAt >= b.createdAt
  }

  /** GET /notices: the school's notices, newest first; with a class, only
      those for that class or for no class. */
  function GetNotices(notices: seq<Notice>, caller: Caller, classId: Option<Id>): (r: seq<Notice>)
    ensures SortedBy(r, NewestNoticeFirst)
    ensures forall n :: n in r <==>
              && n in notices && n.school == caller.school
              && (Truthy(classId) ==> n.targetClass == classId || n.targetClass.None?)
  {
    Select(notices, (n: Notice) =>
      n.school == caller.school && (Truthy(classId) ==> n.targetClass == classId || n.targetClass.None?),
      NewestNoticeFirst)
  }

  /** As written, a notice created for one class is listed for every other
      class as well. */
  lemma ClassNoticeLeaksAsWritten(notices: seq<Notice>, caller: Caller, title: string, message: string,
                                  targetAudience: Option<string>, forClass: Id, otherClass: Id, id: Id, now: int)
    requires title != "" && message != "" && forClass != otherClass && otherClass != ""
    ensures var r := CreateNoticeAsWritten(notices, caller, Some(title), Some(message), targetAudience,
                                           Some(forClass), id, now);
            r.response.Ok? && r.response.body in GetNotices(r.state, caller, Some(otherClass))
  {
    var r := CreateNoticeAsWritten(notices, caller, Some(title), Some(message), targetAudience,
                                   Some(forClass), id, now);
    assert r.response.body in r.state;
  }

  /** With the class stored, a class notice is listed for its class and in the
      unfiltered listing, and for no other class. */
  lemma ClassNoticeStaysInClass(notices: seq<Notice>, caller: Caller, title: string, message: string,
                                targetAudience: Option<string>, forClass: Id, otherClass: Id, id: Id, now: int,
                                pushFailed: bool)
    requires title != "" && message != "" && forClass != "" && forClass != otherClass && otherClass != ""
    ensures var r := CreateNotice(notices, caller, Some(title), Some(message), targetAudience, Some(forClass),
                                  id, now, pushFailed);
            && r.response.Ok?
            && r.response.body in GetNotices(r.state, caller, Some(forClass))
            && r.response.body in GetNotices(r.state, caller, None)
            && r.response.body !in GetNotices(r.state, caller, Some(otherClass))
  {
    var r := CreateNotice(notices, caller, Some(title), Some(message), targetAudience, Some(forClass),
                          id, now, pushFailed);
    assert r.response.body in r.state;
  }

  /** DELETE /notices/:id: 404 outside the caller's school. */
  function DeleteNotice(notices: seq<Notice>, caller: Caller, id: Id): (r: Step<seq<Notice>, string>)
    ensures var at := FindFirst(notices, (n: Notice) => n.id == id && n.school == caller.school);
            && (at.None? <==> r == Step(notices, Err(404, NoticeNotFound)))
            && (r.response.Ok? <==> at.Some?)
            && (r.response.Ok? ==>
                  && r.response == Ok(200, NoticeRemoved)
                  && multiset(r.state) + multiset{notices[at.value]} == multiset(notices))
  {
    match FindFirst(notices, (n: Notice) => n.id == id && n.school == caller.school)
    case None => Step(notices, Err(404, NoticeNotFound))
    case Some(j) =>
      assert notices == notices[..j] + [notices[j]] + notices[j + 1..];
      Step(notices[..j] + notices[j + 1..], Ok(200, NoticeRemoved))
  }

  /** Posting a notice under a fresh id and deleting that id again leaves the
      notices as they were. */
  lemma CreateThenDeleteRestores(notices: seq<Notice>, caller: Caller, title: Option<string>,
                                 message: Option<string>, targetAudience: Option<string>,
                                 targetClassId: Option<Id>, id: Id, now: int, pushFailed: bool)
    requires forall n :: n in notices ==> !(n.id == id && n.school == caller.school)
    ensures var c := CreateNotice(notices, caller, title, message, targetAudience, targetClassId, id, now, pushFailed);
            c.response.Ok? ==> DeleteNotice(c.state, caller, id) == Step(notices, Ok(200, NoticeRemoved))
  {
    var c := CreateNotice(notices, caller, title, message, targetAudience, targetClassId, id, now, pushFailed);
    if c.response.Ok? {
      var p := (n: Notice) => n.id == id && n.school == caller.school;
      forall m | 0 <= m < |notices| ensures !p(c.state[m]) {
        assert c.state[m] == notices[m] && notices[m] in notices;
      }
      FindFirstAt(c.state, p, |notices|);
      assert c.state[..|notices|] + c.state[|notices| + 1..] == notices;
    }
  }
}

=== FILE: planner.dfy ===
/**
 A teacher's own lesson plans and parent-teacher meeting slots. Both are
 owner-only: nobody else, an Admin included, can change them, and a record
 held by someone else is reported exactly as a missing one.
 */
module Planner {
  import opened Common
  import opened Models
  import opened Sorting
  import opened Access

  const PlanNotFound: string := "Plan not found or unauthorized"
  const PlanRemoved: string := "Lesson plan removed"
  const SlotNotFound: string := "Slot not found or unauthorized"

  // -------------------------------------------------------------- lesson plans

  /** The status strings the LessonPlan schema's enum accepts. */
  function ParsePlanStatus(s: string): (r: Option<PlanStatus>)
    ensures r.Some? <==> s in {"Planned", "Ongoing", "Completed"}
  {
    if s == "Planned" then Some(Planned)
    else if s == "Ongoing" then Some(Ongoing)
    else if s == "Completed" then Some(Completed)
    else None
  }

  function PlanStatusName(st: PlanStatus): string {
    match st
    case Planned => "Planned"
    case Ongoing => "Ongoing"
    case Completed => "Completed"
  }

  /** Parsing inverts naming. */
  lemma PlanStatusRoundTrip(st: PlanStatus)
    ensures ParsePlanStatus(PlanStatusName(st)) == Some(st)
  {
  }

  /** `LessonPlan.findOne({ _id, school })`. */
  function FindPlan(plans: seq<LessonPlan>, id: Id, school: Id): Option<nat> {
    FindFirst(plans, (p: LessonPlan) => p.id == id && p.school == school)
  }

  /** The caller can touch the plan: it exists in the school and the caller
      wrote it. */
  predicate OwnsPlan(plans: seq<LessonPlan>, caller: Caller, id: Id) {
    match FindPlan(plans, id, caller.school)
    case None => false
    case Some(j) => OwnerOnly(caller, plans[j].teacher)
  }

  /** POST /planner: date, subject, class name and topic are required; the
      plan starts Planned, stamped with the caller and its school. */
  function AddLessonPlan(plans: seq<LessonPlan>, caller: Caller, date: Option<int>, subject: Option<string>,
                         className: Option<string>, topic: Option<string>, objectives: Option<string>,
                         materialsNeeded: Option<string>, id: Id): (r: Step<seq<LessonPlan>, LessonPlan>)
    ensures r.response.Err? ==> r.state == plans && r.response.code == Uncaught
    ensures r.response.Ok? <==> date.Some? && Truthy(subject) && Truthy(className) && Truthy(topic)
    ensures r.response.Ok? ==>
              var p := r.response.body;
              && r.response.code == 201 && r.state == plans + [p]
              && p.teacher == caller.id && p.school == caller.school
              && p.status == Planned && p.reflection.None?
              && p.topic == topic.value && p.objectives == objectives && p.materialsNeeded == materialsNeeded
              && p.id == id && p.date == date.value && p.subject == subject.value && p.className == className.value
  {
    if date.None? || !Truthy(subject) || !Truthy(className) || !Truthy(topic) then
      Step(plans, Err(Uncaught, "LessonPlan validation failed"))
    else
      var p := LessonPlan(id, caller.id, caller.school, date.value, subject.value, className.value, topic.value,
                          objectives, materialsNeeded, Planned, None);
      Step(plans + [p], Ok(201, p))
  }

  predicate EarliestPlanFirst(a: LessonPlan, b: LessonPlan) {
    a.date <= b.date
  }

  /** GET /planner: the caller's own plans in its school, earliest first. */
  function GetLessonPlans(plans: seq<LessonPlan>, caller: Caller): (r: seq<LessonPlan>)
    ensures SortedBy(r, EarliestPlanFirst)
    ensures forall p :: p in r <==> p in plans && p.teacher == caller.id && p.school == caller.school
  {
    Select(plans, (p: LessonPlan) => p.teacher == caller.id && p.school == caller.school, EarliestPlanFirst)
  }

  /** PUT /planner/:id: 404 unless the caller owns the plan; status,
      reflection, topic and objectives each replaced only by a truthy value; a
      status outside the schema's enum then fails validation. */
  function UpdateLessonPlan(plans: seq<LessonPlan>, caller: Caller, id: Id, status: Option<string>,
                            reflection: Option<string>, topic: Option<string>,
                            objectives: Option<string>): (r: Step<seq<LessonPlan>, LessonPlan>)
    ensures !OwnsPlan(plans, caller, id) <==> r == Step(plans, Err(404, PlanNotFound))
    ensures r.response.Err? ==> r.state == plans
    ensures OwnsPlan(plans, caller, id) ==>
              (r.response.Ok? <==> !Truthy(status) || ParsePlanStatus(status.value).Some?)
    ensures r.response.Ok? ==>
              var j := FindPlan(plans, id, caller.school).value;
              var p := r.response.body;
              var prev := plans[j];
              && r.state == plans[j := p]
              && p.(status := prev.status, reflection := prev.reflection, topic := prev.topic,
                    objectives := prev.objectives) == prev
              && (Truthy(status) ==> PlanStatusName(p.status) == status.value)
              && (!Truthy(status) ==> p.status == prev.status)
              && (Truthy(reflection) ==> p.reflection == reflection)
              && (!Truthy(reflection) ==> p.reflection == prev.reflection)
              && (Truthy(topic) ==> p.topic == topic.value) && (!Truthy(topic) ==> p.topic == prev.topic)
              && (Truthy(objectives) ==> p.objectives == objectives)
              && (!Truthy(objectives) ==> p.objectives == prev.objectives)
  {
    match FindPlan(plans, id, caller.school)
    case None => Step(plans, Err(404, PlanNotFound))
    case Some(j) =>
      var p := plans[j];
      if !OwnerOnly(caller, p.teacher) then Step(plans, Err(404, PlanNotFound))
      else if Truthy(status) && ParsePlanStatus(status.value).None? then
        Step(plans, Err(Uncaught, "LessonPlan validation failed"))
      else
        var p' := p.(status := if Truthy(status) then ParsePlanStatus(status.value).value else p.status,
                     reflection := OrMaybe(reflection, p.reflection), topic := Or(topic, p.topic),
                     objectives := OrMaybe(objectives, p.objectives));
        Step(plans[j := p'], Ok(200, p'))
  }

  /** DELETE /planner/:id: 404 unless the caller owns the plan. */
  function DeleteLessonPlan(plans: seq<LessonPlan>, caller: Caller, id: Id): (r: Step<seq<LessonPlan>, string>)
    ensures !OwnsPlan(plans, caller, id) <==> r == Step(plans, Err(404, PlanNotFound))
    ensures r.response.Ok? <==> OwnsPlan(plans, caller, id)
    ensures r.response.Ok? ==>
              && r.response == Ok(200, PlanRemoved)
              && multiset(r.state) + multiset{plans[FindPlan(plans, id, caller.school).value]} == multiset(plans)
  {
    match FindPlan(plans, id, caller.school)
    case None => Step(plans, Err(404, PlanNotFound))
    case Some(j) =>
      if !OwnerOnly(caller, plans[j].teacher) then Step(plans, Err(404, PlanNotFound))
      else
        assert plans == plans[..j] + [plans[j]] + plans[j + 1..];
        Step(plans[..j] + plans[j + 1..], Ok(200, PlanRemoved))
  }

  /** Someone else's plan cannot be told apart from a missing one, and an
      Admin is no exception: update and delete answer exactly as for an id
      that does not exist, and change nothing. */
  lemma OthersPlanLooksMissing(plans: seq<LessonPlan>, caller: Caller, id: Id, missing: Id,
                               status: Option<string>, reflection: Option<string>,
                               topic: Option<string>, objectives: Option<string>)
    requires FindPlan(plans, id, caller.school).Some?
    requires plans[FindPlan(plans, id, caller.school).value].teacher != caller.id
    requires FindPlan(plans, missing, caller.school).None?
    ensures UpdateLessonPlan(plans, caller, id, status, reflection, topic, objectives)
            == UpdateLessonPlan(plans, caller, missing, status, reflection, topic, objectives)
            == Step(plans, Err(404, PlanNotFound))
    ensures DeleteLessonPlan(plans, caller, id) == DeleteLessonPlan(plans, caller, missing)
  {
  }

  /** A plan its teacher has just added can be updated and then deleted by
      that teacher, which leaves the plans as they were. */
  lemma AddUpdateDeleteRestores(plans: seq<LessonPlan>, caller: Caller, date: int, subject: string,
                                className: string, topic: string, id: Id, status: Option<string>)
    requires subject != "" && className != "" && topic != ""
    requires FindPlan(plans, id, caller.school).None?
    requires status.Some? ==> ParsePlanStatus(status.value).Some?
    ensures var added := AddLessonPlan(plans, caller, Some(date), Some(subject), Some(className), Some(topic),
                                       None, None, id);
            var updated := UpdateLessonPlan(added.state, caller, id, status, None, None, None);
            var deleted := DeleteLessonPlan(updated.state, caller, id);
            added.response.Ok? && updated.response.Ok? && deleted.response.Ok? && deleted.state == plans
  {
    var added := AddLessonPlan(plans, caller, Some(date), Some(subject), Some(className), Some(topic),
                               None, None, id);
    var p := (x: LessonPlan) => x.id == id && x.school == caller.school;
    FindFirstAt(added.state, p, |plans|);
    var updated := UpdateLessonPlan(added.state, caller, id, status, None, None, None);
    FindFirstUpdate(added.state, p, |plans|, updated.response.body);
    assert updated.state[..|plans|] == plans;
  }

  // ---------------------------------------------------------------- PTM slots

  function ParseSlotStatus(s: string): (r: Option<SlotStatus>)
    ensures r.Some? <==> s in {"Open", "Booked", "Completed", "Cancelled"}
  {
    if s == "Open" then Some(SlotOpen)
    else if s == "Booked" then Some(SlotBooked)
    else if s == "Completed" then Some(SlotCompleted)
    else if s == "Cancelled" then Some(SlotCancelled)
    else None
  }

  function FindSlot(slots: seq<PtmSlot>, id: Id, school: Id): Option<nat> {
    FindFirst(slots, (s: PtmSlot) => s.id == id && s.school == school)
  }

  predicate OwnsSlot(slots: seq<PtmSlot>, caller: Caller, id: Id) {
    match FindSlot(slots, id, caller.school)
    case None => false
    case Some(j) => OwnerOnly(caller, slots[j].teacher)
  }

  /** POST /ptm: date, start and end time are required; the slot starts Open
      with no student, stamped with the caller and its school. */
  function CreateSlot(slots: seq<PtmSlot>, caller: Caller, date: Option<int>, startTime: Option<string>,
                      endTime: Option<string>, link: Option<string>, id: Id): (r: Step<seq<PtmSlot>, PtmSlot>)
    ensures r.response.Err? ==> r.state == slots && r.response.code == Uncaught
    ensures r.response.Ok? <==> date.Some? && Truthy(startTime) && Truthy(endTime)
    ensures r.response.Ok? ==>
              var s := r.response.body;
              && r.response.code == 201 && r.state == slots + [s]
              && s.teacher == caller.id && s.school == caller.school
              && s.status == SlotOpen && s.student.None? && s.link == link && s.notes.None?
              && s.id == id && s.date == date.value && s.startTime == startTime.value && s.endTime == endTime.value
  {
    if date.None? || !Truthy(startTime) || !Truthy(endTime) then
      Step(slots, Err(Uncaught, "PTMSlot validation failed"))
    else
      var s := PtmSlot(id, caller.id, caller.school, None, date.value, startTime.value, endTime.value,
                       SlotOpen, link, None);
      Step(slots + [s], Ok(201, s))
  }

  /** Date first, then start time as a string. */
  predicate SlotOrder(a: PtmSlot, b: PtmSlot) {
    IntThenLex(a.date, a.startTime, b.date, b.startTime)
  }

  lemma SlotOrderPreorder()
    ensures TotalPreorder(SlotOrder)
  {
    forall a: PtmSlot, b: PtmSlot ensures SlotOrder(a, b) || SlotOrder(b, a) {
      IntThenLexTotal(a.date, a.startTime, b.date, b.startTime);
    }
    forall a: PtmSlot, b: PtmSlot, c: PtmSlot | SlotOrder(a, b) && SlotOrder(b, c) ensures SlotOrder(a, c) {
      IntThenLexTransitive(a.date, a.startTime, b.date, b.startTime, c.date, c.startTime);
    }
  }

  /** GET /ptm: the caller's own slots in its school, by date and then start
      time. */
  function GetTeacherSlots(slots: seq<PtmSlot>, caller: Caller): (r: seq<PtmSlot>)
    ensures SortedBy(r, SlotOrder)
    ensures forall s :: s in r <==> s in slots && s.teacher == caller.id && s.school == caller.school
  {
    SlotOrderPreorder();
    Select(slots, (s: PtmSlot) => s.teacher == caller.id && s.school == caller.school, SlotOrder)
  }

  /** A new slot is listed to its teacher, and every slot listed before
      still is. */
  lemma CreatedSlotListed(slots: seq<PtmSlot>, caller: Caller, date: Option<int>, startTime: Option<string>,
                          endTime: Option<string>, link: Option<string>, id: Id)
    ensures var r := CreateSlot(slots, caller, date, startTime, endTime, link, id);
            r.response.Ok? ==>
              && r.response.body in GetTeacherSlots(r.state, caller)
              && forall s :: s in GetTeacherSlots(slots, caller) ==> s in GetTeacherSlots(r.state, caller)
  {
  }

  /** Within one day the listing runs by start time: of two listed slots on
      the same date, the earlier-listed one does not start later. */
  lemma SameDaySlotsByStartTime(slots: seq<PtmSlot>, caller: Caller, i: nat, j: nat)
    requires i < j < |GetTeacherSlots(slots, caller)|
    requires GetTeacherSlots(slots, caller)[i].date == GetTeacherSlots(slots, caller)[j].date
    ensures LexLe(GetTeacherSlots(slots, caller)[i].startTime, GetTeacherSlots(slots, caller)[j].startTime)
  {
  }

  /** PUT /ptm/:id: 404 unless the caller owns the slot; status, link and
      notes each replaced only by a truthy value; a status outside the
      schema's enum then fails validation. */
  function UpdateSlot(slots: seq<PtmSlot>, caller: Caller, id: Id, status: Option<string>,
                      link: Option<string>, notes: Option<string>): (r: Step<seq<PtmSlot>, PtmSlot>)
    ensures !OwnsSlot(slots, caller, id) <==> r == Step(slots, Err(404, SlotNotFound))
    ensures r.response.Err? ==> r.state == slots
    ensures OwnsSlot(slots, caller, id) ==>
              (r.response.Ok? <==> !Truthy(status) || ParseSlotStatus(status.value).Some?)
    ensures r.response.Ok? ==>
              var j := FindSlot(slots, id, caller.school).value;
              var s := r.response.body;
              var prev := slots[j];
              && r.state == slots[j := s]
              && s.(status := prev.status, link := prev.link, notes := prev.notes) == prev
              && (Truthy(status) ==> Some(s.status) == ParseSlotStatus(status.value))
              && (!Truthy(status) ==> s.status == prev.status)
              && (Truthy(link) ==> s.link == link) && (!Truthy(link) ==> s.link == prev.link)
              && (Truthy(notes) ==> s.notes == notes) && (!Truthy(notes) ==> s.notes == prev.notes)
  {
    match FindSlot(slots, id, caller.school)
    case None => Step(slots, Err(404, SlotNotFound))
    case Some(j) =>
      var s := slots[j];
      if !OwnerOnly(caller, s.teacher) then Step(slots, Err(404, SlotNotFound))
      else if Truthy(status) && ParseSlotStatus(status.value).None? then
        Step(slots, Err(Uncaught, "PTMSlot validation failed"))
      else
        var s' := s.(status := if Truthy(status) then ParseSlotStatus(status.value).value else s.status,
                     link := OrMaybe(link, s.link), notes := OrMaybe(notes, s.notes));
        Step(slots[j := s'], Ok(200, s'))
  }

  /** An Admin has no bypass: updating a slot another teacher owns is a 404,
      with the slots unchanged. */
  lemma AdminCannotUpdateOthersSlot(slots: seq<PtmSlot>, caller: Caller, id: Id, status: Option<string>,
                                    link: Option<string>, notes: Option<string>)
    requires caller.role == Admin
    requires FindSlot(slots, id, caller.school).Some?
    requires slots[FindSlot(slots, id, caller.school).value].teacher != caller.id
    ensures UpdateSlot(slots, caller, id, status, link, notes) == Step(slots, Err(404, SlotNotFound))
  {
  }
}

=== FILE: quiz.dfy ===
/**
 Quizzes: the status a new quiz gets, which quizzes a caller may list, the
 stripping of correct answers, and the grading of a submitted attempt with
 its gradebook side effects (an auto-graded assignment submission and a
 Mark filed under one of the student's classes).
 */
module Quizzes {
  import opened Common
  import opened Models
  import opened Sorting
  import Keyed

  // ------------------------------------------------------------- creation

  /** The question schema's required fields: a non-empty text, a correct
      answer, and a non-empty string for every option. */
  predicate QuestionValid(q: Question) {
    && q.text != ""
    && q.correctAnswerIndex.Some?
    && forall o :: o in q.options ==> o != ""
  }

  /** createQuiz. A competition is published at once; anything else starts as
      a draft. Absent fields take the schema defaults. The title is required,
      and so are the required fields of every question. */
  function CreateQuiz(quizzes: seq<Quiz>, caller: Caller, id: Id, title: Option<string>,
                      quizType: Option<QuizType>, duration: Option<int>, classIds: seq<string>,
                      isPublic: Option<bool>, questions: seq<Question>,
                      passingScore: Option<real>, now: int): (r: Step<seq<Quiz>, Quiz>)
    ensures r.response.Ok? <==> Truthy(title) && forall q :: q in questions ==> QuestionValid(q)
    ensures r.response.Ok? ==>
              && r.response.code == 201
              && r.response.body.id == id
              && r.response.body.title == title.value
              && r.response.body.questions == questions
              && r.response.body.classIds == classIds
              && r.response.body.createdAt == now
              && r.state == quizzes + [r.response.body]
              && (r.response.body.status == Published <==> quizType == Some(Competition))
              && (r.response.body.status == Draft <==> quizType != Some(Competition))
              && r.response.body.quizType == quizType.GetOr(Practice)
              && r.response.body.teacher == caller.id
              && r.response.body.school == caller.school
              && r.response.body.passingScore == passingScore.GetOr(DefaultPassingScore)
              && r.response.body.duration == duration.GetOr(DefaultDuration)
              && r.response.body.isPublic == isPublic.GetOr(false)
    ensures r.response.Err? ==> r.state == quizzes && r.response.code == Uncaught
  {
    if !Truthy(title) || exists q :: q in questions && !QuestionValid(q) then
      Step(quizzes, Err(Uncaught, "Quiz validation failed"))
    else
      var quiz := Quiz(id, title.value, caller.school, caller.id, quizType.GetOr(Practice),
                       if quizType == Some(Competition) then Published else Draft,
                       duration.GetOr(DefaultDuration), classIds, isPublic.GetOr(false),
                       questions, passingScore.GetOr(DefaultPassingScore), now);
      Step(quizzes + [quiz], Ok(201, quiz))
  }

  // ----------------------------------------------------------- visibility

  /** A quiz with every correct answer removed. */
  function Strip(q: Quiz): (r: Quiz)
    ensures |r.questions| == |q.questions|
    ensures forall i :: 0 <= i < |r.questions| ==>
              r.questions[i] == q.questions[i].(correctAnswerIndex := None)
    ensures r.(questions := q.questions) == q
  {
    q.(questions := seq(|q.questions|, i requires 0 <= i < |q.questions| =>
                          q.questions[i].(correctAnswerIndex := None)))
  }

  predicate NoAnswers(q: Quiz) {
    forall i :: 0 <= i < |q.questions| ==> q.questions[i].correctAnswerIndex.None?
  }

  /** Ids of the classes whose roster holds the student, in natural order. */
  function ClassIdsOf(classes: seq<Class>, student: Id, school: Id): (r: seq<Id>)
    ensures forall c :: c in classes && student in c.students && c.school == school ==> c.id in r
    ensures forall k :: k in r ==> exists c :: c in classes && student in c.students && c.school == school && c.id == k
  {
    var cs := ClassesOf(classes, student, school);
    var ids := seq(|cs|, i requires 0 <= i < |cs| => cs[i].id);
    assert forall c :: c in cs ==> c.id in ids by {
      forall c | c in cs ensures c.id in ids {
        var i :| 0 <= i < |cs| && cs[i] == c;
        assert ids[i] == c.id;
      }
    }
    ids
  }

  /** The availability rule, given the ids of the caller's classes. A Student
      sees the school's published or live quizzes that are public or target
      one of its classes; a Teacher sees its own; any other caller sees the
      whole school. */
  predicate AvailableTo(caller: Caller, classIds: seq<Id>, q: Quiz) {
    q.school == caller.school
    && (caller.role == Student ==>
          && (q.isPublic || exists k :: k in q.classIds && k in classIds)
          && (q.status == Published || q.status == Live))
    && (caller.role == Teacher ==> q.teacher == caller.id)
  }

  predicate NewestFirst(a: Quiz, b: Quiz) {
    a.createdAt >= b.createdAt
  }

  lemma NewestFirstPreorder()
    ensures TotalPreorder(NewestFirst)
  {
  }

  /** `.select('-questions.correctAnswerIndex')` over a listing. */
  function StripAll(qs: seq<Quiz>): (r: seq<Quiz>)
    ensures |r| == |qs|
    ensures forall i :: 0 <= i < |qs| ==> r[i] == Strip(qs[i])
  {
    seq(|qs|, i requires 0 <= i < |qs| => Strip(qs[i]))
  }

  /** getQuizzesAvailable: the quizzes the rule allows, without correct
      answers, newest first. */
  function QuizzesAvailable(quizzes: seq<Quiz>, classes: seq<Class>, caller: Caller): (r: seq<Quiz>)
    ensures SortedBy(r, NewestFirst)
    ensures forall i :: 0 <= i < |r| ==> NoAnswers(r[i])
    ensures forall q :: q in quizzes && AvailableTo(caller, ClassIdsOf(classes, caller.id, caller.school), q) ==>
              Strip(q) in r
    ensures forall i :: 0 <= i < |r| ==>
              exists q :: q in quizzes && AvailableTo(caller, ClassIdsOf(classes, caller.id, caller.school), q) && r[i] == Strip(q)
    ensures |r| == |Filter(quizzes, (q: Quiz) => AvailableTo(caller, ClassIdsOf(classes, caller.id, caller.school), q))|
  {
    NewestFirstPreorder();
    var sel := Select(quizzes, (q: Quiz) => AvailableTo(caller, ClassIdsOf(classes, caller.id, caller.school), q),
                      NewestFirst);
    assert |sel| == |multiset(sel)|;
    StripAllFacts(sel);
    StripAll(sel)
  }

  /** Stripping a listing keeps its order and strips each member. */
  lemma StripAllFacts(sel: seq<Quiz>)
    ensures SortedBy(sel, NewestFirst) ==> SortedBy(StripAll(sel), NewestFirst)
    ensures forall i :: 0 <= i < |sel| ==> NoAnswers(StripAll(sel)[i])
    ensures forall q :: q in sel ==> Strip(q) in StripAll(sel)
    ensures forall i :: 0 <= i < |sel| ==> sel[i] in sel && StripAll(sel)[i] == Strip(sel[i])
  {
    var body := StripAll(sel);
    forall q | q in sel ensures Strip(q) in body {
      var i :| 0 <= i < |sel| && sel[i] == q;
      assert body[i] == Strip(q);
    }
  }

  /** A student never lists a draft or ended quiz, nor another school's. */
  lemma StudentSeesOnlyOpenQuizzes(quizzes: seq<Quiz>, classes: seq<Class>, caller: Caller, x: Quiz)
    requires caller.role == Student
    requires x in QuizzesAvailable(quizzes, classes, caller)
    ensures x.status == Published || x.status == Live
    ensures x.school == caller.school
  {
    var r := QuizzesAvailable(quizzes, classes, caller);
    var i :| 0 <= i < |r| && r[i] == x;
    var q :| q in quizzes && AvailableTo(caller, ClassIdsOf(classes, caller.id, caller.school), q) && r[i] == Strip(q);
  }

  /** Stripping applies to a Student who did not write the quiz, and to no one else. */
  predicate MustStrip(caller: Caller, q: Quiz) {
    caller.role == Student && q.teacher != caller.id
  }

  const QuizNotFound: string := "Quiz not found"

  /** getQuizById: the caller's school's quiz, stripped for a student who is
      not its author. */
  function GetQuizById(quizzes: seq<Quiz>, caller: Caller, id: Id): (r: Response<Quiz>)
    ensures r.Err? <==> forall i :: 0 <= i < |quizzes| ==> !(quizzes[i].id == id && quizzes[i].school == caller.school)
    ensures r.Err? ==> r == Err(404, QuizNotFound)
    ensures r.Ok? ==> r.code == 200 && r.body.id == id && r.body.school == caller.school
    ensures r.Ok? ==> (NoAnswers(r.body) || !MustStrip(caller, r.body))
    ensures r.Ok? && !MustStrip(caller, r.body) ==> r.body in quizzes
    ensures r.Ok? ==>
              exists i :: 0 <= i < |quizzes| && quizzes[i].id == id && quizzes[i].school == caller.school
                && (forall j :: 0 <= j < i ==> !(quizzes[j].id == id && quizzes[j].school == caller.school))
                && r.body == (if MustStrip(caller, quizzes[i]) then Strip(quizzes[i]) else quizzes[i])
  {
    match FindFirst(quizzes, (q: Quiz) => q.id == id && q.school == caller.school)
    case None => Err(404, QuizNotFound)
    case Some(i) =>
      var q := quizzes[i];
      Ok(200, if MustStrip(caller, q) then Strip(q) else q)
  }

  /** A quiz just created under a fresh id is found again: whole for its
      author, without correct answers for a student of the school who did
      not write it. */
  lemma CreatedQuizLookup(quizzes: seq<Quiz>, caller: Caller, id: Id, title: Option<string>,
                          quizType: Option<QuizType>, duration: Option<int>, classIds: seq<string>,
                          isPublic: Option<bool>, questions: seq<Question>,
                          passingScore: Option<real>, now: int, student: Caller)
    requires forall q :: q in quizzes ==> !(q.id == id && q.school == caller.school)
    requires CreateQuiz(quizzes, caller, id, title, quizType, duration, classIds, isPublic,
                        questions, passingScore, now).response.Ok?
    requires student.role == Student && student.school == caller.school && student.id != caller.id
    ensures var c := CreateQuiz(quizzes, caller, id, title, quizType, duration, classIds, isPublic,
                                questions, passingScore, now);
            && GetQuizById(c.state, caller, id) == Ok(200, c.response.body)
            && GetQuizById(c.state, student, id) == Ok(200, Strip(c.response.body))
            && NoAnswers(Strip(c.response.body))
  {
    var c := CreateQuiz(quizzes, caller, id, title, quizType, duration, classIds, isPublic,
                        questions, passingScore, now);
    forall j | 0 <= j < |quizzes|
      ensures c.state[j] == quizzes[j] && quizzes[j] in quizzes
    {
    }
    assert c.state[|quizzes|] == c.response.body;
  }

  // ---------------------------------------------------------------- grading

  /** One entry of `detailedAnswers`: the chosen option and the time spent. */
  datatype Detailed = Detailed(selectedOption: Selection, timeTaken: Option<int>)

  /** The option used for question `idx`: a present detailed answer wins, then
      a defined simple answer, and otherwise -1. The second component is the
      time spent on the question. */
  function Choose(idx: nat, answers: Option<seq<Selection>>, detailed: Option<seq<Option<Detailed>>>)
    : (r: (Selection, int))
  {
    if detailed.Some? && idx < |detailed.value| && detailed.value[idx].Some? then
      (detailed.value[idx].value.selectedOption, detailed.value[idx].value.timeTaken.GetOr(0))
    else if answers.Some? && idx < |answers.value| then
      (answers.value[idx], 0)
    else
      (Picked(-1), 0)
  }

  /** Precedence of the two answer formats. */
  lemma ChoosePrecedence(idx: nat, answers: Option<seq<Selection>>, detailed: Option<seq<Option<Detailed>>>)
    ensures detailed.Some? && idx < |detailed.value| && detailed.value[idx].Some? ==>
              Choose(idx, answers, detailed).0 == detailed.value[idx].value.selectedOption
    ensures !(detailed.Some? && idx < |detailed.value| && detailed.value[idx].Some?) ==>
              Choose(idx, answers, detailed) == Choose(idx, answers, None)
    ensures Choose(idx, None, None) == (Picked(-1), 0)
  {
  }

  /** Strict equality with the stored correct answer. */
  predicate IsCorrect(s: Selection, q: Question) {
    s.Picked? && q.correctAnswerIndex == Some(s.option)
  }

  /** `points || 1`. */
  function Points(q: Question): int {
    if q.points != 0 then q.points else DefaultPoints
  }

  function Judge(qs: seq<Question>, idx: nat, answers: Option<seq<Selection>>,
                 detailed: Option<seq<Option<Detailed>>>): AnswerResult
    requires idx < |qs|
  {
    var (s, t) := Choose(idx, answers, detailed);
    AnswerResult(idx, s, IsCorrect(s, qs[idx]), t)
  }

  /** The per-question results with the running counters of the map at
      quizController.js. */
  datatype Grading = Grading(results: seq<AnswerResult>, correctCount: nat, totalPoints: int, obtainedPoints: int)

  /** Number of correct entries: the reference for `correctCount`. */
  function CountCorrect(rs: seq<AnswerResult>): (n: nat)
    ensures n <= |rs|
  {
    if |rs| == 0 then 0 else CountCorrect(rs[..|rs| - 1]) + (if rs[|rs| - 1].isCorrect then 1 else 0)
  }

  function SumPoints(qs: seq<Question>): int {
    if |qs| == 0 then 0 else SumPoints(qs[..|qs| - 1]) + Points(qs[|qs| - 1])
  }

  predicate PointsNonNegative(qs: seq<Question>) {
    forall i :: 0 <= i < |qs| ==> qs[i].points >= 0
  }

  /** Grading of the first `n` questions. */
  function GradePrefix(qs: seq<Question>, n: nat, answers: Option<seq<Selection>>,
                       detailed: Option<seq<Option<Detailed>>>): (g: Grading)
    requires n <= |qs|
    ensures |g.results| == n
    ensures forall i :: 0 <= i < n ==> g.results[i] == Judge(qs, i, answers, detailed)
    ensures g.correctCount == CountCorrect(g.results) <= n
    ensures g.totalPoints == SumPoints(qs[..n])
    ensures PointsNonNegative(qs) ==> 0 <= g.obtainedPoints <= g.totalPoints
  {
    if n == 0 then Grading([], 0, 0, 0)
    else
      var g := GradePrefix(qs, n - 1, answers, detailed);
      GradeStep(qs, n, answers, detailed, g);
      Tally(g, Judge(qs, n - 1, answers, detailed), Points(qs[n - 1]))
  }

  /** One more judged answer, worth `p`, added to the running counters. */
  function Tally(g: Grading, a: AnswerResult, p: int): Grading {
    Grading(g.results + [a], g.correctCount + (if a.isCorrect then 1 else 0),
            g.totalPoints + p, g.obtainedPoints + (if a.isCorrect then p else 0))
  }

  /** Tallying question `n - 1` onto a grading of the first `n - 1` questions
      grades the first `n`. */
  lemma GradeStep(qs: seq<Question>, n: nat, answers: Option<seq<Selection>>,
                  detailed: Option<seq<Option<Detailed>>>, g: Grading)
    requires 0 < n <= |qs|
    requires |g.results| == n - 1
    requires forall i :: 0 <= i < n - 1 ==> g.results[i] == Judge(qs, i, answers, detailed)
    requires g.correctCount == CountCorrect(g.results) <= n - 1
    requires g.totalPoints == SumPoints(qs[..n - 1])
    requires PointsNonNegative(qs) ==> 0 <= g.obtainedPoints <= g.totalPoints
    ensures var h := Tally(g, Judge(qs, n - 1, answers, detailed), Points(qs[n - 1]));
            && |h.results| == n
            && (forall i :: 0 <= i < n ==> h.results[i] == Judge(qs, i, answers, detailed))
            && h.correctCount == CountCorrect(h.results) <= n
            && h.totalPoints == SumPoints(qs[..n])
            && (PointsNonNegative(qs) ==> 0 <= h.obtainedPoints <= h.totalPoints)
  {
    var a := Judge(qs, n - 1, answers, detailed);
    var rs := g.results + [a];
    assert rs[..n - 1] == g.results;
    assert qs[..n][..n - 1] == qs[..n - 1];
    assert PointsNonNegative(qs) ==> qs[n - 1].points >= 0;
  }

  /** The whole attempt. */
  function Grade(qs: seq<Question>, answers: Option<seq<Selection>>,
                 detailed: Option<seq<Option<Detailed>>>): (g: Grading)
    ensures |g.results| == |qs|
    ensures forall i :: 0 <= i < |qs| ==> g.results[i].questionIndex == i
    ensures forall i :: 0 <= i < |qs| ==> g.results[i].selectedOption == Choose(i, answers, detailed).0
    ensures forall i :: 0 <= i < |qs| ==>
              (g.results[i].isCorrect <==> IsCorrect(Choose(i, answers, detailed).0, qs[i]))
    ensures g.correctCount == CountCorrect(g.results) <= |qs|
    ensures g.totalPoints == SumPoints(qs)
    ensures PointsNonNegative(qs) ==> 0 <= g.obtainedPoints <= g.totalPoints
  {
    assert qs[..|qs|] == qs;
    GradePrefix(qs, |qs|, answers, detailed)
  }

  /** `correctCount / questions.length * 100`, for a quiz with questions. */
  function Score(correct: nat, n: nat): (s: real)
    requires 0 < n && correct <= n
    ensures 0.0 <= s <= 100.0
    ensures s == 100.0 <==> correct == n
    ensures s == 0.0 <==> correct == 0
  {
    (correct as real / n as real) * 100.0
  }

  /** More correct answers never lower the score. */
  lemma ScoreMonotone(c1: nat, c2: nat, n: nat)
    requires 0 < n && c1 <= c2 <= n
    ensures Score(c1, n) <= Score(c2, n)
  {
    var d := n as real;
    var x, y := c1 as real / d, c2 as real / d;
    assert x * d == c1 as real && y * d == c2 as real;
    assert (y - x) * d >= 0.0;
    if y < x {
      assert false;
    }
  }

  // ------------------------------------------------- gradebook side effects

  /** Position of the first element of `xs` that occurs in `ys`. */
  function FirstCommon(xs: seq<Id>, ys: seq<Id>): (r: Option<Id>)
    ensures r.Some? ==> r.value in xs && r.value in ys
    ensures r.None? <==> forall x :: x in xs ==> x !in ys
  {
    match FindFirst(xs, (x: Id) => x in ys)
    case None => None
    case Some(i) => Some(xs[i])
  }

  /** The class a quiz Mark is filed under: the first of the quiz's classes the
      student is enrolled in, else the student's first class, else none.
      Empty strings are falsy and skipped as the source's truthiness does. */
  function MarkClass(quizClassIds: seq<string>, studentClassIds: seq<Id>): (r: Option<Id>)
    ensures r.Some? ==> r.value in studentClassIds && r.value != ""
    ensures "" !in quizClassIds ==>
              forall j :: 0 <= j < |quizClassIds| && quizClassIds[j] in studentClassIds
                          && (forall i :: 0 <= i < j ==> quizClassIds[i] !in studentClassIds) ==>
                r == Some(quizClassIds[j])
    ensures (forall k :: k in quizClassIds ==> k !in studentClassIds) && |studentClassIds| > 0 && studentClassIds[0] != "" ==>
              r == Some(studentClassIds[0])
    ensures r.None? ==> |studentClassIds| == 0 || studentClassIds[0] == "" || exists k :: k in quizClassIds && k in studentClassIds
  {
    var common := FirstCommon(quizClassIds, studentClassIds);
    if common.Some? && common.value != "" then common
    else if |studentClassIds| > 0 && studentClassIds[0] != "" then Some(studentClassIds[0])
    else None
  }

  /** The records a submitted attempt writes. */
  datatype Gradebook = Gradebook(results: seq<QuizResult>, submissions: seq<Submission>, marks: seq<Mark>)

  /** The body of a successful submission reply. */
  datatype Attempt = Attempt(score: real, correctCount: nat, totalQuestions: nat, passed: bool, result: QuizResult)

  const AutoSubmissionUrl: string := "QUIZ_AUTO_SUBMISSION"

  function SubmissionKey(s: Submission): (Id, Id) {
    (s.assignment, s.student)
  }

  function MarkKey(m: Mark): (Id, Option<string>, Id) {
    (m.student, m.examType, m.classId)
  }

  /** The auto-graded submission upsert, keyed by (assignment, student). */
  function AutoSubmit(subs: seq<Submission>, a: Assignment, student: Id, school: Id,
                      title: string, score: real, newId: Id, now: int): Keyed.Upserted<Submission>
  {
    var url := AutoSubmissionUrl;
    var name := "Quiz: " + title;
    var feedback := Some("Auto-graded from Quiz: " + title);
    Keyed.Upsert(subs, SubmissionKey, (a.id, student),
      (s: Submission) => s.(school := school, fileUrl := url, fileName := name, status := Graded,
                            grade := Some(score), submittedAt := now, feedback := feedback),
      Submission(newId, a.id, student, school, url, name, now, Graded, Some(score), feedback))
  }

  /** The gradebook Mark upsert, keyed by (student, exam, class) without the
      school; the score is the percentage and the total is 100. */
  function AutoMark(marks: seq<Mark>, student: Id, examType: string, classId: Id, school: Id,
                    score: real, newId: Id): Keyed.Upserted<Mark>
  {
    Keyed.Upsert(marks, MarkKey, (student, Some(examType), classId),
      (m: Mark) => m.(school := school, score := score, total := 100.0),
      Mark(newId, student, school, classId, Some(examType), score, 100.0))
  }

  /** submitQuiz. `timeTaken` is the total time of the attempt; `now`, the
      new submission id and the new mark id are supplied by the caller. A quiz
      without questions scores NaN, which the result schema refuses. */
  function SubmitQuiz(quizzes: seq<Quiz>, classes: seq<Class>, assignments: seq<Assignment>,
                      book: Gradebook, caller: Caller, quizId: Id,
                      answers: Option<seq<Selection>>, detailed: Option<seq<Option<Detailed>>>,
                      timeTaken: Option<int>, submissionId: Id, markId: Id, now: int)
    : (r: Step<Gradebook, Attempt>)
    ensures FindFirst(quizzes, (q: Quiz) => q.id == quizId && q.school == caller.school).None? ==>
              r == Step(book, Err(404, QuizNotFound))
    ensures r.response.Ok? <==>
              && FindFirst(quizzes, (q: Quiz) => q.id == quizId && q.school == caller.school).Some?
              && |quizzes[FindFirst(quizzes, (q: Quiz) => q.id == quizId && q.school == caller.school).value].questions| > 0
    ensures r.response.Ok? ==>
              var quiz := quizzes[FindFirst(quizzes, (q: Quiz) => q.id == quizId && q.school == caller.school).value];
              var g := Grade(quiz.questions, answers, detailed);
              var att := r.response.body;
              && att.totalQuestions == |quiz.questions| == att.result.totalQuestions
              && att.correctCount == g.correctCount
              && att.result.answers == g.results
              && att.result.quiz == quiz.id
              && att.result.score == att.score
              && att.result.timeTaken == timeTaken.GetOr(0)
              && (att.passed <==> att.score >= quiz.passingScore)
    ensures r.response.Ok? ==>
              var quiz := quizzes[FindFirst(quizzes, (q: Quiz) => q.id == quizId && q.school == caller.school).value];
              var link := FindFirst(assignments, (a: Assignment) => a.linkedQuiz == Some(quiz.id) && a.school == caller.school);
              var mc := MarkClass(quiz.classIds, ClassIdsOf(classes, caller.id, caller.school));
              && (link.None? ==> r.state.submissions == book.submissions && r.state.marks == book.marks)
              && (link.Some? ==>
                    var a := assignments[link.value];
                    && r.state.submissions
                       == AutoSubmit(book.submissions, a, caller.id, caller.school, quiz.title,
                                     r.response.body.score, submissionId, now).store
                    && (mc.None? ==> r.state.marks == book.marks)
                    && (mc.Some? ==>
                          r.state.marks
                          == AutoMark(book.marks, caller.id, a.title, mc.value, caller.school,
                                      r.response.body.score, markId).store))
    ensures r.response.Ok? ==>
              var att := r.response.body;
              && r.response.code == 201
              && 0 < att.totalQuestions
              && att.correctCount <= att.totalQuestions
              && 0.0 <= att.score <= 100.0
              && att.score == Score(att.correctCount, att.totalQuestions)
              && |att.result.answers| == att.totalQuestions
              && att.result.student == caller.id && att.result.school == caller.school
              && r.state.results == book.results + [att.result]
    ensures r.response.Err? ==> r.state == book
  {
    match FindFirst(quizzes, (q: Quiz) => q.id == quizId && q.school == caller.school)
    case None => Step(book, Err(404, QuizNotFound))
    case Some(qi) =>
      var quiz := quizzes[qi];
      var n := |quiz.questions|;
      if n == 0 then
        Step(book, Err(Uncaught, "QuizResult validation failed: score"))
      else
        var g := Grade(quiz.questions, answers, detailed);
        var score := Score(g.correctCount, n);
        var result := QuizResult(quiz.id, caller.id, caller.school, score, n, g.results, timeTaken.GetOr(0));
        var attempt := Attempt(score, g.correctCount, n, score >= quiz.passingScore, result);
        var book1 := book.(results := book.results + [result]);
        match FindFirst(assignments, (a: Assignment) => a.linkedQuiz == Some(quiz.id) && a.school == caller.school)
        case None => Step(book1, Ok(201, attempt))
        case Some(ai) =>
          var a := assignments[ai];
          var subs := AutoSubmit(book1.submissions, a, caller.id, caller.school, quiz.title, score, submissionId, now).store;
          var markClass := MarkClass(quiz.classIds, ClassIdsOf(classes, caller.id, caller.school));
          var marks := if markClass.None? then book1.marks
                       else AutoMark(book1.marks, caller.id, a.title, markClass.value, caller.school, score, markId).store;
          Step(book1.(submissions := subs, marks := marks), Ok(201, attempt))
  }

  /** Pass/fail is the comparison of the percentage with the quiz's passing
      score, and a quiz without questions is never graded. */
  lemma PassedIffScoreReachesPassingScore(quizzes: seq<Quiz>, classes: seq<Class>, assignments: seq<Assignment>,
                                          book: Gradebook, caller: Caller, quizId: Id,
                                          answers: Option<seq<Selection>>, detailed: Option<seq<Option<Detailed>>>,
                                          timeTaken: Option<int>, submissionId: Id, markId: Id, now: int)
    ensures var r := SubmitQuiz(quizzes, classes, assignments, book, caller, quizId, answers, detailed,
                                timeTaken, submissionId, markId, now);
            var i := FindFirst(quizzes, (q: Quiz) => q.id == quizId && q.school == caller.school);
            && (r.response.Ok? ==>
                  i.Some? && (r.response.body.passed <==> r.response.body.score >= quizzes[i.value].passingScore))
            && (i.Some? && |quizzes[i.value].questions| == 0 ==> r.response.Err? && r.response.code == Uncaught)
  {
  }

  /** The submission upsert leaves exactly one submission for the
      (assignment, student) pair, graded with the score. */
  lemma AutoSubmitGrades(subs: seq<Submission>, a: Assignment, student: Id, school: Id,
                         title: string, score: real, newId: Id, now: int)
    requires Keyed.UniqueBy(subs, SubmissionKey)
    ensures var u := AutoSubmit(subs, a, student, school, title, score, newId, now);
            && Keyed.UniqueBy(u.store, SubmissionKey)
            && Keyed.CountKey(u.store, SubmissionKey, (a.id, student)) == 1
            && u.at < |u.store| && SubmissionKey(u.store[u.at]) == (a.id, student)
            && u.store[u.at].status == Graded && u.store[u.at].grade == Some(score)
            && u.store[u.at].school == school && u.store[u.at].fileUrl == AutoSubmissionUrl
  {
    var url := AutoSubmissionUrl;
    var name := "Quiz: " + title;
    var feedback := Some("Auto-graded from Quiz: " + title);
    var upd := (s: Submission) => s.(school := school, fileUrl := url, fileName := name, status := Graded,
                                     grade := Some(score), submittedAt := now, feedback := feedback);
    var created := Submission(newId, a.id, student, school, url, name, now, Graded, Some(score), feedback);
    Keyed.UpsertKeepsUnique(subs, SubmissionKey, (a.id, student), upd, created);
    Keyed.UpsertLeavesExactlyOne(subs, SubmissionKey, (a.id, student), upd, created);
  }

  /** A successful attempt at a quiz linked to an assignment leaves the
      student exactly one submission for that assignment, graded with the
      attempt's score. */
  lemma LinkedSubmitGrades(quizzes: seq<Quiz>, classes: seq<Class>, assignments: seq<Assignment>,
                           book: Gradebook, caller: Caller, quizId: Id,
                           answers: Option<seq<Selection>>, detailed: Option<seq<Option<Detailed>>>,
                           timeTaken: Option<int>, submissionId: Id, markId: Id, now: int)
    requires Keyed.UniqueBy(book.submissions, SubmissionKey)
    requires SubmitQuiz(quizzes, classes, assignments, book, caller, quizId, answers, detailed,
                        timeTaken, submissionId, markId, now).response.Ok?
    ensures var r := SubmitQuiz(quizzes, classes, assignments, book, caller, quizId, answers, detailed,
                                timeTaken, submissionId, markId, now);
            var link := FindFirst(assignments, (a: Assignment) => a.linkedQuiz == Some(quizId) && a.school == caller.school);
            && Keyed.UniqueBy(r.state.submissions, SubmissionKey)
            && (link.Some? ==>
                  var a := assignments[link.value];
                  && Keyed.CountKey(r.state.submissions, SubmissionKey, (a.id, caller.id)) == 1
                  && exists s :: s in r.state.submissions && SubmissionKey(s) == (a.id, caller.id)
                       && s.status == Graded && s.grade == Some(r.response.body.score))
  {
    var r := SubmitQuiz(quizzes, classes, assignments, book, caller, quizId, answers, detailed,
                        timeTaken, submissionId, markId, now);
    var quiz := quizzes[FindFirst(quizzes, (q: Quiz) => q.id == quizId && q.school == caller.school).value];
    assert quiz.id == quizId;
    var link := FindFirst(assignments, (a: Assignment) => a.linkedQuiz == Some(quizId) && a.school == caller.school);
    if link.Some? {
      var a := assignments[link.value];
      var score := r.response.body.score;
      AutoSubmitGrades(book.submissions, a, caller.id, caller.school, quiz.title, score, submissionId, now);
      var u := AutoSubmit(book.submissions, a, caller.id, caller.school, quiz.title, score, submissionId, now);
      assert u.store[u.at] in r.state.submissions;
    }
  }

  lemma AutoMarkLeavesOne(marks: seq<Mark>, student: Id, examType: string, classId: Id, school: Id,
                          score: real, newId: Id)
    requires Keyed.UniqueBy(marks, MarkKey)
    ensures var u := AutoMark(marks, student, examType, classId, school, score, newId);
            && Keyed.UniqueBy(u.store, MarkKey)
            && Keyed.CountKey(u.store, MarkKey, (student, Some(examType), classId)) == 1
  {
    var upd := (m: Mark) => m.(school := school, score := score, total := 100.0);
    var created := Mark(newId, student, school, classId, Some(examType), score, 100.0);
    Keyed.UpsertKeepsUnique(marks, MarkKey, (student, Some(examType), classId), upd, created);
    Keyed.UpsertLeavesExactlyOne(marks, MarkKey, (student, Some(examType), classId), upd, created);
  }
}

=== FILE: remarks.dfy ===
/**
 Teacher remarks about students: a Student may read only its own; staff
 may read any student's within the school.
 */
module Remarks {
  import opened Common
  import opened Models
  import opened Sorting

  const NotAuthorizedRemarks: string := "Not authorized to view these remarks"

  /** POST /remarks: student, title and description are required; the
      teacher and school come from the caller. */
  function AddRemark(remarks: seq<Remark>, caller: Caller, studentId: Option<Id>, title: Option<string>,
                     description: Option<string>, id: Id, now: int): (r: Step<seq<Remark>, Remark>)
    ensures r.response.Err? ==> r.state == remarks && r.response.code == Uncaught
    ensures r.response.Ok? <==> Truthy(studentId) && Truthy(title) && Truthy(description)
    ensures r.response.Ok? ==>
              var m := r.response.body;
              && r.response.code == 201 && r.state == remarks + [m]
              && m.student == studentId.value && m.teacher == caller.id && m.school == caller.school
              && m.title == title.value && m.description == description.value && m.createdAt == now
              && m.id == id
  {
    if !Truthy(studentId) || !Truthy(title) || !Truthy(description) then
      Step(remarks, Err(Uncaught, "Remark validation failed"))
    else
      var m := Remark(id, studentId.value, caller.id, title.value, description.value, caller.school, now);
      Step(remarks + [m], Ok(201, m))
  }

  predicate NewestRemarkFirst(a: Remark, b: Remark) {
    a.createdAt >= b.createdAt
  }

  /** The remarks about `student` in `school`, newest first. */
  function RemarksAbout(remarks: seq<Remark>, student: Id, school: Id): (r: seq<Remark>)
    ensures SortedBy(r, NewestRemarkFirst)
    ensures forall m :: m in r <==> m in remarks && m.student == student && m.school == school
    ensures multiset(r) == multiset(Filter(remarks, (m: Remark) => m.student == student && m.school == school))
  {
    Select(remarks, (m: Remark) => m.student == student && m.school == school, NewestRemarkFirst)
  }

  /** GET /remarks/:studentId: 401 for a Student asking about anyone else;
      otherwise that student's remarks in the caller's school. */
  function GetRemarks(remarks: seq<Remark>, caller: Caller, studentId: Id): (r: Response<seq<Remark>>)
    ensures r.Err? <==> caller.role == Student && studentId != caller.id
    ensures r.Err? ==> r == Err(401, NotAuthorizedRemarks)
    ensures r.Ok? ==> forall m :: m in r.body <==>
              m in remarks && m.student == studentId && m.school == caller.school
    ensures r.Ok? ==>
              multiset(r.body) == multiset(Filter(remarks, (m: Remark) => m.student == studentId && m.school == caller.school))
  {
    if caller.role == Student && studentId != caller.id then Err(401, NotAuthorizedRemarks)
    else Ok(200, RemarksAbout(remarks, studentId, caller.school))
  }

  /** GET /remarks/my: always the caller's own. */
  function GetMyRemarks(remarks: seq<Remark>, caller: Caller): (r: seq<Remark>)
    ensures SortedBy(r, NewestRemarkFirst)
    ensures forall m :: m in r <==> m in remarks && m.student == caller.id && m.school == caller.school
  {
    RemarksAbout(remarks, caller.id, caller.school)
  }

  /** The two reads agree: asking by one's own id gives exactly the "my"
      listing, whatever the role. */
  lemma OwnRemarksAgree(remarks: seq<Remark>, caller: Caller)
    ensures GetRemarks(remarks, caller, caller.id) == Ok(200, GetMyRemarks(remarks, caller))
  {
  }

  /** Whatever it asks for, a Student is never shown a remark about another
      student. */
  lemma StudentNeverSeesOthers(remarks: seq<Remark>, caller: Caller, studentId: Id)
    requires caller.role == Student
    ensures var r := GetRemarks(remarks, caller, studentId);
            r.Ok? ==> forall m :: m in r.body ==> m.student == caller.id
  {
  }

  /** A remark just added is listed to staff reading that student's remarks,
      and to the student itself. */
  lemma AddedRemarkListed(remarks: seq<Remark>, caller: Caller, studentId: Id, title: string,
                          description: string, id: Id, now: int, reader: Caller)
    requires studentId != "" && title != "" && description != ""
    requires reader.school == caller.school && (reader.role == Student ==> reader.id == studentId)
    ensures var a := AddRemark(remarks, caller, Some(studentId), Some(title), Some(description), id, now);
            var g := GetRemarks(a.state, reader, studentId);
            g.Ok? && a.response.body in g.body
  {
  }
}

=== FILE: socket.dfy ===
/**
 The socket side of messaging: the handshake gate that authenticates a
 connection, the two rooms a connection joins, and the `sendMessage` event
 handler. JWT verification is a parameter: it either decodes a user id or
 throws.
 */
module Socket {
  import opened Common
  import opened Models
  import opened Messaging

  /** What `jwt.verify(token, secret)` yields: the decoded id, or a throw. */
  datatype Decoded = DecodedId(id: Id) | VerifyThrows

  /** An authenticated connection: the user, the school it is bound to and the
      rooms it joined, in order. */
  datatype Session = Session(user: User, school: Id, rooms: seq<Id>)

  datatype Handshake = Accepted(user: User) | Rejected(error: string)

  const TokenNotProvided: string := "Authentication error: Token not provided"
  const SecretMissing: string := "Server configuration error: JWT_SECRET not defined"
  const UserNotFound: string := "Authentication error: User not found"
  const InvalidToken: string := "Authentication error: Invalid token"

  /** The io.use gate: a falsy token is refused first, then a missing secret;
      a token that verifies to the id of an existing user is accepted; a
      verification failure is reported as an invalid token. */
  function Authenticate(users: seq<User>, token: Option<string>, secret: Option<string>,
                        verify: (string, string) -> Decoded): (r: Handshake)
    ensures !Truthy(token) ==> r == Rejected(TokenNotProvided)
    ensures Truthy(token) && !Truthy(secret) ==> r == Rejected(SecretMissing)
    ensures r.Accepted? <==>
              && Truthy(token) && Truthy(secret)
              && verify(token.value, secret.value).DecodedId?
              && FindUser(users, verify(token.value, secret.value).id).Some?
    ensures r.Accepted? ==> r.user in users && r.user.id == verify(token.value, secret.value).id
    ensures Truthy(token) && Truthy(secret) && verify(token.value, secret.value).VerifyThrows? ==>
              r == Rejected(InvalidToken)
    ensures (&& Truthy(token) && Truthy(secret)
             && verify(token.value, secret.value).DecodedId?
             && FindUser(users, verify(token.value, secret.value).id).None?)
            ==> r == Rejected(UserNotFound)
    ensures r.Rejected? ==> r.error in {TokenNotProvided, SecretMissing, UserNotFound, InvalidToken}
  {
    if !Truthy(token) then Rejected(TokenNotProvided)
    else if !Truthy(secret) then Rejected(SecretMissing)
    else match verify(token.value, secret.value)
      case VerifyThrows => Rejected(InvalidToken)
      case DecodedId(id) =>
        match FindUser(users, id)
        case None => Rejected(UserNotFound)
        // The source selects the user without its password hash; the
        // record is kept whole here, and no socket handler reads the hash.
        case Some(i) => Accepted(users[i])
  }

  /** The connection handler: the socket is bound to the user's school and
      joins the user's own room, then the school's room. */
  function Connect(user: User): (s: Session)
    ensures s.user == user && s.school == user.school
    ensures s.rooms == [user.id, user.school]
  {
    Session(user, user.school, [user.id, user.school])
  }

  /** A live connection obtained through the gate. */
  predicate Connected(users: seq<User>, s: Session) {
    s.user in users && s == Connect(s.user)
  }

  /** A rejected handshake never produces a session, so no room is joined. */
  lemma RejectedJoinsNothing(users: seq<User>, token: Option<string>, secret: Option<string>,
                             verify: (string, string) -> Decoded)
    requires !Truthy(token)
    ensures Authenticate(users, token, secret, verify) == Rejected(TokenNotProvided)
  {
  }

  /** An accepted handshake yields a connected session. */
  lemma AcceptedConnects(users: seq<User>, token: Option<string>, secret: Option<string>,
                         verify: (string, string) -> Decoded)
    ensures var h := Authenticate(users, token, secret, verify);
            h.Accepted? ==> Connected(users, Connect(h.user))
  {
  }

  /** Something the server sends: a 'message' event to a room, or a
      'messageError' event to the originating socket only. */
  datatype Outgoing = ToRoom(room: Id, message: Message) | ErrorToOrigin(text: string)

  const FailedToSend: string := "Failed to send message"

  /** The `sendMessage` event on a connected socket. The sender and school are
      the socket's own, whatever the payload carries. */
  function OnSendMessage(users: seq<User>, store: seq<Message>, s: Session,
                         recipientId: Option<string>, content: Option<string>, now: int)
    : (r: (seq<Message>, seq<Outgoing>))
    ensures !Truthy(recipientId) || !Truthy(content) ==>
              r == (store, [ErrorToOrigin(RecipientAndContentRequired)])
    ensures Truthy(recipientId) && Truthy(content) && !RecipientInSchool(users, recipientId.value, s.school) ==>
              r == (store, [ErrorToOrigin(OutsideSchool)])
    ensures Truthy(recipientId) && Truthy(content) && RecipientInSchool(users, recipientId.value, s.school) ==>
              var m := Message(s.user.id, recipientId.value, content.value, s.school, now);
              r == (store + [m], [ToRoom(recipientId.value, m), ToRoom(s.user.id, m)])
  {
    if !Truthy(recipientId) || !Truthy(content) then
      (store, [ErrorToOrigin(RecipientAndContentRequired)])
    else
      match CreateAndEmitMessage(users, store, true, s.user.id, recipientId.value, content.value, s.school, now)
      case Refused(_, error) =>
        (store, [ErrorToOrigin(if error != "" then error else FailedToSend)])
      case Delivered(store', m, emissions) =>
        var out := Broadcasts(emissions);
        assert out == [ToRoom(recipientId.value, m), ToRoom(s.user.id, m)] by {
          assert out[0] == ToRoom(recipientId.value, m) && out[1] == ToRoom(s.user.id, m);
        }
        (store', out)
  }

  function Broadcasts(es: seq<Emission>): (r: seq<Outgoing>)
    ensures |r| == |es|
    ensures forall i :: 0 <= i < |es| ==> r[i] == ToRoom(es[i].room, es[i].message)
  {
    if |es| == 0 then [] else [ToRoom(es[0].room, es[0].message)] + Broadcasts(es[1..])
  }

  /** User ids and school ids never coincide. */
  predicate RoomsDisjoint(users: seq<User>) {
    forall u, v :: u in users && v in users ==> u.id != v.school
  }

  /** Fan-out stays in the tenant: every connected socket that sits in a room
      a message is emitted to belongs to the sender's school. */
  lemma FanOutStaysInSchool(users: seq<User>, store: seq<Message>, s: Session,
                            recipientId: Option<string>, content: Option<string>, now: int,
                            listener: Session, e: Outgoing)
    requires UserIdsUnique(users) && RoomsDisjoint(users)
    requires Connected(users, s) && Connected(users, listener)
    requires e in OnSendMessage(users, store, s, recipientId, content, now).1
    requires e.ToRoom? && e.room in listener.rooms
    ensures listener.school == s.school
  {
    var out := OnSendMessage(users, store, s, recipientId, content, now).1;
    assert Truthy(recipientId) && Truthy(content) && RecipientInSchool(users, recipientId.value, s.school);
    var k := FindUser(users, recipientId.value).value;
    assert e.room == users[k].id || e.room == s.user.id;
    assert e.room != listener.user.school by {
      assert users[k] in users && s.user in users;
    }
    assert e.room == listener.user.id;
    var a :| 0 <= a < |users| && users[a] == listener.user;
    if e.room == users[k].id {
      assert a == k;
    } else {
      var b :| 0 <= b < |users| && users[b] == s.user;
      assert a == b;
    }
  }
}

=== FILE: sorting.dfy ===
/**
 Ordering of query results: the `.sort(...)` calls of the controllers.
 A listing is modelled as a filter followed by a sort under a total
 preorder; ties may come out in either order, as with a database sort.
 */
module Sorting {
  import opened Common

  ghost predicate TotalPreorder<T(!new)>(le: (T, T) -> bool) {
    && (forall a, b :: le(a, b) || le(b, a))
    && (forall a, b, c :: le(a, b) && le(b, c) ==> le(a, c))
  }

  predicate SortedBy<T>(xs: seq<T>, le: (T, T) -> bool) {
    forall i, j :: 0 <= i < j < |xs| ==> le(xs[i], xs[j])
  }

  function Insert<T(!new)>(x: T, xs: seq<T>, le: (T, T) -> bool): (r: seq<T>)
    requires TotalPreorder(le)
    requires SortedBy(xs, le)
    ensures SortedBy(r, le)
    ensures multiset(r) == multiset(xs) + multiset{x}
    decreases |xs|
  {
    if |xs| == 0 then [x]
    else if le(x, xs[0]) then
      assert xs == [xs[0]] + xs[1..];
      [x] + xs
    else
      var rest := Insert(x, xs[1..], le);
      InsertBehindHead(x, xs, rest, le);
      [xs[0]] + rest
  }

  /** The head of `xs`, strictly below `x`, may precede the insertion of `x`
      into the tail. */
  lemma InsertBehindHead<T(!new)>(x: T, xs: seq<T>, rest: seq<T>, le: (T, T) -> bool)
    requires TotalPreorder(le) && SortedBy(xs, le)
    requires |xs| > 0 && !le(x, xs[0])
    requires SortedBy(rest, le) && multiset(rest) == multiset(xs[1..]) + multiset{x}
    ensures SortedBy([xs[0]] + rest, le)
    ensures multiset([xs[0]] + rest) == multiset(xs) + multiset{x}
  {
    assert xs == [xs[0]] + xs[1..];
    forall k | 0 <= k < |rest| ensures le(xs[0], rest[k]) {
      assert rest[k] in multiset(rest);
      if rest[k] != x {
        assert rest[k] in multiset(xs[1..]);
        var m :| 0 <= m < |xs[1..]| && xs[1..][m] == rest[k];
        assert xs[m + 1] == rest[k];
      }
    }
    var s := [xs[0]] + rest;
    forall i, j | 0 <= i < j < |s| ensures le(s[i], s[j]) {
      assert s[j] == rest[j - 1];
      if i > 0 {
        assert s[i] == rest[i - 1];
      }
    }
  }

  /** Insertion sort: the sorted permutation of its input. */
  function Sort<T(!new)>(xs: seq<T>, le: (T, T) -> bool): (r: seq<T>)
    requires TotalPreorder(le)
    ensures SortedBy(r, le)
    ensures multiset(r) == multiset(xs)
    decreases |xs|
  {
    if |xs| == 0 then []
    else
      assert xs == [xs[0]] + xs[1..];
      Insert(xs[0], Sort(xs[1..], le), le)
  }

  /** `Model.find(query).sort(order)`: exactly the matching records, ordered. */
  function Select<T(!new)>(xs: seq<T>, p: T -> bool, le: (T, T) -> bool): (r: seq<T>)
    requires TotalPreorder(le)
    ensures SortedBy(r, le)
    ensures multiset(r) == multiset(Filter(xs, p))
    ensures forall x :: x in r <==> x in xs && p(x)
  {
    var r := Sort(Filter(xs, p), le);
    assert forall x :: x in r <==> x in multiset(Filter(xs, p));
    r
  }

  /** In a sorted result, an element strictly below another comes first. */
  lemma SortedStrictOrder<T(!new)>(xs: seq<T>, le: (T, T) -> bool, i: int, j: int)
    requires TotalPreorder(le)
    requires SortedBy(xs, le)
    requires 0 <= i < |xs| && 0 <= j < |xs|
    requires !le(xs[j], xs[i])
    ensures i < j
  {
    assert le(xs[i], xs[i]);
  }

  /** Mongo's default string order: lexicographic comparison by code point. */
  predicate LexLe(a: string, b: string)
    decreases |a|
  {
    if |a| == 0 then true
    else if |b| == 0 then false
    else if a[0] < b[0] then true
    else if a[0] == b[0] then LexLe(a[1..], b[1..])
    else false
  }

  lemma {:induction false} LexLeTotal(a: string, b: string)
    ensures LexLe(a, b) || LexLe(b, a)
    decreases |a|
  {
    if |a| > 0 && |b| > 0 && a[0] == b[0] {
      LexLeTotal(a[1..], b[1..]);
    }
  }

  lemma {:induction false} LexLeTransitive(a: string, b: string, c: string)
    requires LexLe(a, b) && LexLe(b, c)
    ensures LexLe(a, c)
    decreases |a|
  {
    if |a| > 0 && |b| > 0 && |c| > 0 && a[0] == b[0] && b[0] == c[0] {
      LexLeTransitive(a[1..], b[1..], c[1..]);
    }
  }

  /** Ordering by an integer key, then by a string key. */
  predicate IntThenLex(k1: int, s1: string, k2: int, s2: string) {
    k1 < k2 || (k1 == k2 && LexLe(s1, s2))
  }

  lemma IntThenLexTotal(k1: int, s1: string, k2: int, s2: string)
    ensures IntThenLex(k1, s1, k2, s2) || IntThenLex(k2, s2, k1, s1)
  {
    LexLeTotal(s1, s2);
  }

  lemma IntThenLexTransitive(k1: int, s1: string, k2: int, s2: string, k3: int, s3: string)
    requires IntThenLex(k1, s1, k2, s2) && IntThenLex(k2, s2, k3, s3)
    ensures IntThenLex(k1, s1, k3, s3)
  {
    if k1 == k2 && k2 == k3 {
      LexLeTransitive(s1, s2, s3);
    }
  }
}

=== FILE: submissions.dfy ===
/**
 Assignment submissions: one submission per (assignment, student, school),
 kept by a find-then-update-or-create; grading; and the student's own
 lookup.
 */
module Submissions {
  import opened Common
  import opened Models
  import opened Sorting
  import Keyed

  const AssignmentNotFound: string := "Assignment not found"
  const NotSubmitted: string := "Not submitted yet"
  const SubmissionNotFound: string := "Submission not found"

  /** The key the controller looks a submission up by. */
  function SubmissionKey(s: Submission): (Id, Id, Id) {
    (s.assignment, s.student, s.school)
  }

  /** Resubmission: the file and the time change; grade, feedback and status
      stay. */
  function Resubmit(s: Submission, fileUrl: string, fileName: string, now: int): (r: Submission)
    ensures SubmissionKey(r) == SubmissionKey(s) && r.id == s.id
    ensures r.grade == s.grade && r.feedback == s.feedback && r.status == s.status
    ensures r.fileUrl == fileUrl && r.fileName == fileName && r.submittedAt == now
  {
    s.(fileUrl := fileUrl, fileName := fileName, submittedAt := now)
  }

  /** The assignment filter `{_id: assignmentId, school}`. Mongoose drops a
      key whose value is undefined, so with no id the school's first
      assignment matches. */
  predicate AssignmentMatch(a: Assignment, assignmentId: Option<Id>, school: Id) {
    a.school == school && (assignmentId.Some? ==> a.id == assignmentId.value)
  }

  /** The existing-submission filter `{assignment, student, school}`, with
      the same dropped key: with no assignment id, any submission of the
      caller in the school matches. */
  predicate SubmitMatch(s: Submission, assignmentId: Option<Id>, student: Id, school: Id) {
    s.student == student && s.school == school && (assignmentId.Some? ==> s.assignment == assignmentId.value)
  }

  /** POST /submissions: 404 when no assignment of the school matches; a
      falsy file url or name fails the schema's required check on either
      path; otherwise the caller's first matching submission is refreshed
      (200) or a pending one created (201). The create needs the
      assignment id, which the schema requires. */
  function SubmitAssignment(assignments: seq<Assignment>, subs: seq<Submission>, caller: Caller,
                            assignmentId: Option<Id>, fileUrl: Option<string>, fileName: Option<string>,
                            newId: Id, now: int): (r: Step<seq<Submission>, Submission>)
    ensures (forall a :: a in assignments ==> !AssignmentMatch(a, assignmentId, caller.school)) ==>
              r == Step(subs, Err(404, AssignmentNotFound))
    ensures r.response.Err? ==> r.state == subs
    ensures r.response.Ok? <==>
              && (exists a :: a in assignments && AssignmentMatch(a, assignmentId, caller.school))
              && Truthy(fileUrl) && Truthy(fileName)
              && (assignmentId.Some? || exists s :: s in subs && SubmitMatch(s, assignmentId, caller.id, caller.school))
    ensures r.response.Ok? ==>
              var s := r.response.body;
              && SubmitMatch(s, assignmentId, caller.id, caller.school)
              && s.fileUrl == fileUrl.value && s.fileName == fileName.value && s.submittedAt == now
              && s in r.state
              && (r.response.code == 200 <==>
                    exists i :: 0 <= i < |subs| && SubmitMatch(subs[i], assignmentId, caller.id, caller.school))
              && (r.response.code == 200 ==>
                    exists i :: 0 <= i < |subs| && SubmitMatch(subs[i], assignmentId, caller.id, caller.school)
                                && (forall j :: 0 <= j < i ==> !SubmitMatch(subs[j], assignmentId, caller.id, caller.school))
                                && s == Resubmit(subs[i], fileUrl.value, fileName.value, now)
                                && r.state == subs[i := s])
              && (r.response.code == 201 ==>
                    r.state == subs + [s] && s.status == SubmissionPending && s.grade.None? && s.id == newId)
              && (r.response.code == 200 || r.response.code == 201)
  {
    if FindFirst(assignments, (a: Assignment) => AssignmentMatch(a, assignmentId, caller.school)).None? then
      Step(subs, Err(404, AssignmentNotFound))
    else if !Truthy(fileUrl) || !Truthy(fileName) then
      Step(subs, Err(Uncaught, "AssignmentSubmission validation failed"))
    else
      match assignmentId
      case Some(aid) =>
        var key := (aid, caller.id, caller.school);
        var u := Keyed.Upsert(subs, SubmissionKey, key,
                              (s: Submission) => Resubmit(s, fileUrl.value, fileName.value, now),
                              Submission(newId, aid, caller.id, caller.school, fileUrl.value,
                                         fileName.value, now, SubmissionPending, None, None));
        Step(u.store, Ok(if u.updated then 200 else 201, u.store[u.at]))
      case None => SubmitUnnamed(subs, caller, fileUrl.value, fileName.value, now)
  }

  /** The submit path with no assignment id: the caller's first submission
      in the school is refreshed, whatever its assignment; with none, the
      create fails the schema's required assignment. */
  function SubmitUnnamed(subs: seq<Submission>, caller: Caller, fileUrl: string, fileName: string,
                         now: int): (r: Step<seq<Submission>, Submission>)
    ensures r.response.Err? ==>
              && r == Step(subs, Err(Uncaught, "AssignmentSubmission validation failed"))
              && forall s :: s in subs ==> !SubmitMatch(s, None, caller.id, caller.school)
    ensures r.response.Ok? ==>
              exists i :: 0 <= i < |subs| && SubmitMatch(subs[i], None, caller.id, caller.school)
                          && (forall j :: 0 <= j < i ==> !SubmitMatch(subs[j], None, caller.id, caller.school))
                          && r.response == Ok(200, Resubmit(subs[i], fileUrl, fileName, now))
                          && r.state == subs[i := r.response.body]
                          && r.response.body in r.state
  {
    match FindFirst(subs, (s: Submission) => SubmitMatch(s, None, caller.id, caller.school))
    case Some(i) =>
      var s := Resubmit(subs[i], fileUrl, fileName, now);
      assert subs[i := s][i] == s;
      Step(subs[i := s], Ok(200, s))
    case None => Step(subs, Err(Uncaught, "AssignmentSubmission validation failed"))
  }

  /** At most one submission per key, before and after any submit; after a
      successful one the key of the submission returned is held by exactly
      one. */
  lemma SubmitKeepsOnePerKey(assignments: seq<Assignment>, subs: seq<Submission>, caller: Caller,
                             assignmentId: Option<Id>, fileUrl: Option<string>, fileName: Option<string>,
                             newId: Id, now: int)
    requires Keyed.UniqueBy(subs, SubmissionKey)
    ensures var r := SubmitAssignment(assignments, subs, caller, assignmentId, fileUrl, fileName, newId, now);
            && Keyed.UniqueBy(r.state, SubmissionKey)
            && (r.response.Ok? ==> Keyed.CountKey(r.state, SubmissionKey, SubmissionKey(r.response.body)) == 1)
  {
    var r := SubmitAssignment(assignments, subs, caller, assignmentId, fileUrl, fileName, newId, now);
    if r.response.Ok? {
      match assignmentId
      case Some(aid) =>
        var key := (aid, caller.id, caller.school);
        var upd := (s: Submission) => Resubmit(s, fileUrl.value, fileName.value, now);
        var created := Submission(newId, aid, caller.id, caller.school, fileUrl.value,
                                  fileName.value, now, SubmissionPending, None, None);
        Keyed.UpsertKeepsUnique(subs, SubmissionKey, key, upd, created);
        Keyed.UpsertLeavesExactlyOne(subs, SubmissionKey, key, upd, created);
      case None =>
        assert r == SubmitUnnamed(subs, caller, fileUrl.value, fileName.value, now);
        UnnamedKeepsOnePerKey(subs, caller, fileUrl.value, fileName.value, now);
    }
  }

  lemma UnnamedKeepsOnePerKey(subs: seq<Submission>, caller: Caller, fileUrl: string, fileName: string, now: int)
    requires Keyed.UniqueBy(subs, SubmissionKey)
    ensures var r := SubmitUnnamed(subs, caller, fileUrl, fileName, now);
            && Keyed.UniqueBy(r.state, SubmissionKey)
            && (r.response.Ok? ==> Keyed.CountKey(r.state, SubmissionKey, SubmissionKey(r.response.body)) == 1)
  {
    match FindFirst(subs, (s: Submission) => SubmitMatch(s, None, caller.id, caller.school))
    case Some(i) =>
      var s := Resubmit(subs[i], fileUrl, fileName, now);
      Keyed.UpdateKeepsUnique(subs, SubmissionKey, i, s);
      Keyed.UniquePresentOnce(subs[i := s], SubmissionKey, i);
    case None =>
  }

  /** A resubmission leaves a graded submission graded, with its grade and
      feedback. */
  lemma ResubmissionKeepsGrade(assignments: seq<Assignment>, subs: seq<Submission>, caller: Caller,
                               assignmentId: Id, fileUrl: string, fileName: string, newId: Id, now: int, i: nat)
    requires i < |subs| && SubmissionKey(subs[i]) == (assignmentId, caller.id, caller.school)
    requires Keyed.UniqueBy(subs, SubmissionKey)
    requires FindAssignment(assignments, assignmentId, caller.school).Some? && fileUrl != "" && fileName != ""
    ensures var r := SubmitAssignment(assignments, subs, caller, Some(assignmentId), Some(fileUrl), Some(fileName), newId, now);
            && r.response == Ok(200, r.state[i])
            && r.state[i].grade == subs[i].grade && r.state[i].feedback == subs[i].feedback
            && r.state[i].status == subs[i].status
  {
    var key := (assignmentId, caller.id, caller.school);
    var at := Keyed.FirstWithKey(subs, SubmissionKey, key);
    if at != i {
      assert false;
    }
    var k := FindAssignment(assignments, assignmentId, caller.school).value;
    assert AssignmentMatch(assignments[k], Some(assignmentId), caller.school);
  }

  /** GET /submissions/my/:assignmentId: the caller's submission, or 404. */
  function GetMySubmission(subs: seq<Submission>, caller: Caller, assignmentId: Id): (r: Response<Submission>)
    ensures r.Err? <==> forall s :: s in subs ==> SubmissionKey(s) != (assignmentId, caller.id, caller.school)
    ensures r.Err? ==> r == Err(404, NotSubmitted)
    ensures r.Ok? ==> r.body in subs && SubmissionKey(r.body) == (assignmentId, caller.id, caller.school)
  {
    match FindFirst(subs, (s: Submission) => SubmissionKey(s) == (assignmentId, caller.id, caller.school))
    case None => Err(404, NotSubmitted)
    case Some(i) => Ok(200, subs[i])
  }

  /** Submit-then-look-up: after a successful submit the caller's lookup
      for the assignment of the submission returned (the one named, when an
      id was sent) returns that submission. */
  lemma SubmitThenLookUp(assignments: seq<Assignment>, subs: seq<Submission>, caller: Caller,
                         assignmentId: Option<Id>, fileUrl: Option<string>, fileName: Option<string>,
                         newId: Id, now: int)
    requires Keyed.UniqueBy(subs, SubmissionKey)
    ensures var r := SubmitAssignment(assignments, subs, caller, assignmentId, fileUrl, fileName, newId, now);
            r.response.Ok? ==>
              && (assignmentId.Some? ==> r.response.body.assignment == assignmentId.value)
              && GetMySubmission(r.state, caller, r.response.body.assignment) == Ok(200, r.response.body)
  {
    var r := SubmitAssignment(assignments, subs, caller, assignmentId, fileUrl, fileName, newId, now);
    if r.response.Ok? {
      SubmitKeepsOnePerKey(assignments, subs, caller, assignmentId, fileUrl, fileName, newId, now);
      var g := GetMySubmission(r.state, caller, r.response.body.assignment);
      var a :| 0 <= a < |r.state| && r.state[a] == r.response.body;
      var b :| 0 <= b < |r.state| && r.state[b] == g.body;
      if a != b {
        assert false;
      }
    }
  }

  /** PUT /submissions/:id/grade: grade and feedback take the values sent,
      absent ones included, and the submission becomes Graded; 404 for a
      submission outside the school. */
  function GradeSubmission(subs: seq<Submission>, caller: Caller, id: Id, grade: Option<real>,
                           feedback: Option<string>): (r: Step<seq<Submission>, Submission>)
    ensures FindFirst(subs, (s: Submission) => s.id == id && s.school == caller.school).None? <==>
              r == Step(subs, Err(404, SubmissionNotFound))
    ensures r.response.Ok? <==> FindFirst(subs, (s: Submission) => s.id == id && s.school == caller.school).Some?
    ensures r.response.Ok? ==>
              var i := FindFirst(subs, (s: Submission) => s.id == id && s.school == caller.school).value;
              var s := r.response.body;
              && r.state == subs[i := s]
              && s.status == Graded && s.grade == grade && s.feedback == feedback
              && SubmissionKey(s) == SubmissionKey(subs[i])
              && s.fileUrl == subs[i].fileUrl && s.fileName == subs[i].fileName
              && s.submittedAt == subs[i].submittedAt
  {
    match FindFirst(subs, (s: Submission) => s.id == id && s.school == caller.school)
    case None => Step(subs, Err(404, SubmissionNotFound))
    case Some(i) =>
      var s := subs[i].(grade := grade, feedback := feedback, status := Graded);
      Step(subs[i := s], Ok(200, s))
  }

  /** Grade-then-look-up: once a submission is graded, its student's own
      lookup returns it Graded, with the grade and feedback sent. */
  lemma GradeThenLookUp(subs: seq<Submission>, caller: Caller, id: Id, grade: Option<real>,
                        feedback: Option<string>, student: Caller)
    requires Keyed.UniqueBy(subs, SubmissionKey)
    ensures var r := GradeSubmission(subs, caller, id, grade, feedback);
            r.response.Ok? && student.id == r.response.body.student && student.school == caller.school ==>
              && GetMySubmission(r.state, student, r.response.body.assignment) == Ok(200, r.response.body)
              && r.response.body.status == Graded
              && r.response.body.grade == grade && r.response.body.feedback == feedback
  {
    var r := GradeSubmission(subs, caller, id, grade, feedback);
    if r.response.Ok? && student.id == r.response.body.student && student.school == caller.school {
      var i := FindFirst(subs, (s: Submission) => s.id == id && s.school == caller.school).value;
      var s := r.response.body;
      Keyed.UpdateKeepsUnique(subs, SubmissionKey, i, s);
      var p := (x: Submission) => SubmissionKey(x) == (s.assignment, student.id, student.school);
      forall m | 0 <= m < i ensures !p(r.state[m]) {
        assert SubmissionKey(r.state[m]) != SubmissionKey(r.state[i]);
      }
      FindFirstAt(r.state, p, i);
    }
  }

  predicate LatestFirst(a: Submission, b: Submission) {
    a.submittedAt >= b.submittedAt
  }

  /** GET /submissions/assignment/:assignmentId: that assignment's
      submissions in the school, most recent first. */
  function SubmissionsFor(subs: seq<Submission>, caller: Caller, assignmentId: Id): (r: seq<Submission>)
    ensures SortedBy(r, LatestFirst)
    ensures forall s :: s in r <==> s in subs && s.assignment == assignmentId && s.school == caller.school
  {
    Select(subs, (s: Submission) => s.assignment == assignmentId && s.school == caller.school, LatestFirst)
  }
}

=== FILE: users.dfy ===
/**
 User administration: creating teachers and students (email unique across
 every school, role fixed by the endpoint, school taken from the caller,
 a password reset forced), the filtered user listing that never returns
 passwords, the merge update that never touches the role, deletion, and
 the password-reset token.

 Password hashing and random generation are not modelled: the stored
 password is `hash` of the chosen one, and the random password is a
 parameter.
 */
module Users {
  import opened Common
  import opened Models

  const UserExists: string := "User already exists"
  const UserNotFound: string := "User not found"
  const UserRemoved: string := "User removed"
  const TeacherEmailed: string := "Teacher created and email sent"
  const TeacherNotEmailed: string := "Teacher created but failed to send email. Password is: "
  const StudentCreated: string := "Student created successfully. Password: "

  /** A user as the listing returns it: every field but the password. */
  datatype PublicUser = PublicUser(
    id: Id, name: string, email: string, mobileNumber: Option<string>, role: Role, school: Id,
    isPasswordResetRequired: bool, feeStatus: FeeStatus, feeAmount: int, feeDueDate: Option<int>,
    resetPasswordToken: Option<string>, resetPasswordExpire: Option<int>, expoPushToken: Option<string>)

  function Public(u: User): PublicUser {
    PublicUser(u.id, u.name, u.email, u.mobileNumber, u.role, u.school, u.isPasswordResetRequired,
               u.feeStatus, u.feeAmount, u.feeDueDate, u.resetPasswordToken, u.resetPasswordExpire,
               u.expoPushToken)
  }

  /** The body of a creation reply. */
  datatype Created = Created(id: Id, name: string, email: string, role: Role,
                             autoPassword: Option<string>, message: string)

  /** `User.findOne({ email })` finds someone. An absent email is dropped from
      the filter, which then matches any user at all. */
  predicate EmailTaken(users: seq<User>, email: Option<string>) {
    match email
    case None => |users| > 0
    case Some(e) => exists i :: 0 <= i < |users| && users[i].email == e
  }

  // ---------------------------------------------------------------- creation

  /** The creation shared by both endpoints: 400 when the email is taken in
      any school; name, email and password are required; otherwise the user
      is stored with the endpoint's role, the caller's school, a forced reset
      and the hashed password. */
  function CreateUser(users: seq<User>, caller: Caller, role: Role, name: Option<string>, email: Option<string>,
                      mobileNumber: Option<string>, password: string, hash: string -> string,
                      id: Id): (r: Step<seq<User>, User>)
    ensures EmailTaken(users, email) ==> r == Step(users, Err(400, UserExists))
    ensures r.response.Err? ==> r.state == users
    ensures r.response.Ok? <==> !EmailTaken(users, email) && Truthy(name) && Truthy(email) && password != ""
    ensures r.response.Ok? ==>
              var u := r.response.body;
              && r.state == users + [u]
              && u.role == role && u.school == caller.school && u.isPasswordResetRequired
              && u.id == id && u.name == name.value && u.email == email.value
              && u.mobileNumber == mobileNumber && u.password == hash(password)
              && u.feeStatus == Pending && u.feeAmount == 0
  {
    if EmailTaken(users, email) then Step(users, Err(400, UserExists))
    else if !Truthy(name) || !Truthy(email) || password == "" then Step(users, Err(Uncaught, "User validation failed"))
    else
      var u := NewUser(id, name.value, email.value, hash(password), mobileNumber, role, caller.school, true);
      Step(users + [u], Ok(201, u))
  }

  /** POST /users/teacher: the password is always the random one; it is
      mailed to the teacher, and shown in the reply only when the mail
      fails. */
  function CreateTeacher(users: seq<User>, caller: Caller, name: Option<string>, email: Option<string>,
                         mobileNumber: Option<string>, random: string, hash: string -> string,
                         mailed: bool, id: Id): (r: Step<seq<User>, Created>)
    ensures EmailTaken(users, email) ==> r == Step(users, Err(400, UserExists))
    ensures r.response.Err? ==> r.state == users
    ensures r.response.Ok? <==> !EmailTaken(users, email) && Truthy(name) && Truthy(email) && random != ""
    ensures r.response.Ok? ==>
              && r.response.code == 201
              && r.state == users + [NewUser(id, name.value, email.value, hash(random), mobileNumber, Teacher,
                                             caller.school, true)]
              && r.response.body.role == Teacher && r.response.body.autoPassword.None?
              && r.response.body.message == (if mailed then TeacherEmailed else TeacherNotEmailed + random)
  {
    var c := CreateUser(users, caller, Teacher, name, email, mobileNumber, random, hash, id);
    match c.response
    case Err(code, msg) => Step(users, Err(code, msg))
    case Ok(code, u) =>
      Step(c.state, Ok(201, Created(u.id, u.name, u.email, u.role, None,
                                    if mailed then TeacherEmailed else TeacherNotEmailed + random)))
  }

  /** POST /users/student: the supplied password when truthy, else the random
      one; the reply always carries the password in clear. */
  function CreateStudent(users: seq<User>, caller: Caller, name: Option<string>, email: Option<string>,
                         mobileNumber: Option<string>, password: Option<string>, random: string,
                         hash: string -> string, id: Id): (r: Step<seq<User>, Created>)
    ensures EmailTaken(users, email) ==> r == Step(users, Err(400, UserExists))
    ensures r.response.Err? ==> r.state == users
    ensures r.response.Ok? <==>
              && !EmailTaken(users, email) && Truthy(name) && Truthy(email)
              && (Truthy(password) || random != "")
    ensures r.response.Ok? ==>
              var chosen := if Truthy(password) then password.value else random;
              && r.response.code == 201
              && r.state == users + [NewUser(id, name.value, email.value, hash(chosen), mobileNumber, Student,
                                             caller.school, true)]
              && r.response.body.role == Student && r.response.body.autoPassword == Some(chosen)
              && r.response.body.message == StudentCreated + chosen
  {
    var chosen := if Truthy(password) then password.value else random;
    var c := CreateUser(users, caller, Student, name, email, mobileNumber, chosen, hash, id);
    match c.response
    case Err(code, msg) => Step(users, Err(code, msg))
    case Ok(code, u) =>
      Step(c.state, Ok(201, Created(u.id, u.name, u.email, u.role, Some(chosen), StudentCreated + chosen)))
  }

  /** Creation keeps emails unique across all schools. */
  lemma CreateKeepsEmailsUnique(users: seq<User>, caller: Caller, role: Role, name: Option<string>,
                                email: Option<string>, mobileNumber: Option<string>, password: string,
                                hash: string -> string, id: Id)
    requires EmailsUnique(users)
    ensures EmailsUnique(CreateUser(users, caller, role, name, email, mobileNumber, password, hash, id).state)
  {
    var r := CreateUser(users, caller, role, name, email, mobileNumber, password, hash, id);
    if r.response.Ok? {
      forall i, j | 0 <= i < j < |r.state| ensures r.state[i].email != r.state[j].email {
        if j == |users| {
          assert r.state[i] == users[i];
        }
      }
    }
  }

  /** Once any user exists, a request without an email is refused as a
      duplicate, whatever else it carries. */
  lemma MissingEmailCollides(users: seq<User>, caller: Caller, name: Option<string>, mobileNumber: Option<string>,
                             password: Option<string>, random: string, hash: string -> string, id: Id)
    requires |users| > 0
    ensures CreateStudent(users, caller, name, None, mobileNumber, password, random, hash, id)
            == Step(users, Err(400, UserExists))
  {
  }

  // ---------------------------------------------------------------- listing

  /** The listing's query: the caller's school, the role when one is given,
      and, for a Student query with a class, that class's roster. */
  predicate Listed(u: User, caller: Caller, role: Option<string>, roster: Option<seq<Id>>) {
    && u.school == caller.school
    && (Truthy(role) ==> RoleName(u.role) == role.value)
    && (roster.Some? ==> u.id in roster.value)
  }

  function PublicAll(us: seq<User>): (r: seq<PublicUser>)
    ensures |r| == |us| && forall i :: 0 <= i < |r| ==> r[i] == Public(us[i])
  {
    seq(|us|, i requires 0 <= i < |us| => Public(us[i]))
  }

  lemma PublicAllMembers(us: seq<User>)
    ensures forall p :: p in PublicAll(us) <==> exists u :: u in us && p == Public(u)
  {
    var r := PublicAll(us);
    forall p | p in r ensures exists u :: u in us && p == Public(u) {
      var i :| 0 <= i < |r| && r[i] == p;
      assert us[i] in us;
    }
    forall p | exists u :: u in us && p == Public(u) ensures p in r {
      var u :| u in us && p == Public(u);
      var i :| 0 <= i < |us| && us[i] == u;
      assert r[i] == p;
    }
  }

  /** GET /users: the users of the caller's school, of one role when asked,
      without passwords. A class narrows the result to its roster only when
      the role asked for is Student; the class is looked up in every school,
      and an unknown one gives an empty list. */
  function GetUsers(users: seq<User>, classes: seq<Class>, caller: Caller, role: Option<string>,
                    classId: Option<Id>): (r: seq<PublicUser>)
    ensures var byClass := Truthy(classId) && role == Some("Student");
            && (byClass && FindClass(classes, classId.value).None? ==> r == [])
            && (!byClass ==> forall p :: p in r <==>
                  exists u :: u in users && Listed(u, caller, role, None) && p == Public(u))
            && (byClass && FindClass(classes, classId.value).Some? ==>
                  var roster := classes[FindClass(classes, classId.value).value].students;
                  forall p :: p in r <==> exists u :: u in users && Listed(u, caller, role, Some(roster)) && p == Public(u))
  {
    if Truthy(classId) && role == Some("Student") then
      match FindClass(classes, classId.value)
      case None => []
      case Some(j) =>
        var found := Filter(users, (u: User) => Listed(u, caller, role, Some(classes[j].students)));
        PublicAllMembers(found);
        PublicAll(found)
    else
      var found := Filter(users, (u: User) => Listed(u, caller, role, None));
      PublicAllMembers(found);
      PublicAll(found)
  }

  /** The listing never leaves the caller's school, even when the class asked
      for belongs to another school. */
  lemma GetUsersStaysInSchool(users: seq<User>, classes: seq<Class>, caller: Caller, role: Option<string>,
                              classId: Option<Id>, p: PublicUser)
    requires p in GetUsers(users, classes, caller, role, classId)
    ensures p.school == caller.school
  {
  }

  /** A class given with any role but Student is ignored. */
  lemma ClassIgnoredUnlessStudent(users: seq<User>, classes: seq<Class>, caller: Caller, role: Option<string>,
                                  classId: Id)
    requires role != Some("Student")
    ensures GetUsers(users, classes, caller, role, Some(classId)) == GetUsers(users, classes, caller, role, None)
  {
  }

  /** A newly created student is listed among the school's students. */
  lemma CreatedStudentListed(users: seq<User>, classes: seq<Class>, caller: Caller, name: string, email: string,
                             mobileNumber: Option<string>, password: string, random: string,
                             hash: string -> string, id: Id)
    requires name != "" && email != "" && password != ""
    requires !EmailTaken(users, Some(email))
    ensures var r := CreateStudent(users, caller, Some(name), Some(email), mobileNumber, Some(password), random, hash, id);
            r.response.Ok? && Public(r.state[|users|]) in GetUsers(r.state, classes, caller, Some("Student"), None)
  {
    var r := CreateStudent(users, caller, Some(name), Some(email), mobileNumber, Some(password), random, hash, id);
    assert r.state[|users|] in r.state;
  }

  // --------------------------------------------------------- update, delete

  /** The body of the update reply. */
  datatype Summary = Summary(id: Id, name: string, email: string, role: Role, mobileNumber: Option<string>)

  /** PUT /users/:id: 404 outside the caller's school; name, email and mobile
      number each replaced only by a truthy value; an email already held by
      another user breaks the unique index and fails. Role, school and
      password are never touched. */
  function UpdateUser(users: seq<User>, caller: Caller, id: Id, name: Option<string>, email: Option<string>,
                      mobileNumber: Option<string>): (r: Step<seq<User>, Summary>)
    ensures FindUserInSchool(users, id, caller.school).None? ==> r == Step(users, Err(404, UserNotFound))
    ensures r.response.Err? ==> r.state == users
    ensures FindUserInSchool(users, id, caller.school).Some? ==>
              var j := FindUserInSchool(users, id, caller.school).value;
              var newEmail := Or(email, users[j].email);
              (r.response.Ok? <==> forall k :: 0 <= k < |users| && k != j ==> users[k].email != newEmail)
    ensures |r.state| == |users|
    ensures r.response.Ok? ==>
              var j := FindUserInSchool(users, id, caller.school).value;
              var prev := users[j];
              var u := r.state[j];
              && r.state == users[j := u]
              && u.(name := prev.name, email := prev.email, mobileNumber := prev.mobileNumber) == prev
              && (Truthy(name) ==> u.name == name.value) && (!Truthy(name) ==> u.name == prev.name)
              && (Truthy(email) ==> u.email == email.value) && (!Truthy(email) ==> u.email == prev.email)
              && (Truthy(mobileNumber) ==> u.mobileNumber == mobileNumber)
              && (!Truthy(mobileNumber) ==> u.mobileNumber == prev.mobileNumber)
              && r.response == Ok(200, Summary(u.id, u.name, u.email, u.role, u.mobileNumber))
  {
    match FindUserInSchool(users, id, caller.school)
    case None => Step(users, Err(404, UserNotFound))
    case Some(j) =>
      var u := users[j];
      var u' := u.(name := Or(name, u.name), email := Or(email, u.email),
                   mobileNumber := OrMaybe(mobileNumber, u.mobileNumber));
      if exists k :: 0 <= k < |users| && k != j && users[k].email == u'.email then
        Step(users, Err(Uncaught, "E11000 duplicate key error"))
      else
        Step(users[j := u'], Ok(200, Summary(u'.id, u'.name, u'.email, u'.role, u'.mobileNumber)))
  }

  /** Updates keep emails unique and never change anybody's role or school. */
  lemma UpdateKeepsInvariants(users: seq<User>, caller: Caller, id: Id, name: Option<string>,
                              email: Option<string>, mobileNumber: Option<string>)
    requires EmailsUnique(users)
    ensures var s := UpdateUser(users, caller, id, name, email, mobileNumber).state;
            && EmailsUnique(s)
            && |s| == |users|
            && forall k :: 0 <= k < |users| ==> s[k].role == users[k].role && s[k].school == users[k].school
  {
  }

  /** DELETE /users/:id: 404 outside the caller's school. */
  function DeleteUser(users: seq<User>, caller: Caller, id: Id): (r: Step<seq<User>, string>)
    ensures FindUserInSchool(users, id, caller.school).None? <==> r == Step(users, Err(404, UserNotFound))
    ensures r.response.Ok? <==> FindUserInSchool(users, id, caller.school).Some?
    ensures r.response.Ok? ==>
              && r.response == Ok(200, UserRemoved)
              && multiset(r.state) + multiset{users[FindUserInSchool(users, id, caller.school).value]}
                 == multiset(users)
  {
    match FindUserInSchool(users, id, caller.school)
    case None => Step(users, Err(404, UserNotFound))
    case Some(j) =>
      assert users == users[..j] + [users[j]] + users[j + 1..];
      Step(users[..j] + users[j + 1..], Ok(200, UserRemoved))
  }

  /** A user of another school cannot be updated or deleted. */
  lemma OtherSchoolUntouchable(users: seq<User>, caller: Caller, id: Id, name: Option<string>,
                               email: Option<string>, mobileNumber: Option<string>)
    requires UserIdsUnique(users)
    requires exists k :: 0 <= k < |users| && users[k].id == id && users[k].school != caller.school
    ensures UpdateUser(users, caller, id, name, email, mobileNumber) == Step(users, Err(404, UserNotFound))
    ensures DeleteUser(users, caller, id) == Step(users, Err(404, UserNotFound))
  {
    var k :| 0 <= k < |users| && users[k].id == id && users[k].school != caller.school;
    if FindUserInSchool(users, id, caller.school).Some? {
      assert false;
    }
  }

  // ------------------------------------------------------------ reset token

  datatype ResetIssued = ResetIssued(user: User, token: string)

  /** getResetPasswordToken: the user keeps only the digest of the token it
      hands out, valid for ten minutes from `now`. */
  function GetResetPasswordToken(u: User, token: string, digest: string -> string, now: int): (r: ResetIssued)
    ensures r.token == token
    ensures r.user.resetPasswordToken == Some(digest(token))
    ensures r.user.resetPasswordExpire == Some(now + ResetTokenLifetime)
    ensures r.user.(resetPasswordToken := u.resetPasswordToken, resetPasswordExpire := u.resetPasswordExpire) == u
  {
    ResetIssued(u.(resetPasswordToken := Some(digest(token)), resetPasswordExpire := Some(now + ResetTokenLifetime)), token)
  }

  /** A token is honoured while its digest matches and it has not expired. */
  predicate TokenValid(u: User, presented: string, digest: string -> string, t: int) {
    && u.resetPasswordToken == Some(digest(presented))
    && u.resetPasswordExpire.Some? && t < u.resetPasswordExpire.value
  }

  /** A freshly issued token is honoured for exactly ten minutes. */
  lemma TokenLifetime(u: User, token: string, digest: string -> string, now: int, t: int)
    ensures var v := GetResetPasswordToken(u, token, digest, now).user;
            TokenValid(v, token, digest, t) <==> t < now + 10 * 60 * 1000
  {
  }
}
